=== FILE: README.md ===
# psifr free-recall tables in Dafny

A model of the table-handling core of psifr (`src/psifr/fr.py`), the
Python package for free-recall analysis. A free-recall experiment shows a
subject a list of items (the *study* phase) and then asks the subject to
recall them in any order (the *recall* phase). psifr keeps such data in two
table shapes:

- a **raw** table holds one row per event: subject, list, trial type
  (`study` or `recall`), position and item;
- a **scored** table holds one row per matched study/recall pair, with
  input and output positions and the `study`, `recall`, `repeat` and
  `intrusion` flags. After scoring it may also carry the prior-list
  provenance of intrusions (`prior_list`, `prior_input`).

The model covers these operations:

- building a raw table from per-list item sequences (`table_from_lists`);
- validating a raw table (`check_data`);
- selecting rows (`filter_data` with `_match_values`);
- numbering runs of labels (`block_index`);
- renumbering each subject's lists (`reset_list`);
- splitting a table back into per-list sequences (`split_lists`);
- scoring study against recall events (`merge_lists`);
- scoring with prior-list intrusion provenance (`merge_free_recall`).

The modules follow that structure:

- `Common` holds cell values, errors and results.
- `Seqs` holds sequence helpers: filtering, mapping, first appearances and a stable sort.
- `Frames` holds the two table shapes and column lookup.
- `Tables` covers `table_from_lists`, `block_index` and `reset_list`.
- `Selection` covers `_match_values`, `filter_data` and `check_data`.
- `Splitting` covers `split_lists`.
- `Scoring` covers `merge_lists` and `merge_free_recall`.
- `RoundTrip` connects the operations: a built table validates, and splitting it gives back its lists.
- `ScoredTrip` splits the scored tables of one subject's lists and gives back their study and recall lists.

The Python code changes state step by step in four places, and those are methods with loops:

- the event-appending loops of `table_from_lists`;
- the counter loop over an array in `block_index`;
- the in-place relabelling in `reset_list`;
- the dictionary-filling loop in `split_lists`.

Each method is proved against a specification function. The pandas
pipelines (`filter_data`, `check_data`, `merge_lists` and
`merge_free_recall`) are functions, with lemmas about them.

Where the Python raises an exception, the model returns an error value:
- `AssertionError` becomes `LengthMismatch`, `ListsLengthMismatch`, `MissingColumn` or `InvalidTrialType`.
- `KeyError` becomes `UnknownColumn`.
- `ValueError` becomes `InvalidPhase`.

`check_data` returns nothing when both of its checks hold. The model's `Pass` is that return.

A `NaN` cell is `Missing`. Absent positions are `None`.

## Model

| member | source | states |
|---|---|---|
| Tables.TableFromLists | src/psifr/fr.py:84-130 | It fails with a length error exactly when the subject, study and recall sequences differ in length, or the list numbers differ in length from the subjects. Otherwise the result is the table of every list's study events and then its recall events. |
| Tables.AppendPhase | src/psifr/fr.py:102-126 | Appending one phase adds exactly one event per item, in item order, with positions 1, 2, ... and the given subject, list and trial type. |
| Tables.TableLength | src/psifr/fr.py:95-126 | The table has one row per study item plus one per recall item of every list. |
| Tables.TableMembers | src/psifr/fr.py:95-126 | An event is in the table iff it is the study item or recall item at its position of some list. That list has the event's subject and the list number `table_from_lists` assigns. |
| Tables.Table | src/psifr/fr.py:95-126 | The table of all lists has one event per study item and per recall item. |
| Tables.AutoNumbering | src/psifr/fr.py:88-100 | Without explicit list numbers, lists are numbered 1, 2, ... within each run of one subject, restarting at 1 when the subject changes. |
| Tables.BlockIndex | src/psifr/fr.py:294-302 | The result has one block number per label. The first number is 1, or 0 when the first label is the empty string. The number goes up by one exactly where a label differs from the one before, and a missing label differs from everything. |
| Tables.NumberedMonotone | src/psifr/fr.py:294-302 | Block numbers never decrease along the labels. |
| Tables.NumberedBound | src/psifr/fr.py:294-302 | The block number of label `i` (from 0) is at most `i + 1`. |
| Tables.RelabelInPlace | src/psifr/fr.py:351 | One assignment gives the new label to exactly the rows of the subject that carry the old label at that moment. No other row changes. |
| Tables.ResetListResult | src/psifr/fr.py:347-352 | The renumbering as written gives every row a label between 1 and its subject's number of distinct lists. |
| Tables.ResetFromRange | src/psifr/fr.py:347-352 | Renumbering the remaining subjects after the first ones labels each row of a renumbered subject within 1..m, m its number of distinct lists, and leaves the other rows as they were. |
| Tables.ResetList | src/psifr/fr.py:347-352 | Processes the subjects in order of first appearance. For each, it assigns `i + 1` to the rows of its `i`-th distinct list label, one label after another, on the table as changed so far. |
| Tables.ResetListCollision | src/psifr/fr.py:348-351 | As written, one subject's lists labelled 2 and then 1 both end up as list 2. The intended renumbering gives 1 and 2. |
| Tables.ResetClean | src/psifr/fr.py:347-352 | The intended renumbering labels each row within 1..m, and two rows of one subject share a new label iff they shared the old one. |
| Tables.CleanLabelsDistinguish | src/psifr/fr.py:347-352 | Two rows of one subject get the same intended label exactly when they have the same list label. |
| Tables.ResetCleanRenumbers | src/psifr/fr.py:347-352 | After the intended renumbering, every subject's lists, in order of first appearance, are exactly 1..m. Two rows of a subject share a new label iff they shared the old one. |
| Tables.ResetListMatchesClean | src/psifr/fr.py:347-352 | When no subject's new label collides with one of its own later old labels, the in-place loop computes exactly the intended renumbering. |
| Selection.MatchValues | src/psifr/fr.py:133-138 | A cell matches iff it equals the single value, or is among the listed values. A missing value matches a missing cell. |
| Selection.FilterOneIsList | src/psifr/fr.py:133-138 | Filtering with single values gives the same result, error or table, as filtering with the one-element lists of them. |
| Selection.FilterData | src/psifr/fr.py:203-223 | Fails iff a filtered column is missing, and reports the first one the filter reads. Otherwise it keeps exactly the rows with a subject that pass every supplied filter, in table order: row k of the result is row `Kept(Mask(f, flt))[k]` of the input. |
| Selection.FirstMissingAt | src/psifr/fr.py:203-220 | The column reported is the first one, in reading order, that the table lacks. |
| Selection.FilterKeepsAdmitted | src/psifr/fr.py:203-223 | A table whose every row passes the filter comes back unchanged. |
| Selection.FilterIdempotent | src/psifr/fr.py:203-223 | Filtering twice with the same arguments is the same as filtering once. |
| Selection.FilterNothing | src/psifr/fr.py:203-223 | With no filter arguments every row is kept. |
| Selection.CheckData | src/psifr/fr.py:262-269 | Passes iff all five required columns are present and every trial type is `study` or `recall`. A failure names the first missing column, or else reports the invalid trial type. |
| Selection.CheckRaw | src/psifr/fr.py:262-269 | A raw table passes iff each of its events is a study or recall event. |
| Selection.CheckScored | src/psifr/fr.py:262-265 | A scored table fails with a missing `trial_type` column. |
| Splitting.PhaseData | src/psifr/fr.py:433-440 | The study phase holds exactly the study rows and the recall phase exactly the recall rows. The raw phase is the whole table. A raw table has no study or recall column, and any other phase name is an error. |
| Splitting.StudyPhase | src/psifr/fr.py:434 | The study phase of a scored table holds each study row as often as the table does and no other row, in table order. |
| Splitting.RecallPhase | src/psifr/fr.py:436 | The recall phase holds each recall row as often as the table does, sorted by list and then by output position. Rows without an output come last. |
| Splitting.RecallOrderKeyMeaning | src/psifr/fr.py:436 | The recall sort key orders rows by list, then by present output position. |
| Splitting.ListLabels | src/psifr/fr.py:432 | The list labels have no duplicates, and a label is among them iff some row of the table has it. |
| Splitting.ColumnFrom | src/psifr/fr.py:448-458 | Every kept value of list `n` from row `p` on is in the result, and every value in it is the cell of such a row. |
| Splitting.Entry | src/psifr/fr.py:455-458 | One entry per list label. Entry `j` contains the cell of every kept phase row of label `j`, and only such cells. |
| Splitting.EntryValues | src/psifr/fr.py:453-465 | Collects, for each list label of the table in order, the column's values on the phase rows of that list that the mask keeps. |
| Splitting.DescribesStep | src/psifr/fr.py:449-454 | Adding the next pair of a key and a name keeps the result equal to the entries of the pairs so far. A repeated name keeps its last pair. |
| Splitting.SplitPairs | src/psifr/fr.py:449-465 | The result has one entry per name among the key/name pairs, stopping at the shorter sequence. Each entry is that column's values per list, or none for a key that is not a column. |
| Splitting.SplitLists | src/psifr/fr.py:425-466 | An empty key list gives an empty result before the phase is examined. Otherwise the result is an error iff selecting the phase fails, and is then the same error. On success it holds the entries of the key/name pairs, with keys defaulting to the columns and names to the keys. |
| Scoring.Cumcount | src/psifr/fr.py:727-728 | Each recall event keeps its place and its event; only the repeat number is added. |
| Scoring.CumcountCounts | src/psifr/fr.py:727-728 | Each recall event's repeat number is the count of earlier recall events with the same subject, list and item. |
| Scoring.MergeLists | src/psifr/fr.py:727-772 | The merged rows are sorted by subject, list and input position. They number one per study event and recall of its item (at least one per study event), plus one per recall with no study event of its item in its list. |
| Scoring.JoinCount | src/psifr/fr.py:736-742 | The outer join has exactly that many rows. |
| Scoring.MatchesFrom | src/psifr/fr.py:727-742 | A study event joins one recall row per recall event of its subject, list and item. |
| Scoring.MatchesRepeat | src/psifr/fr.py:727-728 | The recalls that join one study event are numbered on from the counter's value for its key, one apart, in recall order (0, 1, 2, ... for `cumcount`). |
| Scoring.JoinStudyRows | src/psifr/fr.py:736-755 | The study rows of the join are, in study order, one per study event: the event paired with the first recall of its item, or unrecalled. |
| Scoring.JoinRecallRows | src/psifr/fr.py:736-759 | The recall rows of the join are the study events' pairs followed by the intrusions. |
| Scoring.MergeStudyRows | src/psifr/fr.py:736-772 | Every study event gives exactly one study row of the merge, whatever its recalls. |
| Scoring.MergeMembers | src/psifr/fr.py:736-742 | A row is in the merge iff it is one of three kinds: a study event paired with one recall of its item, an unrecalled study event, or a recall with no study event of its item in that list. |
| Scoring.MergeFlags | src/psifr/fr.py:750-762 | Every row's `study`, `recall` and `intrusion` flags follow from its positions and repeat number. An intrusion is never a study event. A repeat is never a unique study event. No row has provenance yet. |
| Scoring.MergeKeepsStudy | src/psifr/fr.py:736-762 | Every study event appears with its input position. Every input position comes from a study event. A row is an intrusion iff its subject, list and item were not studied. |
| Scoring.MergeKeepsRecall | src/psifr/fr.py:727-742 | Every recall event appears as a row with its output position and its repeat number. |
| Scoring.MergeRecallOrigin | src/psifr/fr.py:727-747 | Every row with an output position carries a recall event's position and repeat number. |
| Scoring.MergeUnrecalled | src/psifr/fr.py:750-759 | A row without an output position is an unrecalled study event with repeat 0. |
| Scoring.MergeOrderKeyMeaning | src/psifr/fr.py:769-772 | The sort key orders rows by subject, then list, then input position, with rows lacking an input last. |
| Scoring.MergeSorted | src/psifr/fr.py:769-772 | The merged rows are in that order. |
| Scoring.MergeScored | src/psifr/fr.py:603-605 | The list merge satisfies what the provenance step relies on. No row has provenance, and a row is an intrusion exactly when its item was not studied in its list. |
| Scoring.AddProvenance | src/psifr/fr.py:607-624 | Adding provenance never drops a row. When the rows come from the list merge against those study events, it keeps the study rows as they are, in order. |
| Scoring.MergeFreeRecall | src/psifr/fr.py:603-624 | The result has at least the rows of the list merge, and exactly its study rows in its order. |
| Scoring.NoPriorsForStudied | src/psifr/fr.py:608-618 | A merge row that is no intrusion joins no provenance entry, so the join gives back just that row. |
| Scoring.ProvenanceKeepsStudy | src/psifr/fr.py:608-624 | For rows of the list merge, the study rows pass through the provenance joins unchanged and in order. |
| Scoring.PriorMatchesCount | src/psifr/fr.py:609 | The inner join gives a row `y` one entry per intrusion that shares its join columns, times each study event of the subject with its item. |
| Scoring.ProvenanceCount | src/psifr/fr.py:609-623 | Counted by what it was before, each merge row `y` comes back m·max(1, j·s) times. Here m is its multiplicity, j the intrusions sharing its join columns and s the study events of its item. A row that is no intrusion comes back exactly m times. |
| Scoring.FreeRecallCount | src/psifr/fr.py:603-624 | The same count for `merge_free_recall` of a raw table. |
| Scoring.PriorsJoinMerged | src/psifr/fr.py:608-618 | Every provenance entry joins an intrusion row of the merge, so the outer join adds no new rows. |
| Scoring.FreeRecallSound | src/psifr/fr.py:603-624 | Every output row is a merge row, possibly with provenance. `prior_list` and `prior_input` are both present or both absent. When present, the row is an intrusion whose item the subject studied at that position of that strictly earlier list. |
| Scoring.FreeRecallKeepsRows | src/psifr/fr.py:616-624 | Every row of the list merge survives into the output. |
| Scoring.FreeRecallComplete | src/psifr/fr.py:608-618 | For each study event of an intrusion's item in an earlier list of the same subject, the output has the intrusion's row naming that list and that serial position. |
| Scoring.FreeRecallClearsFuture | src/psifr/fr.py:620-623 | A study of the item in a later list is cleared: the intrusion row it joins keeps no provenance. |
| RoundTrip.CheckOneList | src/psifr/fr.py:226-269 | `check_data` of the table with one subject, study list [a] and recall list [a] returns without raising. |
| RoundTrip.TableChecks | src/psifr/fr.py:84-130 | Every table built from lists passes `check_data`. |
| RoundTrip.PrefixLabels | src/psifr/fr.py:88-100 | For one subject with automatic numbering and no empty study list, the list labels in order of first appearance are 1..n. |
| RoundTrip.RawSplitRoundTrip | src/psifr/fr.py:425-466 | For one subject with automatic numbering and no empty study list, splitting the raw table's item column by list gives back each list's study items followed by its recall items. |
| ScoredTrip.MergeRecallRows | src/psifr/fr.py:727-742 | When no list repeats a study item, the recall rows of the merge are one per recall event: a pair with the study of its item, or an intrusion. |
| ScoredTrip.StudyListRows | src/psifr/fr.py:736-772 | The study rows of list n of the merge are one per study item, in serial order, and carry that list's study items. |
| ScoredTrip.RecallListRows | src/psifr/fr.py:436 | When no list repeats a study item, the sorted recall rows of list i + 1 carry that list's recall items in output order. |
| ScoredTrip.MergeLabels | src/psifr/fr.py:432 | The list merge of lists 1..k of one subject, each with a study item, has the list labels 1..k. |
| ScoredTrip.FreeRecallLabels | src/psifr/fr.py:432 | So does the free-recall scoring of those lists. |
| ScoredTrip.FreeRecallSorted | src/psifr/fr.py:616-624 | The free-recall scoring keeps the sort order of the list merge. |
| ScoredTrip.FreeRecallStrips | src/psifr/fr.py:609-618 | When no list repeats a study item and every intrusion was studied in at most one list, the free-recall rows are the list-merge rows, each once, with provenance added to some. |
| ScoredTrip.StudySplitRoundTrip | src/psifr/fr.py:425-466 | For one subject with automatic numbering and no empty study list, splitting the study phase of the free-recall scoring by list gives back each list's study items. |
| ScoredTrip.RecallSplitRoundTrip | src/psifr/fr.py:425-466 | When, in addition, no list repeats a study item, splitting the recall phase of the list merge by list gives back each list's recall items in output order. |
| ScoredTrip.FreeRecallSplitRoundTrip | src/psifr/fr.py:425-466 | The same for the recall phase of the free-recall scoring, when also every intrusion was studied in at most one list. |
| ScoredTrip.ExampleConditions | src/psifr/fr.py:609 | Three lists where "x" is studied in lists 1 and 3 and recalled in list 2 meet every other condition of the round trip, but not the one about intrusions. |
| ScoredTrip.PriorListsCounterexample | src/psifr/fr.py:609-618 | For those lists, the recall entry of list 2 has three or more items instead of its two recalls. |

## Left out

- Extra columns are left out: the `kwargs` columns of `table_from_lists` and the `list_keys`, `study_keys` and `recall_keys` of `merge_lists`. The model has the fixed raw and scored column sets only.
- `merge_keys` and `position_key` of `merge_lists` are fixed at their defaults (subject, list and item; position).
- The pandas query string of `split_lists` becomes a predicate over a row's column/value mapping. Evaluating query strings is not modelled.
- The `as_list` flag of `split_lists` is not modelled. Lists and numpy arrays are both sequences here.
- A `None` entry in the keys of `split_lists` is not modelled. Keys are column names.
- Positions are natural numbers and absent ones are `None`. The float/NaN encoding of positions in pandas is not modelled.
- Subjects are never missing in a model table, so the `notna` mask of `filter_data` keeps every row. Missing subjects are not modelled.
- Tables are limited to the raw and the scored column sets. `check_data` is also modelled on any column list with any trial-type column (`Selection.CheckData`), which covers tables lacking a column.
- Python's cross-kind equality of cells (`True == 1`) is not modelled. Cells of different kinds never match.
- `Scoring.MergeLists`: the outer merge at fr.py:736-742 is modelled as the study side in study order, followed by the intrusions in recall order. pandas' outer merge orders its rows by the join keys (subject, list, item). The sort at fr.py:771-772 is stable, as pandas' sort on several columns is, so it keeps the merge's order among rows that tie on (subject, list, input). The two therefore differ only in the order of one list's intrusions, which all lack an input: pandas gives them in item order, the model in recall order.
- `Scoring.MergeFreeRecall`: rows keep the list merge's order, and the provenance join inserts each intrusion's matches in place. pandas' outer merge may order rows by key instead. `Scoring.PriorsJoinMerged` proves the join adds no rows beyond the left ones. The serial order in `ScoredTrip.StudySplitRoundTrip` and all of `ScoredTrip.FreeRecallSorted` rest on this choice. If the outer merge at fr.py:616-618 sorted by (subject, list, item, output), the study split would come back in item order within each list.
- `Tables.BlockIndex`: labels are compared with Python `!=` on one kind of cell. The numpy array's integer width is unbounded here.
- pandas index labels are not modelled: tables are positional, and `SelectsRows` records positions in its input, not labels. Nothing in these operations reads the index: `split_lists` calls `reset_index` (fr.py:448), and `merge_lists` sorts with `ignore_index` (fr.py:772).
- Subjects are `int`, list labels `nat` and items strings. The source takes any hashable value for each (fr.py:25-34).
- ScoredTrip.FreeRecallSplitRoundTrip: the recall round trip through `merge_free_recall` needs every intrusion to be of an item studied in at most one list (`FewPriorLists`). The inner join (fr.py:609) and the outer merge (fr.py:616-618) give an intrusion one row per study event of its item. A later list's match is cleared, not dropped, so the recall repeats in the split. `ScoredTrip.PriorListsCounterexample` shows this for study [[x, a], [b, c], [d, x]] and recall [[], [x, b], []].
- ScoredTrip.RecallSplitRoundTrip: requires that no list repeats a study item (`DistinctLists`). A repeated study item pairs each of its recalls with each of its study events (fr.py:736-742), so its recall rows repeat.
- The functions of `fr.py` beyond these eight operations are not part of this model: the analyses (`spc`, `pnr`, `lag_crp` and the rest), the plots and `sample_data`.

## Findings

| source | as written | input that shows it | evidently intended | confidence | as-written member | corrected member |
|---|---|---|---|---|---|---|
| src/psifr/fr.py:348-351 | `reset_list` relabels the list column in place. Rows given label `i + 1` are found again by a later `list == listno` test when a later old label equals `i + 1`. | One subject (7) with two lists labelled 2 and then 1: the rows end up labelled [2, 2] | Each subject's lists become 1, 2, ... in order of first appearance: [1, 2] | not executed | Tables.ResetListCollision | Tables.ResetClean |

The corrected renumbering `Tables.ResetClean` is proved by
`Tables.ResetCleanRenumbers`. `Tables.ResetListMatchesClean` proves it
agrees with the loop as written whenever no new label collides. The
collision condition is that some subject's `i`-th distinct old label
(from 0) lies in 1..i.

=== FILE: common.dfy ===
/** Shared vocabulary of the free-recall tables: optional values, results
    with the errors the table operations raise, and the cell values that a
    column of a table can hold. */
module Common {

  /** A value that may be absent; stands for a NaN cell of a numeric column. */
  datatype Option<+T> = None | Some(value: T)

  /** The errors raised by the table operations. */
  datatype Error =
    | LengthMismatch            // subjects, study and recall differ in length
    | ListsLengthMismatch       // the list numbers differ in length from the subjects
    | MissingColumn(name: string)  // a required column is absent from a raw table
    | InvalidTrialType          // a trial type other than "study" or "recall"
    | UnknownColumn(name: string)  // a lookup of a column the table does not have
    | InvalidPhase(phase: string)  // a phase other than "study", "recall" or "raw"

  /** Either a value or the error that was raised instead. */
  datatype Result<+T> = Ok(value: T) | Err(error: Error)

  /** The verdict of a validation that returns nothing when it passes. */
  datatype Outcome = Pass | Fail(error: Error)

  /** The content of one cell of a table. `Missing` is a NaN. */
  datatype Value = Missing | Int(i: int) | Text(s: string) | Flag(b: bool)

  /** The cell holding an optional position. */
  function PositionValue(p: Option<nat>): (v: Value)
    ensures v.Missing? <==> p.None?
    ensures p.Some? ==> v == Int(p.value)
  {
    match p
    case None => Missing
    case Some(n) => Int(n)
  }
}

=== FILE: frames.dfy ===
/** The two kinds of table the free-recall code works on: raw event tables
    (one row per study or recall event) and scored tables (one row per
    matched study/recall pair), with column lookup by name. */
module Frames {
  import opened Common

  /** Item identity; any comparable label (words in the examples). */
  type Item = string

  /** One raw event: a presented or a recalled item. */
  datatype Event = Event(subject: int, list: nat, trialType: string, position: nat, item: Item)

  /** One scored row: a study event and/or a recall event for one item
      of one list of one subject. */
  datatype Row = Row(
    subject: int,
    list: nat,
    item: Item,
    input: Option<nat>,       // serial position of the study event
    output: Option<nat>,      // output position of the recall event
    study: bool,              // a unique study event
    recall: bool,             // a recall event (repeats included)
    repeat: nat,              // earlier recalls of the same item in the list
    intrusion: bool,          // recalled without a study event in this list
    priorList: Option<nat>,   // for prior-list intrusions, where it was studied
    priorInput: Option<nat>)  // ... and at which serial position

  /** The row is a study event (a unique one: not a repeat). */
  predicate IsStudy(x: Row) { x.study }

  /** The row is a recall event (repeats included). */
  predicate IsRecall(x: Row) { x.recall }

  /** The row is a recall without a study event of its item in its list. */
  predicate IsIntrusion(x: Row) { x.intrusion }

  /** The row belongs to list `n`. */
  function InList(n: nat): Row -> bool
  {
    (x: Row) => x.list == n
  }

  /** A table. `provenance` says whether the prior-list columns exist
      (they are added by the free-recall scoring, not by the list merge). */
  datatype Frame = Raw(events: seq<Event>) | Scored(rows: seq<Row>, provenance: bool)
  {
    /** The column names, in table order. */
    function Columns(): seq<string>
    {
      match this
      case Raw(_) => ["subject", "list", "trial_type", "position", "item"]
      case Scored(_, prov) =>
        ["subject", "list", "item", "input", "output", "study", "recall", "repeat", "intrusion"]
        + (if prov then ["prior_list", "prior_input"] else [])
    }

    function Length(): nat
    {
      match this
      case Raw(es) => |es|
      case Scored(rs, _) => |rs|
    }

    /** The list label of row `i`. */
    function ListOf(i: nat): nat
      requires i < Length()
    {
      match this
      case Raw(es) => es[i].list
      case Scored(rs, _) => rs[i].list
    }

    /** The cell of row `i` in column `name`; `Missing` for a name that is
        not one of the columns. */
    function Cell(i: nat, name: string): (v: Value)
      requires i < Length()
      ensures name == "list" ==> v == Int(ListOf(i))
      ensures name !in Columns() ==> v == Missing
    {
      match this
      case Raw(es) => EventCell(es[i], name)
      case Scored(rs, prov) =>
        if !prov && name in ["prior_list", "prior_input"] then Missing else RowCell(rs[i], name)
    }

    /** Row `i` as a mapping from column name to cell. */
    function Record(i: nat): (m: map<string, Value>)
      requires i < Length()
      ensures forall name :: name in m <==> name in Columns()
    {
      map name | name in Columns() :: Cell(i, name)
    }
  }

  function EventCell(e: Event, name: string): Value
  {
    if name == "subject" then Int(e.subject)
    else if name == "list" then Int(e.list)
    else if name == "trial_type" then Text(e.trialType)
    else if name == "position" then Int(e.position)
    else if name == "item" then Text(e.item)
    else Missing
  }

  function RowCell(r: Row, name: string): Value
  {
    if name == "subject" then Int(r.subject)
    else if name == "list" then Int(r.list)
    else if name == "item" then Text(r.item)
    else if name == "input" then PositionValue(r.input)
    else if name == "output" then PositionValue(r.output)
    else if name == "study" then Flag(r.study)
    else if name == "recall" then Flag(r.recall)
    else if name == "repeat" then Int(r.repeat)
    else if name == "intrusion" then Flag(r.intrusion)
    else if name == "prior_list" then PositionValue(r.priorList)
    else if name == "prior_input" then PositionValue(r.priorInput)
    else Missing
  }
}

=== FILE: roundtrip.dfy ===
/** How the operations fit together: a table built from lists passes
    validation, and splitting a raw table built from lists gives back, list
    by list, the items it was built from. */
module RoundTrip {
  import opened Common
  import opened Seqs
  import opened Frames
  import opened Tables
  import opened Selection
  import opened Splitting

  /** Every table built from lists is a valid raw event table. */
  lemma TableChecks(subjects: seq<int>, study: seq<seq<Item>>, recall: seq<seq<Item>>, labels: seq<Option<nat>>)
    requires |study| == |subjects| && |recall| == |subjects| && |labels| == |subjects|
    ensures CheckData(Raw(Table(subjects, study, recall, labels)).Columns(),
                      TrialTypes(Table(subjects, study, recall, labels))) == Pass
  {
    var t := Table(subjects, study, recall, labels);
    forall e | e in t ensures e.trialType == "study" || e.trialType == "recall" {
      TableMembers(subjects, study, recall, labels, |subjects|, e);
    }
    CheckRaw(t);
  }

  /** The table of one subject with study list ["a"] and recall list ["a"]
      passes validation: `check_data` returns without raising. */
  lemma CheckOneList()
    ensures CheckData(Raw(Table([1], [["a"]], [["a"]], [None])).Columns(),
                      TrialTypes(Table([1], [["a"]], [["a"]], [None]))) == Pass
  {
    TableChecks([1], [["a"]], [["a"]], [None]);
  }

  /** The list column of a sequence of events. */
  function ListColumn(es: seq<Event>): (r: seq<nat>)
    ensures |r| == |es|
  {
    seq(|es|, i requires 0 <= i < |es| => es[i].list)
  }

  /** The values in column `key` of the events of list `n`, in order. */
  function EventsColumn(es: seq<Event>, key: string, n: nat): seq<Value>
  {
    if es == [] then [] else
      (if es[0].list == n then [EventCell(es[0], key)] else []) + EventsColumn(es[1..], key, n)
  }

  lemma {:induction false} EventsColumnAppend(a: seq<Event>, b: seq<Event>, key: string, n: nat)
    ensures EventsColumn(a + b, key, n) == EventsColumn(a, key, n) + EventsColumn(b, key, n)
  {
    if a == [] {
      assert a + b == b;
    } else {
      var head := if a[0].list == n then [EventCell(a[0], key)] else [];
      assert (a + b)[0] == a[0];
      assert (a + b)[1..] == a[1..] + b;
      EventsColumnAppend(a[1..], b, key, n);
      assert EventsColumn(a + b, key, n) == head + EventsColumn(a[1..] + b, key, n);
      assert EventsColumn(a, key, n) == head + EventsColumn(a[1..], key, n);
    }
  }

  /** Events of one list contribute all their values to that list, and
      nothing to any other. */
  lemma {:induction false} EventsColumnUniform(es: seq<Event>, key: string, m: nat, n: nat)
    requires forall e :: e in es ==> e.list == m
    ensures EventsColumn(es, key, n) ==
      if m == n then seq(|es|, j requires 0 <= j < |es| => EventCell(es[j], key)) else []
  {
    if es != [] {
      assert es[0] in es;
      assert forall e :: e in es[1..] ==> e in es;
      EventsColumnUniform(es[1..], key, m, n);
    }
  }

  /** Without a query, a phase's mask keeps every row, and the split column
      of a raw table reads its events directly. */
  lemma {:induction false} ColumnFromRaw(es: seq<Event>, key: string, n: nat, p: nat)
    requires p <= |es|
    ensures ColumnFrom(Raw(es), key, QueryMask(Raw(es), None), n, p) == EventsColumn(es[p..], key, n)
    decreases |es| - p
  {
    if p < |es| {
      ColumnFromRaw(es, key, n, p + 1);
      assert es[p..] == [es[p]] + es[p + 1..];
      assert es[p..][1..] == es[p + 1..];
    } else {
      assert es[p..] == [];
    }
  }

  /** One subject whose lists are numbered automatically. */
  predicate SingleSubjectAuto(subjects: seq<int>, labels: seq<Option<nat>>)
  {
    && |labels| == |subjects|
    && (forall k :: 0 <= k < |labels| ==> labels[k].None?)
    && (forall k :: 0 <= k < |subjects| ==> subjects[k] == subjects[0])
  }

  lemma AutoNumbers(subjects: seq<int>, labels: seq<Option<nat>>, i: nat)
    requires SingleSubjectAuto(subjects, labels) && i < |subjects|
    ensures ListNumber(subjects, labels, i) == i + 1
  {
    AutoNumbering(subjects, labels, 0, i);
  }

  /** The events of list `i` of the table. */
  function Block(subjects: seq<int>, study: seq<seq<Item>>, recall: seq<seq<Item>>, labels: seq<Option<nat>>, i: nat): seq<Event>
    requires |study| == |subjects| && |recall| == |subjects| && |labels| == |subjects| && i < |subjects|
  {
    ListEvents(subjects, study, recall, labels, i)
  }

  lemma BlockLists(subjects: seq<int>, study: seq<seq<Item>>, recall: seq<seq<Item>>, labels: seq<Option<nat>>, i: nat)
    requires |study| == |subjects| && |recall| == |subjects| && i < |subjects|
    requires SingleSubjectAuto(subjects, labels)
    ensures forall e :: e in Block(subjects, study, recall, labels, i) ==> e.list == i + 1
  {
    AutoNumbers(subjects, labels, i);
    var n := ListNumber(subjects, labels, i);
    forall e | e in Block(subjects, study, recall, labels, i) ensures e.list == i + 1 {
      PhaseEventsMembers(subjects[i], n, "study", study[i], e);
      PhaseEventsMembers(subjects[i], n, "recall", recall[i], e);
    }
  }

  /** Splitting the first `k` lists by list `n` finds exactly list `n`. */
  lemma {:induction false} PrefixColumn(subjects: seq<int>, study: seq<seq<Item>>, recall: seq<seq<Item>>,
                                        labels: seq<Option<nat>>, key: string, k: nat, n: nat)
    requires |study| == |subjects| && |recall| == |subjects| && k <= |subjects|
    requires SingleSubjectAuto(subjects, labels)
    ensures EventsColumn(TablePrefix(subjects, study, recall, labels, k), key, n) ==
      if 1 <= n <= k then
        var b := Block(subjects, study, recall, labels, n - 1);
        seq(|b|, j requires 0 <= j < |b| => EventCell(b[j], key))
      else []
  {
    if k > 0 {
      PrefixColumn(subjects, study, recall, labels, key, k - 1, n);
      var b := Block(subjects, study, recall, labels, k - 1);
      EventsColumnAppend(TablePrefix(subjects, study, recall, labels, k - 1), b, key, n);
      BlockLists(subjects, study, recall, labels, k - 1);
      EventsColumnUniform(b, key, k, n);
    }
  }

  /** `len` copies of `x`. */
  function Run(len: nat, x: nat): (r: seq<nat>)
    ensures |r| == len && forall j :: 0 <= j < len ==> r[j] == x
  {
    seq(len, _ => x)
  }

  /** The labels 1..k. */
  function Count(k: nat): (r: seq<nat>)
    ensures |r| == k && forall j :: 0 <= j < k ==> r[j] == j + 1
  {
    seq(k, i => i + 1)
  }

  lemma CountSnoc(k: nat)
    requires k >= 1
    ensures Count(k) == Count(k - 1) + [k]
  {
    assert Count(k)[k - 1] == k;
  }

  /** Items as text cells. */
  function Texts(items: seq<Item>): (r: seq<Value>)
    ensures |r| == |items| && forall j :: 0 <= j < |items| ==> r[j] == Text(items[j])
  {
    seq(|items|, j requires 0 <= j < |items| => Text(items[j]))
  }

  /** Appending a run of a new label adds that label once, at the end. */
  lemma {:induction false} UniqueRun(c: seq<nat>, x: nat, len: nat)
    requires x !in c && len >= 1
    ensures Unique(c + Run(len, x)) == Unique(c) + [x]
  {
    if len == 1 {
      assert c + Run(1, x) == c + [x];
      UniqueSnoc(c, x);
    } else {
      UniqueRun(c, x, len - 1);
      assert c + Run(len, x) == (c + Run(len - 1, x)) + [x];
      assert x in c + Run(len - 1, x) by {
        assert (c + Run(len - 1, x))[|c|] == x;
      }
      UniqueSnoc(c + Run(len - 1, x), x);
    }
  }

  lemma ListColumnAppend(a: seq<Event>, b: seq<Event>)
    ensures ListColumn(a + b) == ListColumn(a) + ListColumn(b)
  {
  }

  /** List `k` (from 1) is a non-empty run of label `k`. */
  lemma BlockColumn(subjects: seq<int>, study: seq<seq<Item>>, recall: seq<seq<Item>>,
                    labels: seq<Option<nat>>, k: nat)
    requires |study| == |subjects| && |recall| == |subjects| && 1 <= k <= |subjects|
    requires SingleSubjectAuto(subjects, labels)
    requires study[k - 1] != []
    ensures var b := Block(subjects, study, recall, labels, k - 1);
            |b| >= 1 && ListColumn(b) == Run(|b|, k)
  {
    var b := Block(subjects, study, recall, labels, k - 1);
    BlockLists(subjects, study, recall, labels, k - 1);
    forall j | 0 <= j < |b| ensures b[j].list == k {
      assert b[j] in b;
    }
  }

  /** The labels of the first `k` lists lie in 1..k. */
  lemma {:induction false} PrefixLabelRange(subjects: seq<int>, study: seq<seq<Item>>, recall: seq<seq<Item>>,
                                            labels: seq<Option<nat>>, k: nat)
    requires |study| == |subjects| && |recall| == |subjects| && k <= |subjects|
    requires SingleSubjectAuto(subjects, labels)
    ensures forall e :: e in TablePrefix(subjects, study, recall, labels, k) ==> 1 <= e.list <= k
  {
    if k > 0 {
      PrefixLabelRange(subjects, study, recall, labels, k - 1);
      BlockLists(subjects, study, recall, labels, k - 1);
    }
  }

  /** List `k + 1` is not yet among the first `k` lists. */
  lemma LabelNew(subjects: seq<int>, study: seq<seq<Item>>, recall: seq<seq<Item>>,
                 labels: seq<Option<nat>>, k: nat)
    requires |study| == |subjects| && |recall| == |subjects| && k <= |subjects|
    requires SingleSubjectAuto(subjects, labels)
    ensures k + 1 !in ListColumn(TablePrefix(subjects, study, recall, labels, k))
  {
    var before := TablePrefix(subjects, study, recall, labels, k);
    PrefixLabelRange(subjects, study, recall, labels, k);
    forall j | 0 <= j < |before| ensures ListColumn(before)[j] != k + 1 {
      assert before[j] in before;
    }
  }

  /** The list column of the first `k` lists: that of the first `k - 1`,
      then a non-empty run of label `k`. */
  lemma PrefixSplit(subjects: seq<int>, study: seq<seq<Item>>, recall: seq<seq<Item>>,
                    labels: seq<Option<nat>>, k: nat)
    requires |study| == |subjects| && |recall| == |subjects| && 1 <= k <= |subjects|
    requires SingleSubjectAuto(subjects, labels)
    requires study[k - 1] != []
    ensures var b := Block(subjects, study, recall, labels, k - 1);
            |b| >= 1 &&
            ListColumn(TablePrefix(subjects, study, recall, labels, k)) ==
            ListColumn(TablePrefix(subjects, study, recall, labels, k - 1)) + Run(|b|, k)
  {
    var before := TablePrefix(subjects, study, recall, labels, k - 1);
    var b := Block(subjects, study, recall, labels, k - 1);
    assert TablePrefix(subjects, study, recall, labels, k) == before + b;
    BlockColumn(subjects, study, recall, labels, k);
    ListColumnAppend(before, b);
  }

  /** The labels of the first `k` lists, in order of first appearance, are
      1..k, provided no list is empty. */
  lemma {:induction false} PrefixLabels(subjects: seq<int>, study: seq<seq<Item>>, recall: seq<seq<Item>>,
                                        labels: seq<Option<nat>>, k: nat)
    requires |study| == |subjects| && |recall| == |subjects| && k <= |subjects|
    requires SingleSubjectAuto(subjects, labels)
    requires forall i :: 0 <= i < |study| ==> study[i] != []
    ensures Unique(ListColumn(TablePrefix(subjects, study, recall, labels, k))) == Count(k)
  {
    if k > 0 {
      PrefixLabels(subjects, study, recall, labels, k - 1);
      var c := ListColumn(TablePrefix(subjects, study, recall, labels, k - 1));
      var len := |Block(subjects, study, recall, labels, k - 1)|;
      assert study[k - 1] != [];
      PrefixSplit(subjects, study, recall, labels, k);
      LabelNew(subjects, study, recall, labels, k - 1);
      UniqueRun(c, k, len);
      assert Unique(ListColumn(TablePrefix(subjects, study, recall, labels, k))) == Unique(c) + [k];
      CountSnoc(k);
    } else {
      assert ListColumn([]) == [];
    }
  }

  /** The item cells of list `i` are its study items, then its recall items. */
  lemma BlockItems(subjects: seq<int>, study: seq<seq<Item>>, recall: seq<seq<Item>>, labels: seq<Option<nat>>, i: nat)
    requires |study| == |subjects| && |recall| == |subjects| && |labels| == |subjects| && i < |subjects|
    ensures var b := Block(subjects, study, recall, labels, i);
            seq(|b|, j requires 0 <= j < |b| => EventCell(b[j], "item")) == Texts(study[i] + recall[i])
  {
    var b := Block(subjects, study, recall, labels, i);
    var n := ListNumber(subjects, labels, i);
    var st, rc := PhaseEvents(subjects[i], n, "study", study[i]), PhaseEvents(subjects[i], n, "recall", recall[i]);
    assert b == st + rc;
    forall j | 0 <= j < |b| ensures EventCell(b[j], "item") == Text((study[i] + recall[i])[j]) {
      if j < |study[i]| {
        assert b[j] == st[j];
      } else {
        assert b[j] == rc[j - |study[i]|];
        assert (study[i] + recall[i])[j] == recall[i][j - |study[i]|];
      }
    }
  }

  /** The split of list `i`. */
  lemma RoundTripList(subjects: seq<int>, study: seq<seq<Item>>, recall: seq<seq<Item>>, labels: seq<Option<nat>>, i: nat)
    requires |study| == |subjects| && |recall| == |subjects| && i < |subjects|
    requires SingleSubjectAuto(subjects, labels)
    ensures var t := Table(subjects, study, recall, labels);
            ColumnFrom(Raw(t), "item", QueryMask(Raw(t), None), i + 1, 0) ==
            Texts(study[i] + recall[i])
  {
    var t := Table(subjects, study, recall, labels);
    ColumnFromRaw(t, "item", i + 1, 0);
    assert t[0..] == t;
    PrefixColumn(subjects, study, recall, labels, "item", |subjects|, i + 1);
    BlockItems(subjects, study, recall, labels, i);
  }

  /** Entry `i` of a split by the labels 1..n is list `i + 1`. */
  lemma EntryByList(f: Frame, key: string, mask: seq<bool>, n: nat)
    requires |mask| == f.Length()
    ensures |Entry(f, key, mask, Count(n))| == n
    ensures forall i :: 0 <= i < n ==> Entry(f, key, mask, Count(n))[i] == ColumnFrom(f, key, mask, i + 1, 0)
  {
    var lists := Count(n);
    forall i | 0 <= i < n ensures Entry(f, key, mask, lists)[i] == ColumnFrom(f, key, mask, i + 1, 0) {
      assert lists[i] == i + 1;
    }
  }

  /** The list labels of a raw table, in order of first appearance. */
  lemma RawListLabels(t: seq<Event>)
    ensures ListLabels(Raw(t)) == Unique(ListColumn(t))
  {
    var f := Raw(t);
    assert ListColumn(t) == seq(f.Length(), i requires 0 <= i < f.Length() => f.ListOf(i));
  }

  /** Splitting the raw table of one subject's lists (each with at least one
      study item) by list gives back, for each list in order, its study
      items followed by its recall items. */
  lemma RawSplitRoundTrip(subjects: seq<int>, study: seq<seq<Item>>, recall: seq<seq<Item>>, labels: seq<Option<nat>>)
    requires |study| == |subjects| && |recall| == |subjects|
    requires SingleSubjectAuto(subjects, labels)
    requires forall i :: 0 <= i < |study| ==> study[i] != []
    ensures var f := Raw(Table(subjects, study, recall, labels));
            var e := Entry(f, "item", QueryMask(f, None), ListLabels(f));
            |e| == |subjects| &&
            forall i :: 0 <= i < |subjects| ==>
              e[i] == Texts(study[i] + recall[i])
  {
    var t := Table(subjects, study, recall, labels);
    var f := Raw(t);
    var mask := QueryMask(f, None);
    PrefixLabels(subjects, study, recall, labels, |subjects|);
    RawListLabels(t);
    EntryByList(f, "item", mask, |subjects|);
    forall i | 0 <= i < |subjects| ensures ColumnFrom(f, "item", mask, i + 1, 0) == Texts(study[i] + recall[i]) {
      RoundTripList(subjects, study, recall, labels, i);
    }
  }
}

=== FILE: scoredtrip.dfy ===
/** Splitting the scored tables of one subject's lists by list: the study
    phase gives back the study items of each list, and the recall phase of
    the list merge the recall items; the recall phase of the free-recall
    scoring does so as long as no intrusion was studied in two lists. */
module ScoredTrip {
  import opened Common
  import opened Seqs
  import opened Frames
  import opened Tables
  import opened Scoring
  import opened Splitting
  import opened RoundTrip

  // ---------------------------------------------------------------------
  // The study and recall events of a table of one subject
  // ---------------------------------------------------------------------

  /** The lists of subject `subject`, numbered automatically. */
  predicate Subject(subjects: seq<int>, study: seq<seq<Item>>, recall: seq<seq<Item>>,
                    labels: seq<Option<nat>>, subject: int)
  {
    && |study| == |subjects| && |recall| == |subjects| && |labels| == |subjects|
    && forall i :: 0 <= i < |subjects| ==> subjects[i] == subject && labels[i].None?
  }

  /** The study events (`studyPhase`) or the recall events of a table. */
  function PhaseOf(data: seq<Event>, studyPhase: bool): seq<Event>
  {
    if studyPhase then StudyEvents(data) else RecallEvents(data)
  }

  function TrialType(studyPhase: bool): string
  {
    if studyPhase then "study" else "recall"
  }

  function ItemsOf(study: seq<seq<Item>>, recall: seq<seq<Item>>, studyPhase: bool): seq<seq<Item>>
  {
    if studyPhase then study else recall
  }

  /** The event belongs to list `n`. */
  function EvInList(n: nat): Event -> bool
  {
    (e: Event) => e.list == n
  }

  /** The events of a phase of the first `k` lists: those of the first
      `k - 1`, then those of list `k`. */
  lemma PhaseStep(subjects: seq<int>, study: seq<seq<Item>>, recall: seq<seq<Item>>,
                  labels: seq<Option<nat>>, subject: int, studyPhase: bool, k: nat)
    requires Subject(subjects, study, recall, labels, subject) && 1 <= k <= |subjects|
    ensures PhaseOf(TablePrefix(subjects, study, recall, labels, k), studyPhase) ==
            PhaseOf(TablePrefix(subjects, study, recall, labels, k - 1), studyPhase) +
            PhaseEvents(subject, k, TrialType(studyPhase), ItemsOf(study, recall, studyPhase)[k - 1])
  {
    var before := TablePrefix(subjects, study, recall, labels, k - 1);
    var st := PhaseEvents(subject, k, "study", study[k - 1]);
    var rc := PhaseEvents(subject, k, "recall", recall[k - 1]);
    assert TablePrefix(subjects, study, recall, labels, k) == before + (st + rc) by {
      AutoNumbers(subjects, labels, k - 1);
    }
    if studyPhase {
      assert Where(st + rc, IsStudyEvent) == st by {
        forall e | e in st ensures IsStudyEvent(e) {
          PhaseEventsMembers(subject, k, "study", study[k - 1], e);
        }
        forall e | e in rc ensures !IsStudyEvent(e) {
          PhaseEventsMembers(subject, k, "recall", recall[k - 1], e);
        }
        WhereAppend(st, rc, IsStudyEvent);
        WhereAll(st, IsStudyEvent);
        WhereNone(rc, IsStudyEvent);
      }
      WhereAppend(before, st + rc, IsStudyEvent);
    } else {
      assert Where(st + rc, IsRecallEvent) == rc by {
        forall e | e in st ensures !IsRecallEvent(e) {
          PhaseEventsMembers(subject, k, "study", study[k - 1], e);
        }
        forall e | e in rc ensures IsRecallEvent(e) {
          PhaseEventsMembers(subject, k, "recall", recall[k - 1], e);
        }
        WhereAppend(st, rc, IsRecallEvent);
        WhereNone(st, IsRecallEvent);
        WhereAll(rc, IsRecallEvent);
      }
      WhereAppend(before, st + rc, IsRecallEvent);
    }
  }

  /** The events of one phase of the first `k` lists, list by list. */
  function PhasePrefix(subject: int, tt: string, lists: seq<seq<Item>>, k: nat): seq<Event>
    requires k <= |lists|
  {
    if k == 0 then [] else PhasePrefix(subject, tt, lists, k - 1) + PhaseEvents(subject, k, tt, lists[k - 1])
  }

  /** The study (recall) events of the first `k` lists of a table. */
  lemma {:induction false} PhaseOfPrefix(subjects: seq<int>, study: seq<seq<Item>>, recall: seq<seq<Item>>,
                                         labels: seq<Option<nat>>, subject: int, studyPhase: bool, k: nat)
    requires Subject(subjects, study, recall, labels, subject) && k <= |subjects|
    ensures PhaseOf(TablePrefix(subjects, study, recall, labels, k), studyPhase) ==
            PhasePrefix(subject, TrialType(studyPhase), ItemsOf(study, recall, studyPhase), k)
  {
    if k == 0 {
      assert PhaseOf([], studyPhase) == [];
    } else {
      PhaseOfPrefix(subjects, study, recall, labels, subject, studyPhase, k - 1);
      PhaseStep(subjects, study, recall, labels, subject, studyPhase, k);
    }
  }

  /** Event `e` is item `e.position` (from 1) of list `e.list` (from 1) of
      `lists`, with subject `subject` and trial type `tt`. */
  predicate InSlot(subject: int, tt: string, lists: seq<seq<Item>>, e: Event)
  {
    && 1 <= e.list <= |lists| && 1 <= e.position <= |lists[e.list - 1]|
    && e == Event(subject, e.list, tt, e.position, lists[e.list - 1][e.position - 1])
  }

  /** No two events share a list and a position. */
  predicate SlotsDistinct(es: seq<Event>)
  {
    forall i, j :: 0 <= i < j < |es| ==> es[i].list != es[j].list || es[i].position != es[j].position
  }

  /** Every event of a phase of the first `k` lists is the item at its
      position in its list, of one of those lists. */
  lemma {:induction false} PrefixSlots(subject: int, tt: string, lists: seq<seq<Item>>, k: nat)
    requires k <= |lists|
    ensures forall e :: e in PhasePrefix(subject, tt, lists, k) ==> e.list <= k && InSlot(subject, tt, lists, e)
  {
    if k > 0 {
      PrefixSlots(subject, tt, lists, k - 1);
      forall e | e in PhaseEvents(subject, k, tt, lists[k - 1]) ensures e.list <= k && InSlot(subject, tt, lists, e) {
        PhaseEventsMembers(subject, k, tt, lists[k - 1], e);
      }
    }
  }

  /** No two events of a phase of the first `k` lists share a list and a
      position. */
  lemma {:induction false} PrefixDistinct(subject: int, tt: string, lists: seq<seq<Item>>, k: nat)
    requires k <= |lists|
    ensures SlotsDistinct(PhasePrefix(subject, tt, lists, k))
  {
    if k > 0 {
      var before := PhasePrefix(subject, tt, lists, k - 1);
      var block := PhaseEvents(subject, k, tt, lists[k - 1]);
      var es := before + block;
      PrefixDistinct(subject, tt, lists, k - 1);
      PrefixSlots(subject, tt, lists, k - 1);
      forall i, j | 0 <= i < j < |es| ensures es[i].list != es[j].list || es[i].position != es[j].position {
        if j < |before| {
          assert es[i] == before[i] && es[j] == before[j];
        } else if i < |before| {
          assert es[i] in before;
          assert es[j] == block[j - |before|];
        } else {
          assert es[i] == block[i - |before|] && es[j] == block[j - |before|];
        }
      }
    }
  }

  /** The events of one list lie in that list. */
  lemma BlockInList(subject: int, k: nat, tt: string, items: seq<Item>, n: nat)
    ensures Where(PhaseEvents(subject, k, tt, items), EvInList(n)) ==
            if n == k then PhaseEvents(subject, k, tt, items) else []
  {
    var block := PhaseEvents(subject, k, tt, items);
    forall e | e in block ensures e.list == k {
      PhaseEventsMembers(subject, k, tt, items, e);
    }
    if n == k {
      WhereAll(block, EvInList(n));
    } else {
      WhereNone(block, EvInList(n));
    }
  }

  /** The events of list `n` of a phase are that list's items in order. */
  lemma {:induction false} PrefixList(subject: int, tt: string, lists: seq<seq<Item>>, k: nat, n: nat)
    requires 1 <= n <= k <= |lists|
    ensures Where(PhasePrefix(subject, tt, lists, k), EvInList(n)) == PhaseEvents(subject, n, tt, lists[n - 1])
    decreases k
  {
    if n == k {
      PrefixListOut(subject, tt, lists, k - 1, n);
      PrefixListLast(subject, tt, lists, k);
    } else {
      PrefixList(subject, tt, lists, k - 1, n);
      PrefixListEarlier(subject, tt, lists, k, n);
    }
  }

  /** A phase has no events of a list outside its first `k`. */
  lemma PrefixListOut(subject: int, tt: string, lists: seq<seq<Item>>, k: nat, n: nat)
    requires k <= |lists| && !(1 <= n <= k)
    ensures Where(PhasePrefix(subject, tt, lists, k), EvInList(n)) == []
  {
    PrefixListsWithin(subject, tt, lists, k);
    WhereNone(PhasePrefix(subject, tt, lists, k), EvInList(n));
  }

  /** Every event of the first `k` lists lies in one of them. */
  lemma {:induction false} PrefixListsWithin(subject: int, tt: string, lists: seq<seq<Item>>, k: nat)
    requires k <= |lists|
    ensures forall e :: e in PhasePrefix(subject, tt, lists, k) ==> 1 <= e.list <= k
    decreases k
  {
    if k > 0 {
      PrefixListsWithin(subject, tt, lists, k - 1);
      var before := PhasePrefix(subject, tt, lists, k - 1);
      var block := PhaseEvents(subject, k, tt, lists[k - 1]);
      assert PhasePrefix(subject, tt, lists, k) == before + block;
      forall e | e in block ensures e.list == k {
        PhaseEventsMembers(subject, k, tt, lists[k - 1], e);
      }
    }
  }

  /** List `k` is the new block. */
  lemma PrefixListLast(subject: int, tt: string, lists: seq<seq<Item>>, k: nat)
    requires 1 <= k <= |lists|
    requires Where(PhasePrefix(subject, tt, lists, k - 1), EvInList(k)) == []
    ensures Where(PhasePrefix(subject, tt, lists, k), EvInList(k)) == PhaseEvents(subject, k, tt, lists[k - 1])
  {
    var before := PhasePrefix(subject, tt, lists, k - 1);
    var block := PhaseEvents(subject, k, tt, lists[k - 1]);
    assert PhasePrefix(subject, tt, lists, k) == before + block;
    BlockInList(subject, k, tt, lists[k - 1], k);
    WhereSplit(before, block, EvInList(k), block, false, true);
  }

  /** An earlier list keeps its events. */
  lemma PrefixListEarlier(subject: int, tt: string, lists: seq<seq<Item>>, k: nat, n: nat)
    requires 1 <= n < k <= |lists|
    requires Where(PhasePrefix(subject, tt, lists, k - 1), EvInList(n)) == PhaseEvents(subject, n, tt, lists[n - 1])
    ensures Where(PhasePrefix(subject, tt, lists, k), EvInList(n)) == PhaseEvents(subject, n, tt, lists[n - 1])
  {
    var before := PhasePrefix(subject, tt, lists, k - 1);
    var block := PhaseEvents(subject, k, tt, lists[k - 1]);
    assert PhasePrefix(subject, tt, lists, k) == before + block;
    BlockInList(subject, k, tt, lists[k - 1], n);
    WhereSplit(before, block, EvInList(n), PhaseEvents(subject, n, tt, lists[n - 1]), true, false);
  }

  /** The selected elements of two blocks, when at most one block has any
      and the second block has either all or none. */
  lemma WhereSplit<T(!new)>(before: seq<T>, block: seq<T>, p: T -> bool, expected: seq<T>, inBefore: bool, inBlock: bool)
    requires Where(before, p) == if inBefore then expected else []
    requires Where(block, p) == if inBlock then block else []
    requires inBlock ==> expected == block && !inBefore
    ensures Where(before + block, p) == if inBefore || inBlock then expected else []
  {
    WhereAppend(before, block, p);
    AppendEmpty(Where(before, p), Where(block, p));
  }

  // ---------------------------------------------------------------------
  // The recall rows of the list merge, one per recall event
  // ---------------------------------------------------------------------

  /** No two study events share a merge key (no list repeats an item). */
  predicate DistinctKeys(study: seq<Event>)
  {
    forall i, j :: 0 <= i < j < |study| ==> KeyOf(study[i]) != KeyOf(study[j])
  }

  /** The row of recall `m`: paired with the study event of its key, or an
      intrusion when there is none. */
  function RecallRow(study: seq<Event>, m: Recalled): (x: Row)
    ensures RowKey(x) == KeyOf(m.event) && x.output == Some(m.event.position) && x.recall
  {
    if study == [] then IntrusionRow(m)
    else if KeyOf(study[0]) == KeyOf(m.event) then PairRow(study[0], m)
    else RecallRow(study[1..], m)
  }

  function RecallRowOf(study: seq<Event>): Recalled -> Row
  {
    (m: Recalled) => RecallRow(study, m)
  }

  lemma DistinctKeysTail(study: seq<Event>)
    requires DistinctKeys(study) && study != []
    ensures DistinctKeys(study[1..])
  {
    var rest := study[1..];
    forall i, j | 0 <= i < j < |rest| ensures KeyOf(rest[i]) != KeyOf(rest[j]) {
      assert rest[i] == study[i + 1] && rest[j] == study[j + 1];
    }
  }

  /** A single recall pairs with the study event of its key, if any. */
  lemma {:induction false} PairSideOne(study: seq<Event>, m: Recalled)
    requires DistinctKeys(study)
    ensures PairSide(study, [m]) == if Studied(study, m.event) then [RecallRow(study, m)] else []
    ensures !Studied(study, m.event) ==> RecallRow(study, m) == IntrusionRow(m)
  {
    if study == [] {
      assert !Studied(study, m.event);
    } else {
      DistinctKeysTail(study);
      PairSideOne(study[1..], m);
      PairSideCons(study, m);
      var head := Map(Matches([m], study[0]), PairsWith(study[0]));
      if KeyOf(study[0]) == KeyOf(m.event) {
        PairSideHead(study, m);
        AppendEmpty(head, PairSide(study[1..], [m]));
      } else {
        PairSideSkip(study, m);
        AppendEmpty(head, PairSide(study[1..], [m]));
      }
    }
  }

  /** The pairs of a single recall: those of the first study event, then
      those of the rest. */
  lemma PairSideCons(study: seq<Event>, m: Recalled)
    requires study != []
    ensures PairSide(study, [m]) == Map(Matches([m], study[0]), PairsWith(study[0])) + PairSide(study[1..], [m])
    ensures Studied(study, m.event) <==> KeyOf(study[0]) == KeyOf(m.event) || Studied(study[1..], m.event)
  {
    assert study == [study[0]] + study[1..];
    forall t | t in study ensures t == study[0] || t in study[1..] {
    }
  }

  /** A recall of the first study event's key pairs with it, and with no
      later one. */
  lemma PairSideHead(study: seq<Event>, m: Recalled)
    requires study != [] && DistinctKeys(study) && KeyOf(study[0]) == KeyOf(m.event)
    ensures Map(Matches([m], study[0]), PairsWith(study[0])) == [PairRow(study[0], m)]
    ensures !Studied(study[1..], m.event)
  {
    var rest := study[1..];
    assert [m][1..] == [];
    assert Matches([m], study[0]) == [m];
    forall t | t in rest ensures KeyOf(t) != KeyOf(m.event) {
      var j :| 0 <= j < |rest| && rest[j] == t;
      assert study[j + 1] == t;
    }
  }

  /** A recall of another key does not pair with the first study event. */
  lemma PairSideSkip(study: seq<Event>, m: Recalled)
    requires study != [] && KeyOf(study[0]) != KeyOf(m.event)
    ensures Map(Matches([m], study[0]), PairsWith(study[0])) == []
  {
    assert [m][1..] == [];
    assert Matches([m], study[0]) == [];
  }

  lemma {:induction false} PairSideNil(study: seq<Event>)
    ensures PairSide(study, []) == []
  {
    if study != [] {
      PairSideNil(study[1..]);
      assert Matches([], study[0]) == [];
    }
  }

  lemma {:induction false} PairSideAppend(study: seq<Event>, a: seq<Recalled>, b: seq<Recalled>)
    ensures multiset(PairSide(study, a + b)) == multiset(PairSide(study, a)) + multiset(PairSide(study, b))
  {
    if study != [] {
      var s := study[0];
      PairSideAppend(study[1..], a, b);
      WhereAppend(a, b, SameKeyAs(s));
      MapAppend(Matches(a, s), Matches(b, s), PairsWith(s));
    }
  }

  lemma RecallSideAppend(study: seq<Event>, a: seq<Recalled>, b: seq<Recalled>)
    ensures RecallSide(study, a + b) == RecallSide(study, a) + RecallSide(study, b)
  {
    WhereAppend(a, b, Unstudied(study));
    MapAppend(Where(a, Unstudied(study)), Where(b, Unstudied(study)), IntrusionRow);
  }

  lemma RecallSideOne(study: seq<Event>, m: Recalled)
    ensures RecallSide(study, [m]) == if Studied(study, m.event) then [] else [IntrusionRow(m)]
  {
    assert [m][1..] == [];
    assert Where([m], Unstudied(study)) == if Studied(study, m.event) then [] else [m];
  }

  /** With distinct study keys, the recall rows of the join are one row per
      recall, the one `RecallRow` gives. */
  lemma {:induction false} JoinRecallMultiset(study: seq<Event>, rc: seq<Recalled>)
    requires DistinctKeys(study)
    ensures multiset(PairSide(study, rc) + RecallSide(study, rc)) == multiset(Map(rc, RecallRowOf(study)))
  {
    if rc == [] {
      PairSideNil(study);
      assert RecallSide(study, []) == [];
    } else {
      var m, rest := rc[0], rc[1..];
      assert rc == [m] + rest;
      JoinRecallMultiset(study, rest);
      PairSideAppend(study, [m], rest);
      RecallSideAppend(study, [m], rest);
      PairSideOne(study, m);
      RecallSideOne(study, m);
      MapCons(rc, RecallRowOf(study));
    }
  }

  /** When no list repeats an item, the list merge has one recall row per
      recall event: paired with the study event of its item in its list, or
      an intrusion when there is none. */
  lemma MergeRecallRows(study: seq<Event>, recall: seq<Event>)
    requires DistinctKeys(study)
    ensures multiset(Where(MergeLists(study, recall), IsRecall)) ==
            multiset(Map(Cumcount(recall), RecallRowOf(study)))
  {
    var rc := Cumcount(recall);
    JoinRecallRows(study, rc);
    WhereMultiset(MergeLists(study, recall), OuterJoin(study, rc), IsRecall);
    JoinRecallMultiset(study, rc);
  }

  // ---------------------------------------------------------------------
  // The rows of one list, phase by phase
  // ---------------------------------------------------------------------

  /** The item of a scored row, as a cell. */
  function ItemText(x: Row): Value
  {
    Text(x.item)
  }

  /** The cell in column `key` of a scored row. */
  function CellOf(prov: bool, key: string): Row -> Value
  {
    (x: Row) => if !prov && key in ["prior_list", "prior_input"] then Missing else RowCell(x, key)
  }

  /** Without a query, the split column of a scored table holds the cells
      of the rows of the list, in row order. */
  lemma {:induction false} ColumnFromScored(rs: seq<Row>, prov: bool, key: string, n: nat, p: nat)
    requires p <= |rs|
    ensures var f := Scored(rs, prov);
            ColumnFrom(f, key, QueryMask(f, None), n, p) == Map(Where(rs[p..], InList(n)), CellOf(prov, key))
    decreases |rs| - p
  {
    var f := Scored(rs, prov);
    var mask := QueryMask(f, None);
    var cell := CellOf(prov, key);
    if p < |rs| {
      var w := Where(rs[p + 1..], InList(n));
      var head: seq<Row> := if rs[p].list == n then [rs[p]] else [];
      assert ColumnFrom(f, key, mask, n, p + 1) == Map(w, cell) by {
        ColumnFromScored(rs, prov, key, n, p + 1);
      }
      WhereFrom(rs, InList(n), p);
      assert ColumnFrom(f, key, mask, n, p) == Map(head, cell) + ColumnFrom(f, key, mask, n, p + 1) by {
        ColumnFromStep(rs, prov, key, n, p);
        assert Map(head, cell) == if rs[p].list == n then [cell(rs[p])] else [];
      }
      MapAppend(head, w, cell);
    } else {
      assert rs[p..] == [];
    }
  }

  /** Selecting from position `p` on: the element at `p`, then the rest. */
  lemma WhereFrom<T(!new)>(s: seq<T>, q: T -> bool, p: nat)
    requires p < |s|
    ensures Where(s[p..], q) == (if q(s[p]) then [s[p]] else []) + Where(s[p + 1..], q)
  {
    assert s[p..] == [s[p]] + s[p + 1..];
  }

  lemma ColumnFromStep(rs: seq<Row>, prov: bool, key: string, n: nat, p: nat)
    requires p < |rs|
    ensures var f := Scored(rs, prov);
            var mask := QueryMask(f, None);
            ColumnFrom(f, key, mask, n, p) ==
            (if rs[p].list == n then [CellOf(prov, key)(rs[p])] else []) + ColumnFrom(f, key, mask, n, p + 1)
  {
    var f := Scored(rs, prov);
    assert QueryMask(f, None)[p];
    assert f.ListOf(p) == rs[p].list;
    assert f.Cell(p, key) == CellOf(prov, key)(rs[p]);
  }

  /** The item column is the item of each row. */
  lemma ItemColumn(rows: seq<Row>, prov: bool)
    ensures Map(rows, CellOf(prov, "item")) == Map(rows, ItemText)
  {
    assert "item" !in ["prior_list", "prior_input"];
    forall x ensures CellOf(prov, "item")(x) == ItemText(x) {
      assert "item" != "subject" && "item" != "list";
    }
    MapSame(rows, CellOf(prov, "item"), ItemText);
  }

  /** Keys that differ only in their last entry are ordered by it. */
  lemma {:induction false} LexLast(prefix: seq<int>, i: int, j: int)
    requires i <= j
    ensures LexLeq(prefix + [i], prefix + [j])
  {
    if prefix == [] {
      assert [i][1..] == [] && [j][1..] == [];
    } else {
      assert (prefix + [i])[1..] == prefix[1..] + [i];
      assert (prefix + [j])[1..] == prefix[1..] + [j];
      LexLast(prefix[1..], i, j);
    }
  }

  lemma MergeKeyOf(x: Row, p: nat)
    requires x.input == Some(p)
    ensures MergeOrderKey(x) == [x.subject, x.list, 0] + [p]
  {
  }

  lemma RecallKeyOf(x: Row, p: nat)
    requires x.output == Some(p)
    ensures RecallOrderKey(x) == [x.list, 0] + [p]
  {
  }

  /** The study row of a study event keeps its subject, list, item and
      serial position. */
  lemma StudyRowShape(s: Event, rc: seq<Recalled>)
    ensures var x := StudyRow(s, rc);
            RowKey(x) == KeyOf(s) && x.input == Some(s.position)
  {
  }

  /** The study row of item `j` (from 0) of list `n`. */
  lemma StudyKeyAt(subject: int, n: nat, items: seq<Item>, rc: seq<Recalled>, j: nat)
    requires j < |items|
    ensures var x := Map(PhaseEvents(subject, n, "study", items), StudyRowOf(rc))[j];
            MergeOrderKey(x) == [subject, n, 0] + [j + 1] && x.item == items[j]
  {
    var e := PhaseEvents(subject, n, "study", items)[j];
    assert e == Event(subject, n, "study", j + 1, items[j]);
    StudyRowShape(e, rc);
    MergeKeyOf(StudyRow(e, rc), j + 1);
  }

  /** Elements keyed by a common prefix and their position are in key order, no two with one key. */
  lemma PositionKeys<T>(ps: seq<T>, key: T -> seq<int>, prefix: seq<int>)
    requires forall j :: 0 <= j < |ps| ==> key(ps[j]) == prefix + [j + 1]
    ensures SortedBy(ps, key)
    ensures forall x, y :: x in ps && y in ps && key(x) == key(y) ==> x == y
  {
    forall i, j | 0 <= i < j < |ps| ensures LexLeq(key(ps[i]), key(ps[j])) {
      LexLast(prefix, i + 1, j + 1);
    }
    forall x, y | x in ps && y in ps && key(x) == key(y) ensures x == y {
      var i :| 0 <= i < |ps| && ps[i] == x;
      var j :| 0 <= j < |ps| && ps[j] == y;
      assert (prefix + [i + 1])[|prefix|] == i + 1;
      assert (prefix + [j + 1])[|prefix|] == j + 1;
    }
  }

  /** The study rows of list `n` in serial order, no two with one key. */
  lemma StudyKeys(subject: int, n: nat, items: seq<Item>, rc: seq<Recalled>)
    ensures var ps := Map(PhaseEvents(subject, n, "study", items), StudyRowOf(rc));
            && SortedBy(ps, MergeOrderKey)
            && (forall x, y :: x in ps && y in ps && MergeOrderKey(x) == MergeOrderKey(y) ==> x == y)
  {
    var ps := Map(PhaseEvents(subject, n, "study", items), StudyRowOf(rc));
    forall j | 0 <= j < |ps| ensures MergeOrderKey(ps[j]) == [subject, n, 0] + [j + 1] {
      StudyKeyAt(subject, n, items, rc, j);
    }
    PositionKeys(ps, MergeOrderKey, [subject, n, 0]);
  }

  /** The items of the study rows of list `n` are its study items. */
  lemma StudyItems(subject: int, n: nat, items: seq<Item>, rc: seq<Recalled>)
    ensures Map(Map(PhaseEvents(subject, n, "study", items), StudyRowOf(rc)), ItemText) == Texts(items)
  {
    var ps := Map(PhaseEvents(subject, n, "study", items), StudyRowOf(rc));
    forall j | 0 <= j < |items| ensures Map(ps, ItemText)[j] == Texts(items)[j] {
      StudyKeyAt(subject, n, items, rc, j);
    }
  }

  /** The study rows of list `n` of the list merge are, as a multiset, the
      study rows of that list's study events. */
  lemma StudyListMultiset(subject: int, study: seq<seq<Item>>, recall: seq<seq<Item>>, n: nat)
    requires |recall| == |study| && 1 <= n <= |study|
    ensures var se := PhasePrefix(subject, "study", study, |study|);
            var re := PhasePrefix(subject, "recall", recall, |study|);
            multiset(Where(Where(MergeLists(se, re), IsStudy), InList(n))) ==
            multiset(Map(PhaseEvents(subject, n, "study", study[n - 1]), StudyRowOf(Cumcount(re))))
  {
    var k := |study|;
    var se := PhasePrefix(subject, "study", study, k);
    var re := PhasePrefix(subject, "recall", recall, k);
    var rc := Cumcount(re);
    forall e ensures EvInList(n)(e) == InList(n)(StudyRowOf(rc)(e)) {
      StudyRowShape(e, rc);
    }
    PrefixList(subject, "study", study, k, n);
    WhereMap(se, StudyRowOf(rc), InList(n), EvInList(n));
    MergeStudyRows(se, re);
    WhereMultiset(Where(MergeLists(se, re), IsStudy), Map(se, StudyRowOf(rc)), InList(n));
  }

  /** The study rows of list `n` of the list merge: one per study item, in
      serial order. */
  lemma StudyListRows(subject: int, study: seq<seq<Item>>, recall: seq<seq<Item>>, n: nat)
    requires |recall| == |study| && 1 <= n <= |study|
    ensures var se := PhasePrefix(subject, "study", study, |study|);
            var re := PhasePrefix(subject, "recall", recall, |study|);
            var ps := Map(PhaseEvents(subject, n, "study", study[n - 1]), StudyRowOf(Cumcount(re)));
            && Where(Where(MergeLists(se, re), IsStudy), InList(n)) == ps
            && Map(ps, ItemText) == Texts(study[n - 1])
  {
    var k := |study|;
    var se := PhasePrefix(subject, "study", study, k);
    var re := PhasePrefix(subject, "recall", recall, k);
    var ps := Map(PhaseEvents(subject, n, "study", study[n - 1]), StudyRowOf(Cumcount(re)));
    var rows := Where(Where(MergeLists(se, re), IsStudy), InList(n));
    StudyListMultiset(subject, study, recall, n);
    assert SortedBy(rows, MergeOrderKey) by {
      WhereSorted(MergeLists(se, re), IsStudy, MergeOrderKey);
      WhereSorted(Where(MergeLists(se, re), IsStudy), InList(n), MergeOrderKey);
    }
    StudyKeys(subject, n, study[n - 1], Cumcount(re));
    SortedUnique(ps, rows, MergeOrderKey);
    StudyItems(subject, n, study[n - 1], Cumcount(re));
  }

  // ---------------------------------------------------------------------
  // The recall rows of one list
  // ---------------------------------------------------------------------

  /** No list repeats a study item. */
  predicate DistinctLists(study: seq<seq<Item>>)
  {
    forall i :: 0 <= i < |study| ==> Distinct(study[i])
  }

  /** When no list repeats an item, no two study events share a merge key. */
  lemma PrefixKeysDistinct(subject: int, study: seq<seq<Item>>)
    requires DistinctLists(study)
    ensures DistinctKeys(PhasePrefix(subject, "study", study, |study|))
  {
    var se := PhasePrefix(subject, "study", study, |study|);
    PrefixSlots(subject, "study", study, |study|);
    PrefixDistinct(subject, "study", study, |study|);
    forall i, j | 0 <= i < j < |se| ensures KeyOf(se[i]) != KeyOf(se[j]) {
      assert se[i] in se && se[j] in se;
      if se[i].list == se[j].list {
        var items := study[se[i].list - 1];
        var a, b := se[i].position - 1, se[j].position - 1;
        assert se[i].item == items[a] && se[j].item == items[b];
        assert a != b;
        if a < b {
          assert items[a] != items[b];
        } else {
          assert items[b] != items[a];
        }
      }
    }
  }

  /** The recall belongs to list `n`. */
  function RcInList(n: nat): Recalled -> bool
  {
    (m: Recalled) => m.event.list == n
  }

  /** The numbered recalls of list `n` carry that list's recall events, in
      output order. */
  lemma RecallListEvents(subject: int, study: seq<seq<Item>>, recall: seq<seq<Item>>, n: nat)
    requires |recall| == |study| && 1 <= n <= |study|
    ensures var re := PhasePrefix(subject, "recall", recall, |study|);
            Map(Where(Cumcount(re), RcInList(n)), Scoring.EventOf) == PhaseEvents(subject, n, "recall", recall[n - 1])
  {
    var re := PhasePrefix(subject, "recall", recall, |study|);
    var rc := Cumcount(re);
    assert Map(rc, Scoring.EventOf) == re;
    WhereMap(rc, Scoring.EventOf, EvInList(n), RcInList(n));
    PrefixList(subject, "recall", recall, |study|, n);
  }

  /** The recall row of recall `j` (from 0) of list `n`. */
  lemma RecallKeyAt(subject: int, study: seq<seq<Item>>, recall: seq<seq<Item>>, n: nat, j: nat)
    requires |recall| == |study| && 1 <= n <= |study| && j < |recall[n - 1]|
    ensures var se := PhasePrefix(subject, "study", study, |study|);
            var re := PhasePrefix(subject, "recall", recall, |study|);
            var w := Where(Cumcount(re), RcInList(n));
            j < |w| &&
            var x := Map(w, RecallRowOf(se))[j];
            RecallOrderKey(x) == [n, 0] + [j + 1] && x.item == recall[n - 1][j]
  {
    var se := PhasePrefix(subject, "study", study, |study|);
    var re := PhasePrefix(subject, "recall", recall, |study|);
    var w := Where(Cumcount(re), RcInList(n));
    var pe := PhaseEvents(subject, n, "recall", recall[n - 1]);
    RecallListEvents(subject, study, recall, n);
    assert w[j].event == Map(w, Scoring.EventOf)[j];
    assert pe[j] == Event(subject, n, "recall", j + 1, recall[n - 1][j]);
    RecallKeyOf(RecallRow(se, w[j]), j + 1);
  }

  /** The recall rows of list `n`, in output order, no two with one key,
      carrying that list's recall items. */
  lemma RecallKeys(subject: int, study: seq<seq<Item>>, recall: seq<seq<Item>>, n: nat)
    requires |recall| == |study| && 1 <= n <= |study|
    ensures var se := PhasePrefix(subject, "study", study, |study|);
            var re := PhasePrefix(subject, "recall", recall, |study|);
            var ts := Map(Where(Cumcount(re), RcInList(n)), RecallRowOf(se));
            && SortedBy(ts, RecallOrderKey)
            && (forall x, y :: x in ts && y in ts && RecallOrderKey(x) == RecallOrderKey(y) ==> x == y)
            && Map(ts, ItemText) == Texts(recall[n - 1])
  {
    var se := PhasePrefix(subject, "study", study, |study|);
    var re := PhasePrefix(subject, "recall", recall, |study|);
    var ts := Map(Where(Cumcount(re), RcInList(n)), RecallRowOf(se));
    assert |ts| == |recall[n - 1]| by {
      RecallListEvents(subject, study, recall, n);
    }
    forall j | 0 <= j < |ts|
      ensures RecallOrderKey(ts[j]) == [n, 0] + [j + 1] && ts[j].item == recall[n - 1][j]
    {
      RecallKeyAt(subject, study, recall, n, j);
    }
    PositionKeys(ts, RecallOrderKey, [n, 0]);
  }

  /** The recall rows of list `n` of the list merge are, as a multiset, the
      recall rows of that list's recalls. */
  lemma RecallListMultiset(subject: int, study: seq<seq<Item>>, recall: seq<seq<Item>>, n: nat)
    requires |recall| == |study| && 1 <= n <= |study| && DistinctLists(study)
    ensures var se := PhasePrefix(subject, "study", study, |study|);
            var re := PhasePrefix(subject, "recall", recall, |study|);
            multiset(Where(SortBy(Where(MergeLists(se, re), IsRecall), RecallOrderKey), InList(n))) ==
            multiset(Map(Where(Cumcount(re), RcInList(n)), RecallRowOf(se)))
  {
    var se := PhasePrefix(subject, "study", study, |study|);
    var re := PhasePrefix(subject, "recall", recall, |study|);
    var rc := Cumcount(re);
    var sorted := SortBy(Where(MergeLists(se, re), IsRecall), RecallOrderKey);
    PrefixKeysDistinct(subject, study);
    MergeRecallRows(se, re);
    WhereMultiset(sorted, Map(rc, RecallRowOf(se)), InList(n));
    forall m ensures RcInList(n)(m) == InList(n)(RecallRowOf(se)(m)) {
      assert RowKey(RecallRow(se, m)) == KeyOf(m.event);
    }
    WhereMap(rc, RecallRowOf(se), InList(n), RcInList(n));
  }

  /** When no list repeats a study item, the recall rows of list `i + 1`
      of the list merge, in recall order, carry that list's recall items. */
  lemma RecallListRows(subject: int, study: seq<seq<Item>>, recall: seq<seq<Item>>, i: nat)
    requires |recall| == |study| && i < |study| && DistinctLists(study)
    ensures var se := PhasePrefix(subject, "study", study, |study|);
            var re := PhasePrefix(subject, "recall", recall, |study|);
            Map(Where(SortBy(Where(MergeLists(se, re), IsRecall), RecallOrderKey), InList(i + 1)), ItemText) ==
            Texts(recall[i])
  {
    RecallListRowsAt(subject, study, recall, i + 1);
  }

  /** The same, for list `n` counted from 1. */
  lemma RecallListRowsAt(subject: int, study: seq<seq<Item>>, recall: seq<seq<Item>>, n: nat)
    requires |recall| == |study| && 1 <= n <= |study| && DistinctLists(study)
    ensures var se := PhasePrefix(subject, "study", study, |study|);
            var re := PhasePrefix(subject, "recall", recall, |study|);
            Map(Where(SortBy(Where(MergeLists(se, re), IsRecall), RecallOrderKey), InList(n)), ItemText) ==
            Texts(recall[n - 1])
  {
    var se := PhasePrefix(subject, "study", study, |study|);
    var re := PhasePrefix(subject, "recall", recall, |study|);
    var sorted := SortBy(Where(MergeLists(se, re), IsRecall), RecallOrderKey);
    var rows := Where(sorted, InList(n));
    var ts := Map(Where(Cumcount(re), RcInList(n)), RecallRowOf(se));
    RecallListMultiset(subject, study, recall, n);
    WhereSorted(sorted, InList(n), RecallOrderKey);
    RecallKeys(subject, study, recall, n);
    SortedUnique(ts, rows, RecallOrderKey);
  }

  // ---------------------------------------------------------------------
  // The list labels of the scored tables
  // ---------------------------------------------------------------------

  /** The lists of the rows never decrease: `Ascending` (below) of the
      list column. */
  predicate ListsInOrder(rs: seq<Row>)
  {
    forall i, j :: 0 <= i < j < |rs| ==> rs[i].list <= rs[j].list
  }

  /** Rows of one subject in merge order are in list order. */
  lemma MergeOrderLists(rs: seq<Row>, subject: int)
    requires SortedBy(rs, MergeOrderKey)
    requires forall x :: x in rs ==> x.subject == subject
    ensures ListsInOrder(rs)
  {
    forall i, j | 0 <= i < j < |rs| ensures rs[i].list <= rs[j].list {
      var a, b := MergeOrderKey(rs[i]), MergeOrderKey(rs[j]);
      assert LexLeq(a, b);
      assert rs[i] in rs && rs[j] in rs;
      assert a[0] == b[0];
      assert LexLeq(a[1..], b[1..]);
      assert a[1..][0] == rs[i].list && b[1..][0] == rs[j].list;
    }
  }

  /** The values of `c` never decrease. */
  predicate Ascending(c: seq<nat>)
  {
    forall i, j :: 0 <= i < j < |c| ==> c[i] <= c[j]
  }

  /** The values of `c` are exactly 1..k. */
  ghost predicate ValuesUpTo(c: seq<nat>, k: nat)
  {
    forall x :: x in c <==> 1 <= x <= k
  }

  /** The distinct values of a nondecreasing column whose values are
      1..k are 1..k, in order. */
  lemma {:induction false} UniqueRange(c: seq<nat>, k: nat)
    requires Ascending(c) && ValuesUpTo(c, k)
    ensures Unique(c) == Count(k)
    decreases |c|
  {
    if c == [] {
      assert 1 !in c;
    } else {
      var init, last := c[..|c| - 1], c[|c| - 1];
      RangeLast(c, k);
      UniqueSnoc(init, last);
      if last in init {
        RangeInit(c, k, k);
        UniqueRange(init, k);
      } else {
        RangeInit(c, k, k - 1);
        UniqueRange(init, k - 1);
        CountSnoc(k);
      }
    }
  }

  /** The last value of a nondecreasing column whose values are 1..k is k,
      and the column without it is still nondecreasing. */
  lemma RangeLast(c: seq<nat>, k: nat)
    requires c != [] && Ascending(c) && ValuesUpTo(c, k)
    ensures 1 <= k && c[|c| - 1] == k && c == c[..|c| - 1] + [c[|c| - 1]]
    ensures Ascending(c[..|c| - 1])
  {
    assert c[|c| - 1] in c;
    assert k in c;
    var i :| 0 <= i < |c| && c[i] == k;
    assert i == |c| - 1 || c[i] <= c[|c| - 1];
  }

  /** Dropping the last value k leaves the values 1..m, where m is k when k
      occurs earlier and k - 1 otherwise. */
  lemma RangeInit(c: seq<nat>, k: nat, m: nat)
    requires c != [] && c[|c| - 1] == k && ValuesUpTo(c, k)
    requires m == if k in c[..|c| - 1] then k else k - 1
    ensures ValuesUpTo(c[..|c| - 1], m)
  {
    var init := c[..|c| - 1];
    assert c == init + [k];
    forall x ensures x in init <==> 1 <= x <= m {
      assert x in c <==> x in init || x == k;
    }
  }

  /** Some row belongs to list `n`. */
  predicate HasList(rs: seq<Row>, n: nat)
  {
    exists x :: x in rs && x.list == n
  }

  /** A scored table whose rows are in list order and whose lists are
      exactly 1..k has the list labels 1..k. */
  lemma ScoredLabels(rs: seq<Row>, prov: bool, k: nat)
    requires ListsInOrder(rs)
    requires forall x :: x in rs ==> 1 <= x.list <= k
    requires forall n :: 1 <= n <= k ==> HasList(rs, n)
    ensures ListLabels(Scored(rs, prov)) == Count(k)
  {
    var c := Splitting.ListColumn(Scored(rs, prov));
    assert forall i :: 0 <= i < |c| ==> c[i] == rs[i].list;
    forall x ensures x in c <==> 1 <= x <= k {
      if x in c {
        var i :| 0 <= i < |c| && c[i] == x;
        assert rs[i] in rs;
      }
      if 1 <= x <= k {
        assert HasList(rs, x);
        var y :| y in rs && y.list == x;
        var i :| 0 <= i < |rs| && rs[i] == y;
        assert c[i] == x;
      }
    }
    assert Ascending(c);
    UniqueRange(c, k);
  }

  /** Every row of the list merge takes its subject and list from a study
      or a recall event. */
  lemma MergeRowOrigin(study: seq<Event>, recall: seq<Event>, x: Row) returns (e: Event)
    requires x in MergeLists(study, recall)
    ensures (e in study || e in recall) && x.subject == e.subject && x.list == e.list
  {
    MergeMembers(study, recall, x);
    e := JoinRowOrigin(study, recall, Cumcount(recall), x);
  }

  lemma JoinRowOrigin(study: seq<Event>, recall: seq<Event>, rc: seq<Recalled>, x: Row) returns (e: Event)
    requires rc == Cumcount(recall) && JoinRow(study, rc, x)
    ensures (e in study || e in recall) && x.subject == e.subject && x.list == e.list
  {
    if UnrecalledIn(study, rc, x) {
      var s :| s in study && Matches(rc, s) == [] && x == UnrecalledRow(s);
      e := s;
    } else if PairIn(study, rc, x) {
      var s, m :| s in study && m in rc && KeyOf(m.event) == KeyOf(s) && x == PairRow(s, m);
      e := s;
    } else {
      var m :| m in rc && !Studied(study, m.event) && x == IntrusionRow(m);
      var i :| 0 <= i < |rc| && rc[i] == m;
      e := recall[i];
    }
  }

  /** Every row of the list merge of lists 1..k of one subject belongs to
      that subject and to one of those lists. */
  lemma MergeRowRange(subject: int, study: seq<seq<Item>>, recall: seq<seq<Item>>, x: Row)
    requires |recall| == |study|
    requires x in MergeLists(PhasePrefix(subject, "study", study, |study|),
                             PhasePrefix(subject, "recall", recall, |study|))
    ensures x.subject == subject && 1 <= x.list <= |study|
  {
    var se := PhasePrefix(subject, "study", study, |study|);
    var re := PhasePrefix(subject, "recall", recall, |study|);
    var e := MergeRowOrigin(se, re, x);
    if e in se {
      PrefixSlots(subject, "study", study, |study|);
    } else {
      PrefixSlots(subject, "recall", recall, |study|);
    }
  }

  /** Each list with a study item has a study row in the list merge. */
  lemma MergeCoversList(subject: int, study: seq<seq<Item>>, recall: seq<seq<Item>>, n: nat)
    requires |recall| == |study| && 1 <= n <= |study| && study[n - 1] != []
    ensures exists x :: x in Where(MergeLists(PhasePrefix(subject, "study", study, |study|),
                                              PhasePrefix(subject, "recall", recall, |study|)), IsStudy) &&
                        x.list == n
  {
    var se := PhasePrefix(subject, "study", study, |study|);
    var re := PhasePrefix(subject, "recall", recall, |study|);
    var ps := Map(PhaseEvents(subject, n, "study", study[n - 1]), StudyRowOf(Cumcount(re)));
    StudyListRows(subject, study, recall, n);
    assert ps[0] in Where(Where(MergeLists(se, re), IsStudy), InList(n));
  }

  /** The list merge of lists 1..k of one subject, each with a study item,
      has the list labels 1..k. */
  lemma MergeLabels(subject: int, study: seq<seq<Item>>, recall: seq<seq<Item>>, prov: bool)
    requires |recall| == |study|
    requires forall i :: 0 <= i < |study| ==> study[i] != []
    ensures ListLabels(Scored(MergeLists(PhasePrefix(subject, "study", study, |study|),
                                         PhasePrefix(subject, "recall", recall, |study|)), prov)) ==
            Count(|study|)
  {
    var se := PhasePrefix(subject, "study", study, |study|);
    var re := PhasePrefix(subject, "recall", recall, |study|);
    var merged := MergeLists(se, re);
    forall x | x in merged ensures x.subject == subject && 1 <= x.list <= |study| {
      MergeRowRange(subject, study, recall, x);
    }
    MergeOrderLists(merged, subject);
    forall n | 1 <= n <= |study| ensures HasList(merged, n) {
      MergeCoversList(subject, study, recall, n);
    }
    ScoredLabels(merged, prov, |study|);
  }

  /** The rows a scored row expands into share its merge key. */
  lemma AttachKeys(merged: seq<Row>, study: seq<Event>, y: Row, z: Row)
    requires ScoredAgainst(merged, study) && y in merged
    requires z in RowsOf(PriorMatches(Where(merged, IsIntrusion), study))(y)
    ensures MergeOrderKey(z) == MergeOrderKey(y)
  {
    AttachedShape(merged, study, y, z);
  }

  /** Adding provenance keeps the merge order. */
  lemma ProvenanceSorted(merged: seq<Row>, study: seq<Event>)
    requires ScoredAgainst(merged, study) && SortedBy(merged, MergeOrderKey)
    ensures SortedBy(AddProvenance(merged, study), MergeOrderKey)
  {
    var priors := PriorMatches(Where(merged, IsIntrusion), study);
    forall y, z | y in merged && z in RowsOf(priors)(y) ensures MergeOrderKey(z) == MergeOrderKey(y) {
      AttachKeys(merged, study, y, z);
    }
    FlatMapSorted(merged, RowsOf(priors), MergeOrderKey, MergeOrderKey);
    MapSorted(AttachPriors(merged, priors), Cleared, MergeOrderKey);
  }

  /** The free-recall scoring keeps the merge order of the list merge. */
  lemma FreeRecallSorted(data: seq<Event>)
    ensures SortedBy(MergeFreeRecall(data), MergeOrderKey)
  {
    var study := StudyEvents(data);
    MergeScored(study, RecallEvents(data));
    ProvenanceSorted(MergeLists(study, RecallEvents(data)), study);
  }

  /** The free-recall scoring of lists 1..k of one subject, each with a
      study item, has the list labels 1..k. */
  lemma FreeRecallLabels(data: seq<Event>, subject: int, study: seq<seq<Item>>, recall: seq<seq<Item>>)
    requires |recall| == |study|
    requires forall i :: 0 <= i < |study| ==> study[i] != []
    requires StudyEvents(data) == PhasePrefix(subject, "study", study, |study|)
    requires RecallEvents(data) == PhasePrefix(subject, "recall", recall, |study|)
    ensures ListLabels(Scored(MergeFreeRecall(data), true)) == Count(|study|)
  {
    var merged := MergeLists(StudyEvents(data), RecallEvents(data));
    var rows := MergeFreeRecall(data);
    forall x | x in rows ensures x.subject == subject && 1 <= x.list <= |study| {
      FreeRecallSound(data, x);
      MergeRowRange(subject, study, recall, Strip(x));
    }
    FreeRecallSorted(data);
    MergeOrderLists(rows, subject);
    forall n | 1 <= n <= |study| ensures HasList(rows, n) {
      MergeCoversList(subject, study, recall, n);
      var x :| x in Where(merged, IsStudy) && x.list == n;
      assert x in Where(rows, IsStudy);
    }
    ScoredLabels(rows, true, |study|);
  }

  // ---------------------------------------------------------------------
  // Splitting the scored tables of one subject by list
  // ---------------------------------------------------------------------

  /** The subject of a table of one subject. */
  function SubjectOf(subjects: seq<int>): int
  {
    if subjects == [] then 0 else subjects[0]
  }

  /** The study and recall events of a table of one subject, list by list. */
  lemma TableEvents(subjects: seq<int>, study: seq<seq<Item>>, recall: seq<seq<Item>>, labels: seq<Option<nat>>)
    requires |study| == |subjects| && |recall| == |subjects|
    requires SingleSubjectAuto(subjects, labels)
    ensures var t := Table(subjects, study, recall, labels);
            && StudyEvents(t) == PhasePrefix(SubjectOf(subjects), "study", study, |study|)
            && RecallEvents(t) == PhasePrefix(SubjectOf(subjects), "recall", recall, |study|)
  {
    var subject := SubjectOf(subjects);
    assert Subject(subjects, study, recall, labels, subject);
    PhaseOfPrefix(subjects, study, recall, labels, subject, true, |subjects|);
    PhaseOfPrefix(subjects, study, recall, labels, subject, false, |subjects|);
  }

  /** Without a query, the item column of list `n` of phase `ph` holds
      `items`, in order. */
  predicate ListSplit(ph: Frame, n: nat, items: seq<Item>)
  {
    ColumnFrom(ph, "item", QueryMask(ph, None), n, 0) == Texts(items)
  }

  /** The item column of phase `phase` of a scored table split by the
      table's list labels, with no query: what split_lists gives. */
  function PhaseItems(f: Frame, phase: string): seq<seq<Value>>
    requires f.Scored? && (phase == "study" || phase == "recall")
  {
    var ph := PhaseData(f, phase).value;
    Entry(ph, "item", QueryMask(ph, None), ListLabels(f))
  }

  /** When a phase of a scored table has the list labels 1..k and its list
      `i + 1` holds `items[i]` for each i < k, split_lists gives back
      `items`. */
  lemma PhaseItemsFrom(f: Frame, phase: string, ph: Frame, items: seq<seq<Item>>)
    requires f.Scored? && (phase == "study" || phase == "recall")
    requires PhaseData(f, phase) == Ok(ph) && ListLabels(f) == Count(|items|)
    requires forall i :: 0 <= i < |items| ==> ListSplit(ph, i + 1, items[i])
    ensures |PhaseItems(f, phase)| == |items|
    ensures forall i :: 0 <= i < |items| ==> PhaseItems(f, phase)[i] == Texts(items[i])
  {
    EntryByList(ph, "item", QueryMask(ph, None), |items|);
  }

  /** The item column of list `n` of a scored table, without a query: the
      items of that list's rows, in row order. */
  lemma ScoredItems(rs: seq<Row>, prov: bool, n: nat)
    ensures var ph := Scored(rs, prov);
            ColumnFrom(ph, "item", QueryMask(ph, None), n, 0) == Map(Where(rs, InList(n)), ItemText)
  {
    ColumnFromScored(rs, prov, "item", n, 0);
    assert rs[0..] == rs;
    ItemColumn(Where(rs, InList(n)), prov);
  }

  /** The study phase of a scored table with the study rows of the list
      merge, split by list: each list's study items. */
  lemma StudyColumns(subject: int, study: seq<seq<Item>>, recall: seq<seq<Item>>, rows: seq<Row>, prov: bool)
    requires |recall| == |study|
    requires Where(rows, IsStudy) == Where(MergeLists(PhasePrefix(subject, "study", study, |study|),
                                                      PhasePrefix(subject, "recall", recall, |study|)), IsStudy)
    ensures var ph := Scored(Where(rows, IsStudy), prov);
            forall i :: 0 <= i < |study| ==> ListSplit(ph, i + 1, study[i])
  {
    var ph := Scored(Where(rows, IsStudy), prov);
    forall i | 0 <= i < |study| ensures ListSplit(ph, i + 1, study[i]) {
      ScoredItems(Where(rows, IsStudy), prov, i + 1);
      StudyListRows(subject, study, recall, i + 1);
    }
  }

  /** When the sorted recall rows of list `n` hold `items`, so does the item
      column of list `n` of the scored recall phase. */
  lemma RecallSplit(rows: seq<Row>, prov: bool, n: nat, items: seq<Item>)
    requires Map(Where(SortBy(Where(rows, IsRecall), RecallOrderKey), InList(n)), ItemText) == Texts(items)
    ensures ListSplit(Scored(SortBy(Where(rows, IsRecall), RecallOrderKey), prov), n, items)
  {
    ScoredItems(SortBy(Where(rows, IsRecall), RecallOrderKey), prov, n);
  }

  /** When the rows of each of the first `k` lists hold that list's items,
      so do the item columns of the scored rows. */
  lemma ColumnsFrom(rs: seq<Row>, prov: bool, items: seq<seq<Item>>, k: nat)
    requires k <= |items|
    requires forall i :: 0 <= i < k ==> Map(Where(rs, InList(i + 1)), ItemText) == Texts(items[i])
    ensures forall i :: 0 <= i < k ==> ListSplit(Scored(rs, prov), i + 1, items[i])
  {
    forall i | 0 <= i < k ensures ListSplit(Scored(rs, prov), i + 1, items[i]) {
      ColumnOne(rs, prov, items[i], i + 1);
    }
  }

  lemma ColumnOne(rs: seq<Row>, prov: bool, items: seq<Item>, n: nat)
    requires Map(Where(rs, InList(n)), ItemText) == Texts(items)
    ensures ListSplit(Scored(rs, prov), n, items)
  {
    ScoredItems(rs, prov, n);
  }

  /** The recall phase of the list merge, split by list: each list gives
      its recall items, when no list repeats a study item. */
  lemma RecallColumns(subject: int, study: seq<seq<Item>>, recall: seq<seq<Item>>, prov: bool)
    requires |recall| == |study| && DistinctLists(study)
    ensures var merged := MergeLists(PhasePrefix(subject, "study", study, |study|),
                                     PhasePrefix(subject, "recall", recall, |study|));
            var ph := Scored(SortBy(Where(merged, IsRecall), RecallOrderKey), prov);
            forall i :: 0 <= i < |study| ==> ListSplit(ph, i + 1, recall[i])
  {
    var merged := MergeLists(PhasePrefix(subject, "study", study, |study|),
                             PhasePrefix(subject, "recall", recall, |study|));
    forall i | 0 <= i < |study|
      ensures Map(Where(SortBy(Where(merged, IsRecall), RecallOrderKey), InList(i + 1)), ItemText) == Texts(recall[i])
    {
      RecallListRows(subject, study, recall, i);
    }
    ColumnsFrom(SortBy(Where(merged, IsRecall), RecallOrderKey), prov, recall, |study|);
  }

  /** Splitting the study phase of the free-recall scoring of one subject's
      lists (each with at least one study item) by list gives back each
      list's study items in serial order. */
  lemma StudySplitRoundTrip(subjects: seq<int>, study: seq<seq<Item>>, recall: seq<seq<Item>>, labels: seq<Option<nat>>)
    requires |study| == |subjects| && |recall| == |subjects|
    requires SingleSubjectAuto(subjects, labels)
    requires forall i :: 0 <= i < |study| ==> study[i] != []
    ensures var f := Scored(MergeFreeRecall(Table(subjects, study, recall, labels)), true);
            var e := PhaseItems(f, "study");
            |e| == |subjects| && forall i :: 0 <= i < |subjects| ==> e[i] == Texts(study[i])
  {
    var t := Table(subjects, study, recall, labels);
    var subject := SubjectOf(subjects);
    var rows := MergeFreeRecall(t);
    var f := Scored(rows, true);
    var ph := Scored(Where(rows, IsStudy), true);
    assert PhaseData(f, "study") == Ok(ph);
    assert ListLabels(f) == Count(|study|) by {
      TableEvents(subjects, study, recall, labels);
      FreeRecallLabels(t, subject, study, recall);
    }
    assert forall i :: 0 <= i < |study| ==> ListSplit(ph, i + 1, study[i]) by {
      assert Where(rows, IsStudy) == Where(MergeLists(PhasePrefix(subject, "study", study, |study|),
                                                      PhasePrefix(subject, "recall", recall, |study|)), IsStudy) by {
        TableEvents(subjects, study, recall, labels);
      }
      StudyColumns(subject, study, recall, rows, true);
    }
    PhaseItemsFrom(f, "study", ph, study);
  }

  /** When no list repeats a study item, splitting the recall phase of the
      list merge of one subject's lists (each with at least one study item)
      by list gives back each list's recall items in output order. */
  lemma RecallSplitRoundTrip(subjects: seq<int>, study: seq<seq<Item>>, recall: seq<seq<Item>>, labels: seq<Option<nat>>)
    requires |study| == |subjects| && |recall| == |subjects|
    requires SingleSubjectAuto(subjects, labels)
    requires forall i :: 0 <= i < |study| ==> study[i] != []
    requires DistinctLists(study)
    ensures var t := Table(subjects, study, recall, labels);
            var f := Scored(MergeLists(StudyEvents(t), RecallEvents(t)), false);
            var e := PhaseItems(f, "recall");
            |e| == |subjects| && forall i :: 0 <= i < |subjects| ==> e[i] == Texts(recall[i])
  {
    var t := Table(subjects, study, recall, labels);
    var subject := SubjectOf(subjects);
    var merged := MergeLists(PhasePrefix(subject, "study", study, |study|),
                             PhasePrefix(subject, "recall", recall, |study|));
    assert MergeLists(StudyEvents(t), RecallEvents(t)) == merged by {
      TableEvents(subjects, study, recall, labels);
    }
    var f := Scored(merged, false);
    var ph := Scored(SortBy(Where(merged, IsRecall), RecallOrderKey), false);
    assert PhaseData(f, "recall") == Ok(ph);
    assert ListLabels(f) == Count(|recall|) by {
      MergeLabels(subject, study, recall, false);
    }
    RecallColumns(subject, study, recall, false);
    PhaseItemsFrom(f, "recall", ph, recall);
  }

  // ---------------------------------------------------------------------
  // The recall phase of the free-recall scoring
  // ---------------------------------------------------------------------

  /** Item `x` is studied in at most one list. */
  predicate StudiedOnce(study: seq<seq<Item>>, x: Item)
  {
    forall a, b :: 0 <= a < b < |study| ==> !(x in study[a] && x in study[b])
  }

  /** Every intrusion (a recall of an item not studied in its own list) is
      of an item studied in at most one list. */
  predicate FewPriorLists(study: seq<seq<Item>>, recall: seq<seq<Item>>)
  {
    forall i, j :: 0 <= i < |study| && i < |recall| && 0 <= j < |recall[i]| && recall[i][j] !in study[i] ==>
      StudiedOnce(study, recall[i][j])
  }

  /** The numbered recall whose recall row joins row `y`. */
  function JoinsRecall(study: seq<Event>, y: Row): Recalled -> bool
  {
    (m: Recalled) => SameJoinAs(y)(RecallRow(study, m))
  }

  /** No two recalls share a list and an output position, so at most one
      joins a given row. */
  lemma RecallJoinsOnce(subject: int, study: seq<seq<Item>>, recall: seq<seq<Item>>, y: Row)
    requires |recall| == |study|
    ensures var se := PhasePrefix(subject, "study", study, |study|);
            var re := PhasePrefix(subject, "recall", recall, |study|);
            |Where(Cumcount(re), JoinsRecall(se, y))| <= 1
  {
    var se := PhasePrefix(subject, "study", study, |study|);
    var re := PhasePrefix(subject, "recall", recall, |study|);
    var rc := Cumcount(re);
    var q := JoinsRecall(se, y);
    PrefixDistinct(subject, "recall", recall, |study|);
    forall i, j | 0 <= i < j < |rc| && q(rc[i]) ensures !q(rc[j]) {
      var a, b := RecallRow(se, rc[i]), RecallRow(se, rc[j]);
      assert rc[i].event == re[i] && rc[j].event == re[j];
      assert a.list == re[i].list && a.output == Some(re[i].position);
      assert b.list == re[j].list && b.output == Some(re[j].position);
      assert re[i].list != re[j].list || re[i].position != re[j].position;
      assert q(rc[j]) == SameJoinAs(y)(b);
    }
    WhereAtMostOne(rc, q);
  }

  /** An intrusion row and a row it is joined on. */
  function IntrusionJoining(y: Row): Row -> bool
  {
    (x: Row) => x.intrusion && SameJoinAs(y)(x)
  }

  function RecallJoining(y: Row): Row -> bool
  {
    (x: Row) => x.recall && x.intrusion && SameJoinAs(y)(x)
  }

  /** The intrusion rows of the list merge are recall rows. */
  lemma IntrusionsRecalled(study: seq<Event>, recall: seq<Event>, y: Row)
    ensures var merged := MergeLists(study, recall);
            Where(Where(merged, IsIntrusion), SameJoinAs(y)) == Where(Where(merged, IsRecall), IntrusionJoining(y))
  {
    var merged := MergeLists(study, recall);
    forall x | x in merged && x.intrusion ensures x.recall {
      MergeIntrusionRecalled(study, recall, x);
    }
    IntrusionRows(merged, y);
  }

  lemma MergeIntrusionRecalled(study: seq<Event>, recall: seq<Event>, x: Row)
    requires x in MergeLists(study, recall)
    ensures x.intrusion ==> x.recall
  {
    MergeMembers(study, recall, x);
    JoinRowShape(study, Cumcount(recall), x);
  }

  /** When every intrusion row is a recall row, the intrusion rows joined on
      `y` are the recall rows that are intrusions joined on `y`. */
  lemma IntrusionRows(rows: seq<Row>, y: Row)
    requires forall x :: x in rows && x.intrusion ==> x.recall
    ensures Where(Where(rows, IsIntrusion), SameJoinAs(y)) == Where(Where(rows, IsRecall), IntrusionJoining(y))
  {
    WhereWhere(rows, IsIntrusion, SameJoinAs(y), IntrusionJoining(y));
    forall x | x in rows ensures IntrusionJoining(y)(x) == RecallJoining(y)(x) {
    }
    WhereSame(rows, IntrusionJoining(y), RecallJoining(y));
    WhereWhere(rows, IsRecall, IntrusionJoining(y), RecallJoining(y));
  }

  /** When no list repeats a study item, at most one intrusion row of the
      list merge is joined on a given row. */
  lemma IntrusionJoinsOnce(subject: int, study: seq<seq<Item>>, recall: seq<seq<Item>>, y: Row)
    requires |recall| == |study| && DistinctLists(study)
    ensures var se := PhasePrefix(subject, "study", study, |study|);
            var re := PhasePrefix(subject, "recall", recall, |study|);
            CountWhere(Where(MergeLists(se, re), IsIntrusion), SameJoinAs(y)) <= 1
  {
    var se := PhasePrefix(subject, "study", study, |study|);
    var re := PhasePrefix(subject, "recall", recall, |study|);
    var merged := MergeLists(se, re);
    var rc := Cumcount(re);
    var rows := Map(rc, RecallRowOf(se));
    WhereLength(Where(merged, IsIntrusion), SameJoinAs(y));
    IntrusionsRecalled(se, re, y);
    assert multiset(Where(merged, IsRecall)) == multiset(rows) by {
      PrefixKeysDistinct(subject, study);
      MergeRecallRows(se, re);
    }
    WhereMultiset(Where(merged, IsRecall), rows, IntrusionJoining(y));
    WhereWeaker(rows, IntrusionJoining(y), SameJoinAs(y));
    WhereMap(rc, RecallRowOf(se), SameJoinAs(y), JoinsRecall(se, y));
    RecallJoinsOnce(subject, study, recall, y);
  }

  /** An item studied in at most one list, never twice in it, has at most
      one study event. */
  lemma StudyEventsOnce(subject: int, study: seq<seq<Item>>, y: Row)
    requires DistinctLists(study) && StudiedOnce(study, y.item)
    ensures CountWhere(PhasePrefix(subject, "study", study, |study|), SameItemAs(y)) <= 1
  {
    var se := PhasePrefix(subject, "study", study, |study|);
    PrefixSlots(subject, "study", study, |study|);
    PrefixDistinct(subject, "study", study, |study|);
    forall i, j | 0 <= i < j < |se| && SameItemAs(y)(se[i]) ensures !SameItemAs(y)(se[j]) {
      var a, b := se[i], se[j];
      assert a in se && b in se;
      var la, lb := a.list - 1, b.list - 1;
      assert a.item == study[la][a.position - 1] && b.item == study[lb][b.position - 1];
      if la < lb {
        assert y.item in study[la];
        assert y.item !in study[lb];
      } else if lb < la {
        assert y.item in study[la];
        assert y.item !in study[lb];
      } else {
        var pa, pb := a.position - 1, b.position - 1;
        assert pa != pb;
        if pa < pb {
          assert study[la][pa] != study[la][pb];
        } else {
          assert study[la][pb] != study[la][pa];
        }
      }
    }
    WhereAtMostOne(se, SameItemAs(y));
    WhereLength(se, SameItemAs(y));
  }

  /** An intrusion row of the list merge comes from a recall event of an
      item that no study event of its list has. */
  lemma IntrusionOrigin(study: seq<Event>, recall: seq<Event>, y: Row) returns (k: nat)
    requires y in MergeLists(study, recall) && y.intrusion
    ensures k < |recall| && RowKey(y) == KeyOf(recall[k]) && !Studied(study, recall[k])
  {
    MergeMembers(study, recall, y);
    k := JoinIntrusion(study, recall, Cumcount(recall), y);
  }

  lemma JoinIntrusion(study: seq<Event>, recall: seq<Event>, rc: seq<Recalled>, y: Row) returns (k: nat)
    requires rc == Cumcount(recall) && JoinRow(study, rc, y) && y.intrusion
    ensures k < |recall| && RowKey(y) == KeyOf(recall[k]) && !Studied(study, recall[k])
  {
    if IntrusionIn(study, rc, y) {
      var m :| m in rc && !Studied(study, m.event) && y == IntrusionRow(m);
      k :| 0 <= k < |rc| && rc[k] == m;
    } else {
      assert false;
    }
  }

  /** The item of an intrusion is not studied in the intrusion's own list. */
  lemma NotInOwnList(subject: int, study: seq<seq<Item>>, e: Event)
    requires 1 <= e.list <= |study| && e.subject == subject
    requires !Studied(PhasePrefix(subject, "study", study, |study|), e)
    ensures e.item !in study[e.list - 1]
  {
    var se := PhasePrefix(subject, "study", study, |study|);
    var n := e.list;
    var block := PhaseEvents(subject, n, "study", study[n - 1]);
    PrefixList(subject, "study", study, |study|, n);
    var items := study[n - 1];
    forall q | 0 <= q < |items| ensures items[q] != e.item {
      assert block[q] == Event(subject, n, "study", q + 1, items[q]);
      assert block[q] in Where(se, EvInList(n));
    }
  }

  /** Under `FewPriorLists`, the item of an intrusion row of the list merge
      is studied in at most one list. */
  lemma IntrusionStudiedOnce(subject: int, study: seq<seq<Item>>, recall: seq<seq<Item>>, y: Row)
    requires |recall| == |study| && FewPriorLists(study, recall)
    requires y in MergeLists(PhasePrefix(subject, "study", study, |study|),
                             PhasePrefix(subject, "recall", recall, |study|))
    requires y.intrusion
    ensures StudiedOnce(study, y.item)
  {
    var se := PhasePrefix(subject, "study", study, |study|);
    var re := PhasePrefix(subject, "recall", recall, |study|);
    var k := IntrusionOrigin(se, re, y);
    var e := re[k];
    assert InSlot(subject, "recall", recall, e) by {
      PrefixSlots(subject, "recall", recall, |study|);
      assert e in re;
    }
    NotInOwnList(subject, study, e);
    assert e.item == recall[e.list - 1][e.position - 1];
  }

  lemma AtMostOneProduct(a: nat, b: nat)
    requires a <= 1 && b <= 1
    ensures a * b <= 1
  {
  }

  /** Under `FewPriorLists`, when no list repeats a study item, at most one
      provenance entry is joined to an intrusion row of the list merge. */
  lemma JoinedOnce(subject: int, study: seq<seq<Item>>, recall: seq<seq<Item>>, y: Row)
    requires |recall| == |study| && DistinctLists(study) && FewPriorLists(study, recall)
    requires y in MergeLists(PhasePrefix(subject, "study", study, |study|),
                             PhasePrefix(subject, "recall", recall, |study|))
    requires y.intrusion
    ensures var se := PhasePrefix(subject, "study", study, |study|);
            var merged := MergeLists(se, PhasePrefix(subject, "recall", recall, |study|));
            |Where(PriorMatches(Where(merged, IsIntrusion), se), JoinsRow(y))| <= 1
  {
    var se := PhasePrefix(subject, "study", study, |study|);
    var merged := MergeLists(se, PhasePrefix(subject, "recall", recall, |study|));
    PriorMatchesCount(Where(merged, IsIntrusion), se, y);
    IntrusionJoinsOnce(subject, study, recall, y);
    IntrusionStudiedOnce(subject, study, recall, y);
    StudyEventsOnce(subject, study, y);
    AtMostOneProduct(CountWhere(Where(merged, IsIntrusion), SameJoinAs(y)), CountWhere(se, SameItemAs(y)));
  }

  /** A row without provenance joined to at most one entry gives a single
      row, which is the row with that entry's provenance. */
  lemma SingleRow(y: Row, priors: seq<Prior>)
    requires y.priorList.None? && y.priorInput.None?
    requires |Where(priors, JoinsRow(y))| <= 1
    ensures Map(RowsWithPriors(y, priors), Strip) == [y]
  {
    var ps := Where(priors, JoinsRow(y));
    if ps != [] {
      assert Map(ps, AttachTo(y)) == [WithPrior(y, ps[0])];
    }
  }

  /** Under `FewPriorLists`, when no list repeats a study item, the
      provenance join gives each row of the list merge a single row. */
  lemma RowsOnce(subject: int, study: seq<seq<Item>>, recall: seq<seq<Item>>, y: Row)
    requires |recall| == |study| && DistinctLists(study) && FewPriorLists(study, recall)
    requires y in MergeLists(PhasePrefix(subject, "study", study, |study|),
                             PhasePrefix(subject, "recall", recall, |study|))
    ensures var se := PhasePrefix(subject, "study", study, |study|);
            var merged := MergeLists(se, PhasePrefix(subject, "recall", recall, |study|));
            Map(RowsOf(PriorMatches(Where(merged, IsIntrusion), se))(y), Strip) == [y]
  {
    var se := PhasePrefix(subject, "study", study, |study|);
    var re := PhasePrefix(subject, "recall", recall, |study|);
    var merged := MergeLists(se, re);
    var priors := PriorMatches(Where(merged, IsIntrusion), se);
    MergeScored(se, re);
    if y.intrusion {
      JoinedOnce(subject, study, recall, y);
    } else {
      NoPriorsForStudied(merged, se, y);
    }
    SingleRow(y, priors);
  }

  /** When the provenance join gives each scored row a single row, adding
      provenance only fills in the provenance of some rows. */
  lemma ProvenanceStrips(merged: seq<Row>, study: seq<Event>)
    requires forall y :: y in merged ==> Map(RowsOf(PriorMatches(Where(merged, IsIntrusion), study))(y), Strip) == [y]
    ensures Map(AddProvenance(merged, study), Strip) == merged
  {
    var priors := PriorMatches(Where(merged, IsIntrusion), study);
    FlatMapCollapse(merged, RowsOf(priors), Strip);
    var attached := AttachPriors(merged, priors);
    assert AddProvenance(merged, study) == Map(attached, Cleared);
    forall j | 0 <= j < |attached| ensures Map(Map(attached, Cleared), Strip)[j] == Map(attached, Strip)[j] {
    }
  }

  /** Under `FewPriorLists`, when no list repeats a study item, the
      free-recall scoring is the list merge with provenance added to some
      of its rows, one row for each. */
  lemma FreeRecallStrips(data: seq<Event>, subject: int, study: seq<seq<Item>>, recall: seq<seq<Item>>)
    requires |recall| == |study| && DistinctLists(study) && FewPriorLists(study, recall)
    requires StudyEvents(data) == PhasePrefix(subject, "study", study, |study|)
    requires RecallEvents(data) == PhasePrefix(subject, "recall", recall, |study|)
    ensures Map(MergeFreeRecall(data), Strip) == MergeLists(StudyEvents(data), RecallEvents(data))
  {
    var se := StudyEvents(data);
    var merged := MergeLists(se, RecallEvents(data));
    forall y | y in merged ensures Map(RowsOf(PriorMatches(Where(merged, IsIntrusion), se))(y), Strip) == [y] {
      RowsOnce(subject, study, recall, y);
    }
    ProvenanceStrips(merged, se);
  }

  /** Rows that are the list merge's once their provenance is dropped split
      into the same recall items. */
  lemma StrippedRecalls(rows: seq<Row>, merged: seq<Row>, n: nat)
    requires Map(rows, Strip) == merged
    ensures Map(Where(SortBy(Where(rows, IsRecall), RecallOrderKey), InList(n)), ItemText) ==
            Map(Where(SortBy(Where(merged, IsRecall), RecallOrderKey), InList(n)), ItemText)
  {
    var recalls := Where(rows, IsRecall);
    var sorted := SortBy(recalls, RecallOrderKey);
    var listed := Where(sorted, InList(n));
    WhereMap(rows, Strip, IsRecall, IsRecall);
    SortByMap(recalls, Strip, RecallOrderKey, RecallOrderKey);
    WhereMap(sorted, Strip, InList(n), InList(n));
    assert Map(listed, ItemText) == Map(Map(listed, Strip), ItemText);
  }

  /** The recall phase of the free-recall scoring, split by list: list `n`
      gives its recall items, under `FewPriorLists` and when no list
      repeats a study item. */
  lemma FreeRecallColumn(data: seq<Event>, subject: int, study: seq<seq<Item>>, recall: seq<seq<Item>>, i: nat)
    requires |recall| == |study| && i < |study| && DistinctLists(study) && FewPriorLists(study, recall)
    requires StudyEvents(data) == PhasePrefix(subject, "study", study, |study|)
    requires RecallEvents(data) == PhasePrefix(subject, "recall", recall, |study|)
    ensures var ph := Scored(SortBy(Where(MergeFreeRecall(data), IsRecall), RecallOrderKey), true);
            ListSplit(ph, i + 1, recall[i])
  {
    var rows := MergeFreeRecall(data);
    assert Map(Where(SortBy(Where(rows, IsRecall), RecallOrderKey), InList(i + 1)), ItemText) == Texts(recall[i]) by {
      FreeRecallStrips(data, subject, study, recall);
      StrippedRecalls(rows, MergeLists(StudyEvents(data), RecallEvents(data)), i + 1);
      RecallListRows(subject, study, recall, i);
    }
    RecallSplit(rows, true, i + 1, recall[i]);
  }

  lemma FreeRecallColumns(data: seq<Event>, subject: int, study: seq<seq<Item>>, recall: seq<seq<Item>>)
    requires |recall| == |study| && DistinctLists(study) && FewPriorLists(study, recall)
    requires StudyEvents(data) == PhasePrefix(subject, "study", study, |study|)
    requires RecallEvents(data) == PhasePrefix(subject, "recall", recall, |study|)
    ensures var ph := Scored(SortBy(Where(MergeFreeRecall(data), IsRecall), RecallOrderKey), true);
            forall i :: 0 <= i < |study| ==> ListSplit(ph, i + 1, recall[i])
  {
    forall i | 0 <= i < |study| {
      FreeRecallColumn(data, subject, study, recall, i);
    }
  }

  /** Under `FewPriorLists`, when no list repeats a study item, splitting
      the recall phase of the free-recall scoring of one subject's lists
      (each with at least one study item) by list gives back each list's
      recall items in output order. */
  lemma FreeRecallSplitRoundTrip(subjects: seq<int>, study: seq<seq<Item>>, recall: seq<seq<Item>>,
                                 labels: seq<Option<nat>>)
    requires |study| == |subjects| && |recall| == |subjects|
    requires SingleSubjectAuto(subjects, labels)
    requires forall i :: 0 <= i < |study| ==> study[i] != []
    requires DistinctLists(study) && FewPriorLists(study, recall)
    ensures var f := Scored(MergeFreeRecall(Table(subjects, study, recall, labels)), true);
            var e := PhaseItems(f, "recall");
            |e| == |subjects| && forall i :: 0 <= i < |subjects| ==> e[i] == Texts(recall[i])
  {
    var t := Table(subjects, study, recall, labels);
    var subject := SubjectOf(subjects);
    var rows := MergeFreeRecall(t);
    var f := Scored(rows, true);
    var ph := Scored(SortBy(Where(rows, IsRecall), RecallOrderKey), true);
    assert PhaseData(f, "recall") == Ok(ph);
    assert ListLabels(f) == Count(|recall|) by {
      TableEvents(subjects, study, recall, labels);
      FreeRecallLabels(t, subject, study, recall);
    }
    assert forall i :: 0 <= i < |recall| ==> ListSplit(ph, i + 1, recall[i]) by {
      TableEvents(subjects, study, recall, labels);
      FreeRecallColumns(t, subject, study, recall);
    }
    PhaseItemsFrom(f, "recall", ph, recall);
  }

  // ---------------------------------------------------------------------
  // An intrusion studied in two other lists
  // ---------------------------------------------------------------------

  /** Three lists of one subject: "x" is studied in lists 1 and 3 and
      recalled in list 2, where it is an intrusion. */
  const ExampleStudy: seq<seq<Item>> := [["x", "a"], ["b", "c"], ["d", "x"]]
  const ExampleRecall: seq<seq<Item>> := [[], ["x", "b"], []]

  lemma ExampleEvents()
    ensures PhasePrefix(1, "study", ExampleStudy, 3) ==
            [Event(1, 1, "study", 1, "x"), Event(1, 1, "study", 2, "a"),
             Event(1, 2, "study", 1, "b"), Event(1, 2, "study", 2, "c"),
             Event(1, 3, "study", 1, "d"), Event(1, 3, "study", 2, "x")]
    ensures PhasePrefix(1, "recall", ExampleRecall, 3) ==
            [Event(1, 2, "recall", 1, "x"), Event(1, 2, "recall", 2, "b")]
  {
    assert PhaseEvents(1, 1, "study", ["x", "a"]) == [Event(1, 1, "study", 1, "x"), Event(1, 1, "study", 2, "a")];
    assert PhaseEvents(1, 2, "study", ["b", "c"]) == [Event(1, 2, "study", 1, "b"), Event(1, 2, "study", 2, "c")];
    assert PhaseEvents(1, 3, "study", ["d", "x"]) == [Event(1, 3, "study", 1, "d"), Event(1, 3, "study", 2, "x")];
    assert PhaseEvents(1, 2, "recall", ["x", "b"]) == [Event(1, 2, "recall", 1, "x"), Event(1, 2, "recall", 2, "b")];
    assert PhaseEvents(1, 1, "recall", []) == [] && PhaseEvents(1, 3, "recall", []) == [];
  }

  /** The intrusion row of "x" in list 2, and the row of "b" studied and
      recalled in list 2. */
  const ExampleIntrusion := Row(1, 2, "x", None, Some(1), false, true, 0, true, None, None)
  const ExamplePair := Row(1, 2, "b", Some(1), Some(2), true, true, 0, false, None, None)

  lemma ExampleNumbered()
    ensures Cumcount(PhasePrefix(1, "recall", ExampleRecall, 3)) ==
            [Recalled(Event(1, 2, "recall", 1, "x"), 0), Recalled(Event(1, 2, "recall", 2, "b"), 0)]
  {
    ExampleEvents();
    var re := PhasePrefix(1, "recall", ExampleRecall, 3);
    CumcountCounts(re);
    assert re[..0] == [] && re[..1] == [re[0]];
    assert CountKey([re[0]], KeyOf(re[1])) == 0 by {
      assert [re[0]][1..] == [];
      assert KeyOf(re[0]) != KeyOf(re[1]);
    }
  }

  /** The recall of "x" in list 2 is an intrusion: list 2 has no study of "x". */
  lemma ExampleIntrusionJoins()
    ensures IntrusionIn(PhasePrefix(1, "study", ExampleStudy, 3),
                        Cumcount(PhasePrefix(1, "recall", ExampleRecall, 3)), ExampleIntrusion)
  {
    var se := PhasePrefix(1, "study", ExampleStudy, 3);
    var rc := Cumcount(PhasePrefix(1, "recall", ExampleRecall, 3));
    ExampleEvents();
    ExampleNumbered();
    assert !Studied(se, rc[0].event);
    assert rc[0] in rc;
  }

  /** The recall of "b" in list 2 pairs with its study at position 1. */
  lemma ExamplePairJoins()
    ensures PairIn(PhasePrefix(1, "study", ExampleStudy, 3),
                   Cumcount(PhasePrefix(1, "recall", ExampleRecall, 3)), ExamplePair)
  {
    var se := PhasePrefix(1, "study", ExampleStudy, 3);
    var rc := Cumcount(PhasePrefix(1, "recall", ExampleRecall, 3));
    var study := Event(1, 2, "study", 1, "b");
    var recalled := Recalled(Event(1, 2, "recall", 2, "b"), 0);
    assert study in se && recalled in rc by {
      ExampleEvents();
      ExampleNumbered();
      assert se[2] == study && rc[1] == recalled;
    }
    assert PairRow(study, recalled) == ExamplePair;
    PairWitness(se, rc, study, recalled);
  }

  lemma PairWitness(study: seq<Event>, rc: seq<Recalled>, s: Event, m: Recalled)
    requires s in study && m in rc && KeyOf(m.event) == KeyOf(s)
    ensures PairIn(study, rc, PairRow(s, m))
  {
  }

  lemma ExampleMerge()
    ensures var merged := MergeLists(PhasePrefix(1, "study", ExampleStudy, 3), PhasePrefix(1, "recall", ExampleRecall, 3));
            ExampleIntrusion in merged && ExamplePair in merged
  {
    var se := PhasePrefix(1, "study", ExampleStudy, 3);
    var re := PhasePrefix(1, "recall", ExampleRecall, 3);
    ExampleIntrusionJoins();
    ExamplePairJoins();
    MergeMembers(se, re, ExampleIntrusion);
    MergeMembers(se, re, ExamplePair);
  }


  /** The example breaks `FewPriorLists` and nothing else the split round
      trip asks for: "x" is an intrusion in list 2 studied in lists 1 and 3. */
  lemma ExampleConditions()
    ensures DistinctLists(ExampleStudy)
    ensures forall i :: 0 <= i < |ExampleStudy| ==> ExampleStudy[i] != []
    ensures !FewPriorLists(ExampleStudy, ExampleRecall)
  {
    assert ExampleRecall[1][0] == "x" && "x" !in ExampleStudy[1];
    assert "x" in ExampleStudy[0] && "x" in ExampleStudy[2];
    assert !StudiedOnce(ExampleStudy, ExampleRecall[1][0]);
  }

  /** Three different recall rows of list 2 leave the free-recall scoring:
      the intrusion joined with its study in list 1, the same intrusion
      cleared of its join with the later study in list 3, and the recall of
      "b". */
  lemma ExampleFreeRecallRows(data: seq<Event>) returns (a: Row, b: Row, c: Row)
    requires StudyEvents(data) == PhasePrefix(1, "study", ExampleStudy, 3)
    requires RecallEvents(data) == PhasePrefix(1, "recall", ExampleRecall, 3)
    ensures a in MergeFreeRecall(data) && b in MergeFreeRecall(data) && c in MergeFreeRecall(data)
    ensures a.recall && b.recall && c.recall && a.list == 2 && b.list == 2 && c.list == 2
    ensures a != b && a != c && b != c
  {
    var s1 := Event(1, 1, "study", 1, "x");
    var s3 := Event(1, 3, "study", 2, "x");
    assert s1 in StudyEvents(data) && s3 in StudyEvents(data) by {
      ExampleEvents();
    }
    ExampleMerge();
    FreeRecallComplete(data, ExampleIntrusion, s1);
    FreeRecallClearsFuture(data, ExampleIntrusion, s3);
    FreeRecallKeepsRows(data, ExamplePair);
    a := WithPrior(ExampleIntrusion, PriorFor(ExampleIntrusion, s1));
    b := ExampleIntrusion;
    c :| c in MergeFreeRecall(data) && Strip(c) == ExamplePair;
  }

  /** Three different recall rows of list `n` are three rows of that list
      in the sorted recall phase. */
  lemma ThreeRecalls(rows: seq<Row>, n: nat, a: Row, b: Row, c: Row)
    requires a in rows && b in rows && c in rows
    requires a.recall && b.recall && c.recall && a.list == n && b.list == n && c.list == n
    requires a != b && a != c && b != c
    ensures |Where(SortBy(Where(rows, IsRecall), RecallOrderKey), InList(n))| >= 3
  {
    var ws := Where(rows, IsRecall);
    assert a in ws && b in ws && c in ws;
    SortKeeps(ws, RecallOrderKey, a);
    SortKeeps(ws, RecallOrderKey, b);
    SortKeeps(ws, RecallOrderKey, c);
    var ls := Where(SortBy(ws, RecallOrderKey), InList(n));
    assert a in ls && b in ls && c in ls;
    ThreeMembers(ls, a, b, c);
  }

  /** List 2 of the sorted recall rows of the example holds at least three
      rows. */
  lemma ExampleRecallList(data: seq<Event>)
    requires StudyEvents(data) == PhasePrefix(1, "study", ExampleStudy, 3)
    requires RecallEvents(data) == PhasePrefix(1, "recall", ExampleRecall, 3)
    ensures |Where(SortBy(Where(MergeFreeRecall(data), IsRecall), RecallOrderKey), InList(2))| >= 3
  {
    var a, b, c := ExampleFreeRecallRows(data);
    ThreeRecalls(MergeFreeRecall(data), 2, a, b, c);
  }

  /** Splitting the recall phase of the free-recall scoring of the example
      by list does not give back list 2's two recalls: the intrusion of
      "x" joins both of its study events, and the outer merge of the
      provenance keeps both rows, so list 2 comes back with three rows or
      more. */
  lemma ExampleSplit(subjects: seq<int>, labels: seq<Option<nat>>)
    requires |subjects| == 3 && SingleSubjectAuto(subjects, labels) && subjects[0] == 1
    ensures var f := Scored(MergeFreeRecall(Table(subjects, ExampleStudy, ExampleRecall, labels)), true);
            var e := PhaseItems(f, "recall");
            |e| == 3 && |e[1]| >= 3 && e[1] != Texts(ExampleRecall[1])
  {
    var t := Table(subjects, ExampleStudy, ExampleRecall, labels);
    var rows := MergeFreeRecall(t);
    var f := Scored(rows, true);
    var sorted := SortBy(Where(rows, IsRecall), RecallOrderKey);
    var ph := Scored(sorted, true);
    assert PhaseData(f, "recall") == Ok(ph);
    assert ListLabels(f) == Count(3) && |Where(sorted, InList(2))| >= 3 by {
      assert SubjectOf(subjects) == 1;
      ExampleConditions();
      TableEvents(subjects, ExampleStudy, ExampleRecall, labels);
      FreeRecallLabels(t, 1, ExampleStudy, ExampleRecall);
      ExampleRecallList(t);
    }
    EntryByList(ph, "item", QueryMask(ph, None), 3);
    ScoredItems(sorted, true, 2);
  }

  /** The same, for the table of three lists of subject 1 with automatic
      list numbers. */
  lemma PriorListsCounterexample()
    ensures var f := Scored(MergeFreeRecall(Table([1, 1, 1], ExampleStudy, ExampleRecall, [None, None, None])), true);
            var e := PhaseItems(f, "recall");
            |e| == 3 && |e[1]| >= 3 && e[1] != Texts(ExampleRecall[1])
  {
    ExampleSplit([1, 1, 1], [None, None, None]);
  }
}

=== FILE: scoring.dfy ===
/** The scoring engine: aligns the study events and the recall events of
    each list of each subject into scored rows (merge_lists), then adds the
    provenance of prior-list intrusions (merge_free_recall). */
module Scoring {
  import opened Common
  import opened Seqs
  import opened Frames

  /** The merge key: events about the same item of the same list. */
  type Key = (int, nat, Item)

  function KeyOf(e: Event): Key
  {
    (e.subject, e.list, e.item)
  }

  function RowKey(x: Row): Key
  {
    (x.subject, x.list, x.item)
  }

  /** Number of events of `s` with merge key `key`. */
  function CountKey(s: seq<Event>, key: Key): nat
  {
    if s == [] then 0 else (if KeyOf(s[0]) == key then 1 else 0) + CountKey(s[1..], key)
  }

  lemma {:induction false} CountKeyAppend(s: seq<Event>, t: seq<Event>, key: Key)
    ensures CountKey(s + t, key) == CountKey(s, key) + CountKey(t, key)
  {
    if s == [] {
      assert s + t == t;
    } else {
      assert (s + t)[1..] == s[1..] + t;
      CountKeyAppend(s[1..], t, key);
    }
  }

  // ---------------------------------------------------------------------
  // Repeat numbering (the per-key running count of recall events)
  // ---------------------------------------------------------------------

  /** A recall event with the number of earlier recalls of its key. */
  datatype Recalled = Recalled(event: Event, repeat: nat)

  /** How many events of `key` the running counter `seen` has passed. */
  function Seen(seen: map<Key, nat>, key: Key): nat
  {
    if key in seen then seen[key] else 0
  }

  /** Numbers each recall event with a running counter per merge key. */
  function CumcountFrom(recall: seq<Event>, seen: map<Key, nat>): (r: seq<Recalled>)
    ensures |r| == |recall|
    ensures forall k :: 0 <= k < |r| ==> r[k].event == recall[k]
  {
    if recall == [] then []
    else
      var key := KeyOf(recall[0]);
      var c := Seen(seen, key);
      [Recalled(recall[0], c)] + CumcountFrom(recall[1..], seen[key := c + 1])
  }

  /** Numbers the recall events; each keeps its event and its place. */
  function Cumcount(recall: seq<Event>): (r: seq<Recalled>)
    ensures |r| == |recall| && forall k :: 0 <= k < |r| ==> r[k].event == recall[k]
  {
    CumcountFrom(recall, map[])
  }

  /** The counter holds, for every key, the number of events of `done`
      with that key. */
  ghost predicate Counts(seen: map<Key, nat>, done: seq<Event>)
  {
    forall key :: Seen(seen, key) == CountKey(done, key)
  }

  /** Advancing the counter over one event keeps it equal to the counts. */
  lemma SeenStep(seen: map<Key, nat>, done: seq<Event>, e: Event, seen': map<Key, nat>, done': seq<Event>)
    requires Counts(seen, done)
    requires seen' == seen[KeyOf(e) := Seen(seen, KeyOf(e)) + 1] && done' == done + [e]
    ensures Counts(seen', done')
  {
    forall key ensures Seen(seen', key) == CountKey(done', key) {
      CountKeyAppend(done, [e], key);
      assert [e][1..] == [];
    }
  }

  /** The count after the first event and `k - 1` more is the count over
      the first `k` events. */
  lemma CountShift(done: seq<Event>, recall: seq<Event>, k: nat, r: nat)
    requires 0 < k < |recall|
    requires r == CountKey((done + [recall[0]]) + recall[1..][..k - 1], KeyOf(recall[1..][k - 1]))
    ensures r == CountKey(done + recall[..k], KeyOf(recall[k]))
  {
    assert recall[..k] == [recall[0]] + recall[1..][..k - 1];
    assert (done + [recall[0]]) + recall[1..][..k - 1] == done + recall[..k];
    assert recall[1..][k - 1] == recall[k];
  }

  /** The first event gets the counter's value for its key. */
  lemma CumcountFromHead(recall: seq<Event>, seen: map<Key, nat>)
    requires recall != []
    ensures CumcountFrom(recall, seen)[0].repeat == Seen(seen, KeyOf(recall[0]))
  {
  }

  /** Later events are numbered by the counter advanced over the first. */
  lemma CumcountFromTail(recall: seq<Event>, seen: map<Key, nat>, seen': map<Key, nat>, k: nat)
    requires 0 < k < |recall|
    requires seen' == seen[KeyOf(recall[0]) := Seen(seen, KeyOf(recall[0])) + 1]
    ensures CumcountFrom(recall, seen)[k].repeat == CumcountFrom(recall[1..], seen')[k - 1].repeat
  {
    assert CumcountFrom(recall, seen) == [Recalled(recall[0], Seen(seen, KeyOf(recall[0])))] + CumcountFrom(recall[1..], seen');
  }

  lemma {:induction false} CumcountFromAt(recall: seq<Event>, seen: map<Key, nat>, done: seq<Event>, k: nat)
    requires Counts(seen, done)
    requires k < |recall|
    ensures CumcountFrom(recall, seen)[k].repeat == CountKey(done + recall[..k], KeyOf(recall[k]))
  {
    var e := recall[0];
    if k == 0 {
      CumcountFromHead(recall, seen);
      assert done + recall[..0] == done;
    } else {
      var seen' := seen[KeyOf(e) := Seen(seen, KeyOf(e)) + 1];
      var done' := done + [e];
      SeenStep(seen, done, e, seen', done');
      CumcountFromAt(recall[1..], seen', done', k - 1);
      CountShift(done, recall, k, CumcountFrom(recall[1..], seen')[k - 1].repeat);
      CumcountFromTail(recall, seen, seen', k);
    }
  }

  /** The repeat number of each recall event is the number of earlier recall
      events with the same subject, list and item. */
  lemma CumcountCounts(recall: seq<Event>)
    ensures |Cumcount(recall)| == |recall|
    ensures forall k :: 0 <= k < |recall| ==>
      Cumcount(recall)[k].event == recall[k] &&
      Cumcount(recall)[k].repeat == CountKey(recall[..k], KeyOf(recall[k]))
  {
    forall k | 0 <= k < |recall|
      ensures Cumcount(recall)[k].repeat == CountKey(recall[..k], KeyOf(recall[k]))
    {
      assert Counts(map[], []);
      CumcountFromAt(recall, map[], [], k);
      assert [] + recall[..k] == recall[..k];
    }
  }

  // ---------------------------------------------------------------------
  // The outer join of study events with numbered recall events
  // ---------------------------------------------------------------------

  /** A scored row; the flags follow from which positions are present. */
  function Score(subject: int, list: nat, item: Item, input: Option<nat>, output: Option<nat>, repeat: nat): Row
  {
    Row(subject, list, item, input, output,
        input.Some? && repeat == 0,   // study
        output.Some?,                 // recall
        repeat,
        input.None?,                  // intrusion
        None, None)
  }

  /** A study event matched with one recall of its item. */
  function PairRow(s: Event, m: Recalled): Row
  {
    Score(s.subject, s.list, s.item, Some(s.position), Some(m.event.position), m.repeat)
  }

  /** Pairs study event `s` with a recall. */
  function PairsWith(s: Event): Recalled -> Row
  {
    (m: Recalled) => PairRow(s, m)
  }

  /** A study event whose item was not recalled. */
  function UnrecalledRow(s: Event): Row
  {
    Score(s.subject, s.list, s.item, Some(s.position), None, 0)
  }

  /** A recall event whose item was not studied in its list. */
  function IntrusionRow(m: Recalled): Row
  {
    Score(m.event.subject, m.event.list, m.event.item, None, Some(m.event.position), m.repeat)
  }

  /** The recalls that share the merge key of study event `s`. */
  function Matches(rc: seq<Recalled>, s: Event): seq<Recalled>
  {
    Where(rc, SameKeyAs(s))
  }

  /** The recall has the merge key of study event `s`. */
  function SameKeyAs(s: Event): Recalled -> bool
  {
    (m: Recalled) => KeyOf(m.event) == KeyOf(s)
  }

  /** Some study event has the merge key of `e`. */
  predicate Studied(study: seq<Event>, e: Event)
  {
    exists s :: s in study && KeyOf(s) == KeyOf(e)
  }

  /** The rows of one study event: one per recall of its item, or a single
      unrecalled row. */
  function StudyRows(s: Event, rc: seq<Recalled>): seq<Row>
  {
    var ms := Matches(rc, s);
    if ms == [] then [UnrecalledRow(s)] else Map(ms, PairsWith(s))
  }

  function StudySide(study: seq<Event>, rc: seq<Recalled>): seq<Row>
  {
    if study == [] then [] else StudyRows(study[0], rc) + StudySide(study[1..], rc)
  }

  /** The recall has no study event of its item in its list. */
  function Unstudied(study: seq<Event>): Recalled -> bool
  {
    (m: Recalled) => !Studied(study, m.event)
  }

  function RecallSide(study: seq<Event>, rc: seq<Recalled>): seq<Row>
  {
    Map(Where(rc, Unstudied(study)), IntrusionRow)
  }

  /** Full outer join on the merge key. */
  function OuterJoin(study: seq<Event>, rc: seq<Recalled>): seq<Row>
  {
    StudySide(study, rc) + RecallSide(study, rc)
  }

  lemma {:induction false} StudySideMembers(study: seq<Event>, rc: seq<Recalled>, x: Row)
    ensures x in StudySide(study, rc) <==> exists i :: 0 <= i < |study| && x in StudyRows(study[i], rc)
  {
    if study != [] {
      StudySideMembers(study[1..], rc, x);
      if x in StudySide(study[1..], rc) {
        var i :| 0 <= i < |study[1..]| && x in StudyRows(study[1..][i], rc);
        assert study[1..][i] == study[i + 1];
      }
      if exists i :: 0 <= i < |study| && x in StudyRows(study[i], rc) {
        var i :| 0 <= i < |study| && x in StudyRows(study[i], rc);
        if i > 0 {
          assert study[1..][i - 1] == study[i];
        }
      }
    }
  }

  /** A row of an unrecalled study event. */
  predicate UnrecalledIn(study: seq<Event>, rc: seq<Recalled>, x: Row)
  {
    exists s :: s in study && Matches(rc, s) == [] && x == UnrecalledRow(s)
  }

  /** A row of a study event matched with a recall of its item. */
  predicate PairIn(study: seq<Event>, rc: seq<Recalled>, x: Row)
  {
    exists s, m :: s in study && m in rc && KeyOf(m.event) == KeyOf(s) && x == PairRow(s, m)
  }

  /** A row of a recall event without a study event of its item. */
  predicate IntrusionIn(study: seq<Event>, rc: seq<Recalled>, x: Row)
  {
    exists m :: m in rc && !Studied(study, m.event) && x == IntrusionRow(m)
  }

  /** What a row of the outer join can be. */
  predicate JoinRow(study: seq<Event>, rc: seq<Recalled>, x: Row)
  {
    UnrecalledIn(study, rc, x) || PairIn(study, rc, x) || IntrusionIn(study, rc, x)
  }

  lemma RecallSideMembers(study: seq<Event>, rc: seq<Recalled>, x: Row)
    ensures x in RecallSide(study, rc) <==> IntrusionIn(study, rc, x)
  {
    var rs := Where(rc, Unstudied(study));
    if x in RecallSide(study, rc) {
      var k :| 0 <= k < |rs| && x == IntrusionRow(rs[k]);
      assert rs[k] in rs;
    }
    if IntrusionIn(study, rc, x) {
      var m :| m in rc && !Studied(study, m.event) && x == IntrusionRow(m);
      assert m in rs;
      var k :| 0 <= k < |rs| && rs[k] == m;
      assert RecallSide(study, rc)[k] == x;
    }
  }

  lemma StudyRowsMembers(s: Event, rc: seq<Recalled>, x: Row)
    ensures x in StudyRows(s, rc) <==>
      (Matches(rc, s) == [] && x == UnrecalledRow(s)) ||
      (exists m :: m in rc && KeyOf(m.event) == KeyOf(s) && x == PairRow(s, m))
  {
    var ms := Matches(rc, s);
    MapMembers(ms, PairsWith(s), x);
    if exists m :: m in rc && KeyOf(m.event) == KeyOf(s) && x == PairRow(s, m) {
      var m :| m in rc && KeyOf(m.event) == KeyOf(s) && x == PairRow(s, m);
      assert m in ms && x == PairsWith(s)(m);
    }
  }

  lemma StudySideOnly(study: seq<Event>, rc: seq<Recalled>, x: Row)
    ensures x in StudySide(study, rc) <==> UnrecalledIn(study, rc, x) || PairIn(study, rc, x)
  {
    StudySideMembers(study, rc, x);
    if x in StudySide(study, rc) {
      var i :| 0 <= i < |study| && x in StudyRows(study[i], rc);
      StudyRowsMembers(study[i], rc, x);
      if Matches(rc, study[i]) == [] && x == UnrecalledRow(study[i]) {
        assert UnrecalledIn(study, rc, x);
      } else {
        var m :| m in rc && KeyOf(m.event) == KeyOf(study[i]) && x == PairRow(study[i], m);
        assert PairIn(study, rc, x);
      }
    }
    if UnrecalledIn(study, rc, x) {
      var s :| s in study && Matches(rc, s) == [] && x == UnrecalledRow(s);
      var i :| 0 <= i < |study| && study[i] == s;
      StudyRowsMembers(s, rc, x);
    }
    if PairIn(study, rc, x) {
      var s, m :| s in study && m in rc && KeyOf(m.event) == KeyOf(s) && x == PairRow(s, m);
      var i :| 0 <= i < |study| && study[i] == s;
      StudyRowsMembers(s, rc, x);
    }
  }

  lemma JoinMembers(study: seq<Event>, rc: seq<Recalled>, x: Row)
    ensures x in OuterJoin(study, rc) <==> JoinRow(study, rc, x)
  {
    StudySideOnly(study, rc, x);
    RecallSideMembers(study, rc, x);
  }

  // ---------------------------------------------------------------------
  // merge_lists
  // ---------------------------------------------------------------------

  /** Sort key: subject, then list, then input position with absent inputs
      after all present ones. */
  function MergeOrderKey(x: Row): seq<int>
  {
    [x.subject, x.list] + match x.input case Some(p) => [0, p] case None => [1, 0]
  }

  /** Scores the study events against the recall events. */
  function MergeLists(study: seq<Event>, recall: seq<Event>): (r: seq<Row>)
    ensures SortedBy(r, MergeOrderKey)
    ensures |r| == StudyRowCount(study, recall) + |Where(recall, UnstudiedEvent(study))|
  {
    JoinCount(study, recall);
    SortBy(OuterJoin(study, Cumcount(recall)), MergeOrderKey)
  }

  /** The merged rows are exactly the rows of the outer join. */
  lemma MergeMembers(study: seq<Event>, recall: seq<Event>, x: Row)
    ensures x in MergeLists(study, recall) <==> JoinRow(study, Cumcount(recall), x)
  {
    var j := OuterJoin(study, Cumcount(recall));
    JoinMembers(study, Cumcount(recall), x);
    assert x in MergeLists(study, recall) <==> x in multiset(MergeLists(study, recall));
    assert x in j <==> x in multiset(j);
  }

  /** The flags of a scored row, as derived from its positions. */
  predicate FlagsDerived(x: Row)
  {
    && x.study == (x.input.Some? && x.repeat == 0)
    && x.recall == x.output.Some?
    && x.intrusion == x.input.None?
  }

  lemma JoinRowShape(study: seq<Event>, rc: seq<Recalled>, x: Row)
    requires JoinRow(study, rc, x)
    ensures FlagsDerived(x) && x.priorList.None? && x.priorInput.None?
  {
    if UnrecalledIn(study, rc, x) {
      var s :| s in study && Matches(rc, s) == [] && x == UnrecalledRow(s);
    } else if PairIn(study, rc, x) {
      var s, m :| s in study && m in rc && KeyOf(m.event) == KeyOf(s) && x == PairRow(s, m);
    } else {
      var m :| m in rc && !Studied(study, m.event) && x == IntrusionRow(m);
    }
  }

  /** `study` is true exactly for rows with an input position that are not
      repeats, `recall` exactly for rows with an output position (repeats
      included), `intrusion` exactly for rows without an input position; so
      intrusions and repeats are never study rows. */
  lemma MergeFlags(study: seq<Event>, recall: seq<Event>)
    ensures forall x :: x in MergeLists(study, recall) ==>
      && FlagsDerived(x)
      && (x.intrusion ==> !x.study)
      && (x.repeat > 0 ==> !x.study)
      && x.priorList.None? && x.priorInput.None?
  {
    forall x | x in MergeLists(study, recall)
      ensures FlagsDerived(x) && x.priorList.None? && x.priorInput.None?
    {
      MergeMembers(study, recall, x);
      JoinRowShape(study, Cumcount(recall), x);
    }
  }

  /** Some recall event has merge key `key`. */
  predicate RecalledKey(recall: seq<Event>, key: Key)
  {
    exists k :: 0 <= k < |recall| && KeyOf(recall[k]) == key
  }

  /** Some study event has merge key `key`. */
  predicate StudiedKey(study: seq<Event>, key: Key)
  {
    exists s :: s in study && KeyOf(s) == key
  }

  /** Every study event is kept, with its serial position as input; every
      row with an input comes from a study event; a row lacks an input exactly
      when no study event of the list has its item (an intrusion). */
  lemma MergeKeepsStudy(study: seq<Event>, recall: seq<Event>)
    ensures forall s :: s in study ==>
      exists x :: x in MergeLists(study, recall) && RowKey(x) == KeyOf(s) && x.input == Some(s.position)
    ensures forall x :: x in MergeLists(study, recall) && x.input.Some? ==>
      exists s :: s in study && KeyOf(s) == RowKey(x) && x.input == Some(s.position)
    ensures forall x :: x in MergeLists(study, recall) ==>
      (x.intrusion <==> !StudiedKey(study, RowKey(x)))
  {
    var rc := Cumcount(recall);
    CumcountCounts(recall);
    forall s | s in study
      ensures exists x :: x in MergeLists(study, recall) && RowKey(x) == KeyOf(s) && x.input == Some(s.position)
    {
      var ms := Matches(rc, s);
      var x;
      if ms == [] {
        x := UnrecalledRow(s);
        assert UnrecalledIn(study, rc, x);
      } else {
        assert ms[0] in ms;
        x := PairRow(s, ms[0]);
        assert PairIn(study, rc, x);
      }
      MergeMembers(study, recall, x);
    }
    forall x | x in MergeLists(study, recall)
      ensures x.input.Some? ==> exists s :: s in study && KeyOf(s) == RowKey(x) && x.input == Some(s.position)
      ensures x.intrusion <==> !StudiedKey(study, RowKey(x))
    {
      MergeMembers(study, recall, x);
      if UnrecalledIn(study, rc, x) {
        var s :| s in study && Matches(rc, s) == [] && x == UnrecalledRow(s);
      } else if PairIn(study, rc, x) {
        var s, m :| s in study && m in rc && KeyOf(m.event) == KeyOf(s) && x == PairRow(s, m);
      } else {
        var m :| m in rc && !Studied(study, m.event) && x == IntrusionRow(m);
        assert RowKey(x) == KeyOf(m.event);
      }
    }
  }

  /** Row `x` carries recall event `k`: its key, its output position and its
      repeat number, the count of earlier recall events of the same subject,
      list and item. */
  predicate CarriesRecall(recall: seq<Event>, k: int, x: Row)
  {
    && 0 <= k < |recall|
    && RowKey(x) == KeyOf(recall[k])
    && x.output == Some(recall[k].position)
    && x.repeat == CountKey(recall[..k], KeyOf(recall[k]))
  }

  /** An element of the numbered recalls is some recall event with its count. */
  lemma CumcountMember(recall: seq<Event>, m: Recalled) returns (k: nat)
    requires m in Cumcount(recall)
    ensures k < |recall| && m.event == recall[k] && m.repeat == CountKey(recall[..k], KeyOf(recall[k]))
  {
    CumcountCounts(recall);
    var rc := Cumcount(recall);
    k :| 0 <= k < |rc| && rc[k] == m;
  }

  /** Every recall event is kept, with its output position and its repeat
      number. */
  lemma MergeKeepsRecall(study: seq<Event>, recall: seq<Event>, k: nat)
    requires k < |recall|
    ensures exists x :: x in MergeLists(study, recall) && CarriesRecall(recall, k, x)
  {
    var rc := Cumcount(recall);
    CumcountCounts(recall);
    var m := rc[k];
    assert m in rc;
    var x;
    if Studied(study, m.event) {
      var s :| s in study && KeyOf(s) == KeyOf(m.event);
      x := PairRow(s, m);
      assert PairIn(study, rc, x);
    } else {
      x := IntrusionRow(m);
      assert IntrusionIn(study, rc, x);
    }
    MergeMembers(study, recall, x);
    assert CarriesRecall(recall, k, x);
  }

  /** Every row with an output position carries a recall event. */
  lemma MergeRecallOrigin(study: seq<Event>, recall: seq<Event>, x: Row)
    requires x in MergeLists(study, recall) && x.output.Some?
    ensures exists k :: CarriesRecall(recall, k, x)
  {
    var rc := Cumcount(recall);
    MergeMembers(study, recall, x);
    var m;
    if PairIn(study, rc, x) {
      var s, m' :| s in study && m' in rc && KeyOf(m'.event) == KeyOf(s) && x == PairRow(s, m');
      m := m';
    } else if IntrusionIn(study, rc, x) {
      var m' :| m' in rc && !Studied(study, m'.event) && x == IntrusionRow(m');
      m := m';
    } else {
      assert false;
    }
    var k := CumcountMember(recall, m);
    assert CarriesRecall(recall, k, x);
  }

  /** A row without an output position is a studied item that was never
      recalled in its list; its repeat number is 0. */
  lemma MergeUnrecalled(study: seq<Event>, recall: seq<Event>, x: Row)
    requires x in MergeLists(study, recall) && x.output.None?
    ensures x.repeat == 0 && x.input.Some? && !RecalledKey(recall, RowKey(x))
  {
    var rc := Cumcount(recall);
    CumcountCounts(recall);
    MergeMembers(study, recall, x);
    if UnrecalledIn(study, rc, x) {
      var s :| s in study && Matches(rc, s) == [] && x == UnrecalledRow(s);
      forall k | 0 <= k < |recall| ensures KeyOf(recall[k]) != RowKey(x) {
        assert rc[k] in rc;
        assert rc[k] !in Matches(rc, s);
      }
    } else {
      assert false;
    }
  }

  /** Rows in order: by subject, then list, then input position, rows
      without an input after all rows with one in the same list. */
  predicate InMergeOrder(a: Row, b: Row)
  {
    || a.subject < b.subject
    || (a.subject == b.subject && a.list < b.list)
    || (a.subject == b.subject && a.list == b.list &&
        (b.input.None? || (a.input.Some? && a.input.value <= b.input.value)))
  }

  lemma MergeOrderKeyMeaning(a: Row, b: Row)
    ensures LexLeq(MergeOrderKey(a), MergeOrderKey(b)) <==> InMergeOrder(a, b)
  {
    var ka, kb := MergeOrderKey(a), MergeOrderKey(b);
    var ta, tb := if a.input.Some? then 0 else 1, if b.input.Some? then 0 else 1;
    var pa, pb := if a.input.Some? then a.input.value else 0, if b.input.Some? then b.input.value else 0;
    assert ka == [a.subject, a.list, ta, pa] && kb == [b.subject, b.list, tb, pb];
    assert ka[1..] == [a.list, ta, pa] && kb[1..] == [b.list, tb, pb];
    assert ka[1..][1..] == [ta, pa] && kb[1..][1..] == [tb, pb];
    assert ka[1..][1..][1..] == [pa] && kb[1..][1..][1..] == [pb];
    assert LexLeq([pa], [pb]) <==> pa <= pb by {
      assert [pa][1..] == [] == [pb][1..];
    }
    assert LexLeq(ka[1..][1..], kb[1..][1..]) <==> ta < tb || (ta == tb && pa <= pb);
    assert LexLeq(ka[1..], kb[1..]) <==> a.list < b.list || (a.list == b.list && (ta < tb || (ta == tb && pa <= pb)));
  }

  /** The merged rows are sorted by subject, list and input position. */
  lemma MergeSorted(study: seq<Event>, recall: seq<Event>)
    ensures var r := MergeLists(study, recall);
      forall i, j :: 0 <= i < j < |r| ==> InMergeOrder(r[i], r[j])
  {
    var r := MergeLists(study, recall);
    forall i, j | 0 <= i < j < |r| ensures InMergeOrder(r[i], r[j]) {
      MergeOrderKeyMeaning(r[i], r[j]);
    }
  }

  // ---------------------------------------------------------------------
  // The rows of the join, counted
  // ---------------------------------------------------------------------

  /** The recalls of one key are numbered 0, 1, 2, ... from the counter's
      value, one per recall event of that key. */
  lemma {:induction false} MatchesFrom(recall: seq<Event>, seen: map<Key, nat>, s: Event)
    ensures |Matches(CumcountFrom(recall, seen), s)| == CountKey(recall, KeyOf(s))
  {
    if recall != [] {
      var key := KeyOf(recall[0]);
      var c := Seen(seen, key);
      var seen' := seen[key := c + 1];
      MatchesStep(recall, seen, s, c, seen');
      MatchesFrom(recall[1..], seen', s);
    }
  }

  /** The recalls of one key are numbered on from the counter's value. */
  lemma {:induction false} MatchesRepeat(recall: seq<Event>, seen: map<Key, nat>, s: Event)
    ensures NumberedFrom(Matches(CumcountFrom(recall, seen), s), Seen(seen, KeyOf(s)))
  {
    if recall != [] {
      var key := KeyOf(recall[0]);
      var c := Seen(seen, key);
      var seen' := seen[key := c + 1];
      var mt := Matches(CumcountFrom(recall[1..], seen'), s);
      MatchesStep(recall, seen, s, c, seen');
      SeenUpdate(seen, key, KeyOf(s));
      MatchesRepeat(recall[1..], seen', s);
      if key == KeyOf(s) {
        NumberedCons(Recalled(recall[0], c), mt, c);
      }
    }
  }

  /** The `j`-th recall of `ms` has `base + j` earlier recalls. */
  predicate NumberedFrom(ms: seq<Recalled>, base: nat)
  {
    forall j :: 0 <= j < |ms| ==> ms[j].repeat == base + j
  }

  lemma NumberedCons(m: Recalled, ms: seq<Recalled>, base: nat)
    requires m.repeat == base && NumberedFrom(ms, base + 1)
    ensures NumberedFrom([m] + ms, base)
  {
    forall j | 0 <= j < |[m] + ms| ensures ([m] + ms)[j].repeat == base + j {
      if j > 0 {
        assert ([m] + ms)[j] == ms[j - 1];
      }
    }
  }

  /** One step of the numbering, seen from one study event. */
  lemma MatchesStep(recall: seq<Event>, seen: map<Key, nat>, s: Event, c: nat, seen': map<Key, nat>)
    requires recall != [] && c == Seen(seen, KeyOf(recall[0])) && seen' == seen[KeyOf(recall[0]) := c + 1]
    ensures KeyOf(recall[0]) == KeyOf(s) ==>
              Matches(CumcountFrom(recall, seen), s) == [Recalled(recall[0], c)] + Matches(CumcountFrom(recall[1..], seen'), s)
    ensures KeyOf(recall[0]) != KeyOf(s) ==>
              Matches(CumcountFrom(recall, seen), s) == Matches(CumcountFrom(recall[1..], seen'), s)
  {
    var m := Recalled(recall[0], c);
    var tail := CumcountFrom(recall[1..], seen');
    CumcountCons(recall, seen);
    assert CumcountFrom(recall, seen) == [m] + tail;
    MatchesCons(m, tail, s);
  }

  lemma CumcountCons(recall: seq<Event>, seen: map<Key, nat>)
    requires recall != []
    ensures CumcountFrom(recall, seen) ==
            [Recalled(recall[0], Seen(seen, KeyOf(recall[0])))] +
            CumcountFrom(recall[1..], seen[KeyOf(recall[0]) := Seen(seen, KeyOf(recall[0])) + 1])
  {
  }

  lemma SeenUpdate(seen: map<Key, nat>, key: Key, other: Key)
    ensures Seen(seen[key := Seen(seen, key) + 1], other) == if key == other then Seen(seen, key) + 1 else Seen(seen, other)
  {
  }

  lemma MatchesCons(m: Recalled, tail: seq<Recalled>, s: Event)
    ensures KeyOf(m.event) == KeyOf(s) ==> Matches([m] + tail, s) == [m] + Matches(tail, s)
    ensures KeyOf(m.event) != KeyOf(s) ==> Matches([m] + tail, s) == Matches(tail, s)
  {
    assert ([m] + tail)[0] == m && ([m] + tail)[1..] == tail;
  }

  /** The study row of study event `s`: paired with the first recall of its
      item, or unrecalled. */
  function StudyRow(s: Event, rc: seq<Recalled>): Row
  {
    var ms := Matches(rc, s);
    if ms == [] then UnrecalledRow(s) else PairRow(s, ms[0])
  }

  function StudyRowOf(rc: seq<Recalled>): Event -> Row
  {
    (s: Event) => StudyRow(s, rc)
  }

  /** Of the rows of a study event exactly one is a study row: the later
      recalls of its item are repeats. */
  lemma StudyRowsStudy(s: Event, recall: seq<Event>)
    ensures Where(StudyRows(s, Cumcount(recall)), IsStudy) == [StudyRow(s, Cumcount(recall))]
  {
    var rc := Cumcount(recall);
    var ms := Matches(rc, s);
    MatchesRepeat(recall, map[], s);
    if ms != [] {
      var later := Map(ms[1..], PairsWith(s));
      assert Map(ms, PairsWith(s)) == [PairRow(s, ms[0])] + later;
      forall x | x in later ensures !IsStudy(x) {
        var j :| 0 <= j < |later| && later[j] == x;
        assert ms[1..][j] == ms[j + 1];
      }
      WhereNone(later, IsStudy);
      WhereAppend([PairRow(s, ms[0])], later, IsStudy);
    }
  }

  lemma {:induction false} StudySideStudy(study: seq<Event>, recall: seq<Event>)
    ensures Where(StudySide(study, Cumcount(recall)), IsStudy) == Map(study, StudyRowOf(Cumcount(recall)))
  {
    if study != [] {
      var rc := Cumcount(recall);
      var row := StudyRow(study[0], rc);
      assert Where(StudySide(study, rc), IsStudy) == [row] + Map(study[1..], StudyRowOf(rc)) by {
        var head, rest := StudyRows(study[0], rc), StudySide(study[1..], rc);
        assert StudySide(study, rc) == head + rest;
        StudySideStudy(study[1..], recall);
        StudyRowsStudy(study[0], recall);
        WhereAppend(head, rest, IsStudy);
      }
      MapCons(study, StudyRowOf(rc));
    }
  }

  /** The study rows of the join are the study events' rows, one per study
      event and in study order. */
  lemma JoinStudyRows(study: seq<Event>, recall: seq<Event>)
    ensures Where(OuterJoin(study, Cumcount(recall)), IsStudy) == Map(study, StudyRowOf(Cumcount(recall)))
  {
    var rc := Cumcount(recall);
    StudySideStudy(study, recall);
    WhereAppend(StudySide(study, rc), RecallSide(study, rc), IsStudy);
    forall x | x in RecallSide(study, rc) ensures !IsStudy(x) {
      RecallSideMembers(study, rc, x);
    }
    WhereNone(RecallSide(study, rc), IsStudy);
  }

  /** The rows of the study events that pair them with recalls. */
  function PairSide(study: seq<Event>, rc: seq<Recalled>): seq<Row>
  {
    if study == [] then [] else Map(Matches(rc, study[0]), PairsWith(study[0])) + PairSide(study[1..], rc)
  }

  lemma {:induction false} StudySideRecall(study: seq<Event>, rc: seq<Recalled>)
    ensures Where(StudySide(study, rc), IsRecall) == PairSide(study, rc)
  {
    if study != [] {
      var s := study[0];
      StudySideRecall(study[1..], rc);
      WhereAppend(StudyRows(s, rc), StudySide(study[1..], rc), IsRecall);
      StudyRowsRecall(s, rc);
    }
  }

  /** The recall rows of one study event are its pairs. */
  lemma StudyRowsRecall(s: Event, rc: seq<Recalled>)
    ensures Where(StudyRows(s, rc), IsRecall) == Map(Matches(rc, s), PairsWith(s))
  {
    var ms := Matches(rc, s);
    if ms == [] {
      assert StudyRows(s, rc) == [UnrecalledRow(s)];
      assert Where(StudyRows(s, rc), IsRecall) == [];
    } else {
      var rows := Map(ms, PairsWith(s));
      assert StudyRows(s, rc) == rows;
      forall i | 0 <= i < |rows| ensures IsRecall(rows[i]) {
        assert rows[i] == PairRow(s, ms[i]);
      }
      WhereAll(rows, IsRecall);
    }
  }

  /** The recall rows of the join: the study events' pairs, then the
      intrusions. */
  lemma JoinRecallRows(study: seq<Event>, rc: seq<Recalled>)
    ensures Where(OuterJoin(study, rc), IsRecall) == PairSide(study, rc) + RecallSide(study, rc)
  {
    StudySideRecall(study, rc);
    WhereAppend(StudySide(study, rc), RecallSide(study, rc), IsRecall);
    forall x | x in RecallSide(study, rc) ensures IsRecall(x) {
      RecallSideMembers(study, rc, x);
    }
    WhereAll(RecallSide(study, rc), IsRecall);
  }

  /** The larger of `n` and 1. */
  function AtLeastOne(n: int): nat
  {
    if n < 1 then 1 else n
  }

  /** The rows the study events give the merge: one per recall event of the
      item in the list, and one when there is none. */
  function StudyRowCount(study: seq<Event>, recall: seq<Event>): nat
  {
    if study == [] then 0 else AtLeastOne(CountKey(recall, KeyOf(study[0]))) + StudyRowCount(study[1..], recall)
  }

  lemma {:induction false} StudySideCount(study: seq<Event>, recall: seq<Event>)
    ensures |StudySide(study, Cumcount(recall))| == StudyRowCount(study, recall)
  {
    if study != [] {
      StudySideCount(study[1..], recall);
      MatchesFrom(recall, map[], study[0]);
    }
  }

  function EventOf(m: Recalled): Event
  {
    m.event
  }

  /** The event has no study event of its item in its list. */
  function UnstudiedEvent(study: seq<Event>): Event -> bool
  {
    (e: Event) => !Studied(study, e)
  }

  lemma RecallSideCount(study: seq<Event>, recall: seq<Event>)
    ensures |RecallSide(study, Cumcount(recall))| == |Where(recall, UnstudiedEvent(study))|
  {
    var rc := Cumcount(recall);
    assert Map(rc, EventOf) == recall;
    WhereMap(rc, EventOf, UnstudiedEvent(study), Unstudied(study));
  }

  /** The join has one row per study event and recall event of its item (at
      least one per study event), and one per recall event of an item not
      studied in its list. */
  lemma JoinCount(study: seq<Event>, recall: seq<Event>)
    ensures |OuterJoin(study, Cumcount(recall))| ==
            StudyRowCount(study, recall) + |Where(recall, UnstudiedEvent(study))|
  {
    StudySideCount(study, recall);
    RecallSideCount(study, recall);
  }

  /** Every study event gives exactly one study row, whatever its recalls. */
  lemma MergeStudyRows(study: seq<Event>, recall: seq<Event>)
    ensures multiset(Where(MergeLists(study, recall), IsStudy)) == multiset(Map(study, StudyRowOf(Cumcount(recall))))
  {
    JoinStudyRows(study, recall);
    WhereMultiset(MergeLists(study, recall), OuterJoin(study, Cumcount(recall)), IsStudy);
  }

  // ---------------------------------------------------------------------
  // merge_free_recall
  // ---------------------------------------------------------------------

  predicate IsStudyEvent(e: Event) { e.trialType == "study" }

  predicate IsRecallEvent(e: Event) { e.trialType == "recall" }

  /** The study events of a raw table, in table order. */
  function StudyEvents(data: seq<Event>): seq<Event>
  {
    Where(data, IsStudyEvent)
  }

  /** The recall events of a raw table, in table order. */
  function RecallEvents(data: seq<Event>): seq<Event>
  {
    Where(data, IsRecallEvent)
  }

  /** Provenance of an intrusion: the scored row's key and output position,
      with the list and serial position of a study event of its item. */
  datatype Prior = Prior(subject: int, list: nat, item: Item, output: Option<nat>,
                         priorList: nat, priorInput: nat)

  /** Study event `s` presented the item of row `x` to the same subject. */
  predicate SameItem(x: Row, s: Event)
  {
    s.subject == x.subject && s.item == x.item
  }

  function PriorFor(x: Row, s: Event): Prior
  {
    Prior(x.subject, x.list, x.item, x.output, s.list, s.position)
  }

  /** Inner join of one intrusion with the study events on subject and item. */
  function PriorsOf(x: Row, study: seq<Event>): seq<Prior>
  {
    Map(Where(study, SameItemAs(x)), PriorOf(x))
  }

  function SameItemAs(x: Row): Event -> bool
  {
    (s: Event) => SameItem(x, s)
  }

  function PriorOf(x: Row): Event -> Prior
  {
    (s: Event) => PriorFor(x, s)
  }

  function PriorsWith(study: seq<Event>): Row -> seq<Prior>
  {
    (x: Row) => PriorsOf(x, study)
  }

  /** Inner join of the intrusions with the study events on subject and item:
      one entry per intrusion and study event of the same item. */
  function PriorMatches(intrusions: seq<Row>, study: seq<Event>): seq<Prior>
  {
    FlatMap(intrusions, PriorsWith(study))
  }

  /** `p` is joined to row `y`: same subject, list, item and output. */
  predicate Joins(p: Prior, y: Row)
  {
    p.subject == y.subject && p.list == y.list && p.item == y.item && p.output == y.output
  }

  function JoinsRow(y: Row): Prior -> bool
  {
    (p: Prior) => Joins(p, y)
  }

  function WithPrior(y: Row, p: Prior): Row
  {
    y.(priorList := Some(p.priorList), priorInput := Some(p.priorInput))
  }

  /** The row without its provenance. */
  function Strip(x: Row): Row
  {
    x.(priorList := None, priorInput := None)
  }

  /** The rows of scored row `y` after the provenance join: one per joined
      entry, or `y` itself when there is none. */
  function RowsWithPriors(y: Row, priors: seq<Prior>): seq<Row>
  {
    var ps := Where(priors, JoinsRow(y));
    if ps == [] then [y] else Map(ps, AttachTo(y))
  }

  function AttachTo(y: Row): Prior -> Row
  {
    (p: Prior) => WithPrior(y, p)
  }

  function RowsOf(priors: seq<Prior>): Row -> seq<Row>
  {
    (y: Row) => RowsWithPriors(y, priors)
  }

  /** Join of the scored rows with the provenance entries, keeping every
      scored row. */
  function AttachPriors(merged: seq<Row>, priors: seq<Prior>): seq<Row>
  {
    FlatMap(merged, RowsOf(priors))
  }

  /** The provenance points to a later list than the row's own. */
  predicate Future(x: Row)
  {
    x.priorList.Some? && x.list < x.priorList.value
  }

  /** The row with provenance that points to a later list cleared. */
  function Cleared(x: Row): Row
  {
    if Future(x) then Strip(x) else x
  }

  function ClearFuture(rows: seq<Row>): seq<Row>
  {
    Map(rows, Cleared)
  }

  /** Adds provenance to scored rows: joins the intrusions with the study
      events of the same subject and item, joins that back onto the scored
      rows, and clears the provenance that points to a later list. */
  function AddProvenance(merged: seq<Row>, study: seq<Event>): (r: seq<Row>)
    ensures |r| >= |merged|
    ensures ScoredAgainst(merged, study) ==> Where(r, IsStudy) == Where(merged, IsStudy)
  {
    var intrusions := Where(merged, IsIntrusion);
    AttachLonger(merged, PriorMatches(intrusions, study));
    ProvenanceKeepsStudy(merged, study);
    ClearFuture(AttachPriors(merged, PriorMatches(intrusions, study)))
  }

  /** Scores a raw event table: merges its study and recall events, then
      records for each intrusion the lists in which the subject studied the
      item. */
  function MergeFreeRecall(data: seq<Event>): (r: seq<Row>)
    ensures |r| >= |MergeLists(StudyEvents(data), RecallEvents(data))|
    ensures Where(r, IsStudy) == Where(MergeLists(StudyEvents(data), RecallEvents(data)), IsStudy)
  {
    var study := StudyEvents(data);
    MergeScored(study, RecallEvents(data));
    AddProvenance(MergeLists(study, RecallEvents(data)), study)
  }

  /** What the provenance step relies on from the list merge: no row has
      provenance yet, and a row is an intrusion exactly when no study event
      has its subject, list and item. */
  predicate ScoredAgainst(merged: seq<Row>, study: seq<Event>)
  {
    forall y :: y in merged ==>
      && y.priorList.None? && y.priorInput.None?
      && (y.intrusion <==> !StudiedKey(study, RowKey(y)))
      && (y.intrusion ==> !y.study)
  }

  lemma MergeScored(study: seq<Event>, recall: seq<Event>)
    ensures ScoredAgainst(MergeLists(study, recall), study)
  {
    MergeFlags(study, recall);
    MergeKeepsStudy(study, recall);
  }

  lemma PriorMembers(intrusions: seq<Row>, study: seq<Event>, p: Prior)
    ensures p in PriorMatches(intrusions, study) <==>
      exists x, s :: x in intrusions && s in study && SameItem(x, s) && p == PriorFor(x, s)
  {
    FlatMapMembers(intrusions, PriorsWith(study), p);
    forall x | x in intrusions
      ensures p in PriorsWith(study)(x) <==> exists s :: s in study && SameItem(x, s) && p == PriorFor(x, s)
    {
      MapMembers(Where(study, SameItemAs(x)), PriorOf(x), p);
    }
  }

  lemma RowsWithPriorsMembers(y: Row, priors: seq<Prior>, z: Row)
    ensures z in RowsWithPriors(y, priors) <==>
      (z == y && forall p :: p in priors ==> !Joins(p, y)) ||
      (exists p :: p in priors && Joins(p, y) && z == WithPrior(y, p))
  {
    var ps := Where(priors, JoinsRow(y));
    if ps != [] {
      assert ps[0] in ps;
    }
    MapMembers(ps, AttachTo(y), z);
  }

  lemma AttachMembers(merged: seq<Row>, priors: seq<Prior>, z: Row)
    ensures z in AttachPriors(merged, priors) <==> exists y :: y in merged && z in RowsWithPriors(y, priors)
  {
    FlatMapMembers(merged, RowsOf(priors), z);
  }

  lemma ClearMembers(rows: seq<Row>, x: Row)
    ensures x in ClearFuture(rows) <==> exists z :: z in rows && x == (if Future(z) then Strip(z) else z)
  {
    MapMembers(rows, Cleared, x);
  }

  /** Every provenance entry comes from an intrusion row of the scored
      table, so joining with it adds no row that the scored table lacks:
      the outer join is the left join. */
  lemma PriorsJoinMerged(merged: seq<Row>, study: seq<Event>, p: Prior)
    requires p in PriorMatches(Where(merged, IsIntrusion), study)
    ensures exists y :: y in merged && y.intrusion && Joins(p, y)
  {
    var intrusions := Where(merged, IsIntrusion);
    PriorMembers(intrusions, study, p);
    var x, s :| x in intrusions && s in study && SameItem(x, s) && p == PriorFor(x, s);
    assert Joins(p, x);
  }

  /** What a row of the provenance join is made of. */
  lemma AttachedShape(merged: seq<Row>, study: seq<Event>, y: Row, z: Row)
    requires ScoredAgainst(merged, study) && y in merged
    requires z in RowsWithPriors(y, PriorMatches(Where(merged, IsIntrusion), study))
    ensures Strip(z) == y
    ensures z.priorList.Some? <==> z.priorInput.Some?
    ensures z.priorList.Some? ==>
      && z.intrusion
      && z.priorList.value != z.list
      && exists s :: s in study && SameItem(z, s) && z.priorList == Some(s.list) && z.priorInput == Some(s.position)
  {
    var intrusions := Where(merged, IsIntrusion);
    var priors := PriorMatches(intrusions, study);
    RowsWithPriorsMembers(y, priors, z);
    if z != y {
      var p :| p in priors && Joins(p, y) && z == WithPrior(y, p);
      PriorMembers(intrusions, study, p);
      var w, s :| w in intrusions && s in study && SameItem(w, s) && p == PriorFor(w, s);
      assert RowKey(w) == RowKey(y);
      assert y.intrusion;
      assert !StudiedKey(study, RowKey(y));
      assert KeyOf(s) != RowKey(y);
    }
  }

  lemma ProvenanceSound(merged: seq<Row>, study: seq<Event>, x: Row)
    requires ScoredAgainst(merged, study) && x in AddProvenance(merged, study)
    ensures Strip(x) in merged
    ensures x.priorList.Some? <==> x.priorInput.Some?
    ensures x.priorList.Some? ==>
      && x.intrusion
      && x.priorList.value < x.list
      && exists s :: s in study && SameItem(x, s) && x.priorList == Some(s.list) && x.priorInput == Some(s.position)
  {
    var priors := PriorMatches(Where(merged, IsIntrusion), study);
    var attached := AttachPriors(merged, priors);
    ClearMembers(attached, x);
    var z :| z in attached && x == (if Future(z) then Strip(z) else z);
    AttachMembers(merged, priors, z);
    var y :| y in merged && z in RowsWithPriors(y, priors);
    AttachedShape(merged, study, y, z);
  }

  /** Provenance is attached only to intrusions, in both fields together,
      and names an earlier list in which the subject studied the item, and
      the serial position it had there; without the provenance, every row
      is a row of the list merge. */
  lemma FreeRecallSound(data: seq<Event>, x: Row)
    requires x in MergeFreeRecall(data)
    ensures Strip(x) in MergeLists(StudyEvents(data), RecallEvents(data))
    ensures x.priorList.Some? <==> x.priorInput.Some?
    ensures x.priorList.Some? ==>
      && x.intrusion
      && x.priorList.value < x.list
      && exists s :: s in StudyEvents(data) && SameItem(x, s) &&
                     x.priorList == Some(s.list) && x.priorInput == Some(s.position)
  {
    var study := StudyEvents(data);
    MergeScored(study, RecallEvents(data));
    ProvenanceSound(MergeLists(study, RecallEvents(data)), study, x);
  }

  lemma ProvenanceKeepsRows(merged: seq<Row>, study: seq<Event>, y: Row)
    requires ScoredAgainst(merged, study) && y in merged
    ensures exists x :: x in AddProvenance(merged, study) && Strip(x) == y
  {
    var priors := PriorMatches(Where(merged, IsIntrusion), study);
    var attached := AttachPriors(merged, priors);
    var rs := RowsWithPriors(y, priors);
    assert rs[0] in rs;
    var z := rs[0];
    AttachedShape(merged, study, y, z);
    AttachMembers(merged, priors, z);
    var x := if Future(z) then Strip(z) else z;
    ClearMembers(attached, x);
    assert Strip(x) == y;
  }

  /** Every scored row of the list merge survives, possibly with provenance. */
  lemma FreeRecallKeepsRows(data: seq<Event>, y: Row)
    requires y in MergeLists(StudyEvents(data), RecallEvents(data))
    ensures exists x :: x in MergeFreeRecall(data) && Strip(x) == y
  {
    var study := StudyEvents(data);
    MergeScored(study, RecallEvents(data));
    ProvenanceKeepsRows(MergeLists(study, RecallEvents(data)), study, y);
  }

  /** The row of intrusion `m` joined with study event `s`, after clearing. */
  lemma ProvenanceJoined(merged: seq<Row>, study: seq<Event>, m: Row, s: Event)
    requires m in merged && m.intrusion && s in study && SameItem(m, s)
    ensures (var z := WithPrior(m, PriorFor(m, s));
             (if Future(z) then Strip(z) else z) in AddProvenance(merged, study))
  {
    var intrusions := Where(merged, IsIntrusion);
    var priors := PriorMatches(intrusions, study);
    var attached := AttachPriors(merged, priors);
    var p := PriorFor(m, s);
    var z := WithPrior(m, p);
    assert m in intrusions;
    PriorMembers(intrusions, study, p);
    assert p in priors;
    assert Joins(p, m);
    RowsWithPriorsMembers(m, priors, z);
    assert z in RowsWithPriors(m, priors);
    AttachMembers(merged, priors, z);
    assert z in attached;
    ClearMembers(attached, if Future(z) then Strip(z) else z);
  }

  /** An intrusion whose item the subject studied in an earlier list gets a
      row naming that list and the item's serial position there, once per
      such study event. */
  lemma FreeRecallComplete(data: seq<Event>, m: Row, s: Event)
    requires m in MergeLists(StudyEvents(data), RecallEvents(data)) && m.intrusion
    requires s in StudyEvents(data) && SameItem(m, s) && s.list < m.list
    ensures WithPrior(m, PriorFor(m, s)) in MergeFreeRecall(data)
  {
    var study := StudyEvents(data);
    ProvenanceJoined(MergeLists(study, RecallEvents(data)), study, m, s);
  }

  /** A study event of the item in a later list is a coincidence, not a
      source: the intrusion row it joins keeps no provenance. */
  lemma FreeRecallClearsFuture(data: seq<Event>, m: Row, s: Event)
    requires m in MergeLists(StudyEvents(data), RecallEvents(data)) && m.intrusion
    requires s in StudyEvents(data) && SameItem(m, s) && m.list < s.list
    ensures m in MergeFreeRecall(data)
  {
    var study := StudyEvents(data);
    var merged := MergeLists(study, RecallEvents(data));
    MergeScored(study, RecallEvents(data));
    ProvenanceJoined(merged, study, m, s);
    assert Strip(WithPrior(m, PriorFor(m, s))) == m;
  }

  // ---------------------------------------------------------------------
  // The rows of the provenance join, counted
  // ---------------------------------------------------------------------

  /** Every scored row gives at least one row. */
  lemma AttachLonger(merged: seq<Row>, priors: seq<Prior>)
    ensures |ClearFuture(AttachPriors(merged, priors))| >= |merged|
  {
    forall y | y in merged ensures |RowsOf(priors)(y)| >= 1 {
      var ps := Where(priors, JoinsRow(y));
    }
    FlatMapLonger(merged, RowsOf(priors));
  }

  /** A scored row that is no intrusion joins no provenance entry. */
  lemma NoPriorsForStudied(merged: seq<Row>, study: seq<Event>, y: Row)
    requires ScoredAgainst(merged, study) && y in merged && !y.intrusion
    ensures RowsWithPriors(y, PriorMatches(Where(merged, IsIntrusion), study)) == [y]
  {
    var priors := PriorMatches(Where(merged, IsIntrusion), study);
    forall p | p in priors ensures !Joins(p, y) {
      PriorsJoinMerged(merged, study, p);
    }
    WhereNone(priors, JoinsRow(y));
  }

  /** The study rows pass through the provenance join as they are, in
      order. */
  lemma ProvenanceKeepsStudy(merged: seq<Row>, study: seq<Event>)
    ensures ScoredAgainst(merged, study) ==>
            Where(ClearFuture(AttachPriors(merged, PriorMatches(Where(merged, IsIntrusion), study))), IsStudy)
            == Where(merged, IsStudy)
  {
    if !ScoredAgainst(merged, study) {
      return;
    }
    var priors := PriorMatches(Where(merged, IsIntrusion), study);
    var attached := AttachPriors(merged, priors);
    forall x | x in merged && IsStudy(x) ensures RowsOf(priors)(x) == [x] {
      NoPriorsForStudied(merged, study, x);
    }
    forall x, z | x in merged && !IsStudy(x) && z in RowsOf(priors)(x) ensures !IsStudy(z) {
      RowsWithPriorsMembers(x, priors, z);
    }
    WhereFlatMapKeeps(merged, RowsOf(priors), IsStudy);
    WhereMap(attached, Cleared, IsStudy, IsStudy);
    MapFixed(Where(merged, IsStudy), Cleared);
  }

  /** Row `x` is `y`, with or without provenance. */
  function StripsTo(y: Row): Row -> bool
  {
    (x: Row) => Strip(x) == y
  }

  /** Same subject, list, item and output position as `y`: the columns on
      which the provenance entries are joined back. */
  function SameJoinAs(y: Row): Row -> bool
  {
    (x: Row) => x.subject == y.subject && x.list == y.list && x.item == y.item && x.output == y.output
  }

  /** An intrusion finds one provenance entry per study event of its item. */
  lemma PriorsOfCount(x: Row, study: seq<Event>)
    ensures |PriorsOf(x, study)| == CountWhere(study, SameItemAs(x))
  {
    WhereLength(study, SameItemAs(x));
  }

  /** The entries joined to row `y` are those of the intrusions that share
      its join columns, each with every study event of the item. */
  lemma PriorMatchesCount(intrusions: seq<Row>, study: seq<Event>, y: Row)
    ensures |Where(PriorMatches(intrusions, study), JoinsRow(y))| ==
            CountWhere(intrusions, SameJoinAs(y)) * CountWhere(study, SameItemAs(y))
  {
    var k := CountWhere(study, SameItemAs(y));
    forall x, p | x in intrusions && p in PriorsWith(study)(x) ensures JoinsRow(y)(p) <==> SameJoinAs(y)(x) {
      MapMembers(Where(study, SameItemAs(x)), PriorOf(x), p);
    }
    forall x | x in intrusions && SameJoinAs(y)(x) ensures |PriorsWith(study)(x)| == k {
      PriorsOfCount(x, study);
      CountWhereSame(study, SameItemAs(x), SameItemAs(y));
    }
    FlatMapWhereCount(intrusions, PriorsWith(study), JoinsRow(y), SameJoinAs(y), k);
  }

  lemma ScaleCount(count: nat, copies: nat, joined: nat, sharing: nat, studied: nat)
    requires count == copies * AtLeastOne(joined) && joined == sharing * studied
    ensures count == copies * AtLeastOne(sharing * studied)
    ensures sharing == 0 ==> count == copies
  {
  }

  lemma StripCleared(x: Row)
    ensures Strip(Cleared(x)) == Strip(x)
  {
    if Future(x) {
      assert Cleared(x) == Strip(x);
    }
  }

  /** Clearing provenance keeps what a row was before the join. */
  lemma ClearCount(rows: seq<Row>, y: Row)
    ensures CountWhere(ClearFuture(rows), StripsTo(y)) == |Where(rows, StripsTo(y))|
  {
    forall x ensures StripsTo(y)(x) == StripsTo(y)(Cleared(x)) {
      StripCleared(x);
    }
    WhereMap(rows, Cleared, StripsTo(y), StripsTo(y));
    WhereLength(ClearFuture(rows), StripsTo(y));
  }

  /** The rows of the provenance join that come from scored row `y`. */
  lemma AttachCount(merged: seq<Row>, study: seq<Event>, y: Row)
    requires ScoredAgainst(merged, study)
    ensures var priors := PriorMatches(Where(merged, IsIntrusion), study);
            |Where(AttachPriors(merged, priors), StripsTo(y))| ==
            multiset(merged)[y] * AtLeastOne(|Where(priors, JoinsRow(y))|)
  {
    var priors := PriorMatches(Where(merged, IsIntrusion), study);
    forall x, z | x in merged && z in RowsOf(priors)(x) ensures Strip(z) == x {
      AttachedShape(merged, study, x, z);
    }
    FlatMapCount(merged, RowsOf(priors), Strip, y, StripsTo(y));
    RowsWithPriorsLength(y, priors);
  }

  lemma RowsWithPriorsLength(y: Row, priors: seq<Prior>)
    ensures |RowsOf(priors)(y)| == AtLeastOne(|Where(priors, JoinsRow(y))|)
  {
    assert RowsOf(priors)(y) == RowsWithPriors(y, priors);
  }

  /** Counted by what they were before the provenance join, the rows of a
      scored row `y` number one per intrusion with its join columns and
      study event of its item, and one when there is none; a row that is
      no intrusion comes back as often as it was there. */
  lemma ProvenanceCount(merged: seq<Row>, study: seq<Event>, y: Row)
    requires ScoredAgainst(merged, study) && y in merged
    ensures CountWhere(AddProvenance(merged, study), StripsTo(y)) ==
            multiset(merged)[y] *
            AtLeastOne(CountWhere(Where(merged, IsIntrusion), SameJoinAs(y)) * CountWhere(study, SameItemAs(y)))
    ensures !y.intrusion ==> CountWhere(AddProvenance(merged, study), StripsTo(y)) == multiset(merged)[y]
  {
    var intrusions := Where(merged, IsIntrusion);
    var priors := PriorMatches(intrusions, study);
    var joined, sharing, studied := |Where(priors, JoinsRow(y))|, CountWhere(intrusions, SameJoinAs(y)), CountWhere(study, SameItemAs(y));
    var count := CountWhere(AddProvenance(merged, study), StripsTo(y));
    assert count == multiset(merged)[y] * AtLeastOne(joined) by {
      assert AddProvenance(merged, study) == ClearFuture(AttachPriors(merged, priors));
      ClearCount(AttachPriors(merged, priors), y);
      AttachCount(merged, study, y);
    }
    assert joined == sharing * studied by {
      PriorMatchesCount(intrusions, study, y);
    }
    assert !y.intrusion ==> sharing == 0 by {
      if !y.intrusion {
        forall x | x in intrusions ensures !SameJoinAs(y)(x) {
          assert RowKey(x) != RowKey(y);
        }
      }
    }
    ScaleCount(count, multiset(merged)[y], joined, sharing, studied);
  }

  /** Each row of the list merge comes back once per intrusion row sharing
      its join columns and study event of the subject with its item, and
      once when there is none: study rows and correct recalls exactly as
      often as they were merged. */
  lemma FreeRecallCount(data: seq<Event>, y: Row)
    requires y in MergeLists(StudyEvents(data), RecallEvents(data))
    ensures var merged := MergeLists(StudyEvents(data), RecallEvents(data));
            CountWhere(MergeFreeRecall(data), StripsTo(y)) ==
            multiset(merged)[y] *
            AtLeastOne(CountWhere(Where(merged, IsIntrusion), SameJoinAs(y)) * CountWhere(StudyEvents(data), SameItemAs(y)))
    ensures !y.intrusion ==>
            CountWhere(MergeFreeRecall(data), StripsTo(y)) == multiset(MergeLists(StudyEvents(data), RecallEvents(data)))[y]
  {
    var study := StudyEvents(data);
    MergeScored(study, RecallEvents(data));
    ProvenanceCount(MergeLists(study, RecallEvents(data)), study, y);
  }
}

=== FILE: selection.dfy ===
/** Row selection (filter_data with _match_values) and validation of raw
    event tables (check_data). */
module Selection {
  import opened Common
  import opened Seqs
  import opened Frames

  // ---------------------------------------------------------------------
  // _match_values
  // ---------------------------------------------------------------------

  /** A filter argument: one value (a number or a string) or several. */
  datatype Selector = One(v: Value) | Many(vs: seq<Value>)

  /** Whether a cell is among the selected values; a single value stands
      for a one-element list. A missing cell matches a missing value. */
  function MatchValues(cell: Value, sel: Selector): (b: bool)
    ensures b <==> (sel.One? && cell == sel.v) || (sel.Many? && cell in sel.vs)
  {
    var values := match sel case One(v) => [v] case Many(vs) => vs;
    cell in values
  }

  // ---------------------------------------------------------------------
  // filter_data
  // ---------------------------------------------------------------------

  /** The optional filters; an absent one imposes nothing. */
  datatype Filter = Filter(
    subjects: Option<Selector>,
    lists: Option<Selector>,
    trialType: Option<string>,
    positions: Option<Selector>,
    inputs: Option<Selector>,
    outputs: Option<Selector>)

  const NoFilter := Filter(None, None, None, None, None, None)

  /** The columns the filter reads, in the order it reads them. */
  function Requested(flt: Filter): (r: seq<string>)
    ensures |r| > 0 && r[0] == "subject"
  {
    ["subject"]
    + (if flt.lists.Some? then ["list"] else [])
    + (if flt.trialType.Some? then ["trial_type"] else [])
    + (if flt.positions.Some? then ["position"] else [])
    + (if flt.inputs.Some? then ["input"] else [])
    + (if flt.outputs.Some? then ["output"] else [])
  }

  /** The first of `names` that is not among `columns`. */
  function FirstMissing(names: seq<string>, columns: seq<string>): (r: Option<string>)
    ensures r.None? <==> forall n :: n in names ==> n in columns
    ensures r.Some? ==> r.value in names && r.value !in columns
    ensures r.Some? ==> exists i :: 0 <= i < |names| && names[i] == r.value &&
                                    forall j :: 0 <= j < i ==> names[j] in columns
  {
    if names == [] then None
    else if names[0] !in columns then Some(names[0])
    else
      var r := FirstMissing(names[1..], columns);
      assert names == [names[0]] + names[1..];
      if r.Some? then
        var i :| 0 <= i < |names[1..]| && names[1..][i] == r.value &&
                 forall j :: 0 <= j < i ==> names[1..][j] in columns;
        assert names[i + 1] == r.value;
        assert forall j :: 0 < j < i + 1 ==> names[j] == names[1..][j - 1];
        r
      else r
  }

  /** The name reported is the first one that is missing. */
  lemma {:induction false} FirstMissingAt(names: seq<string>, columns: seq<string>, i: nat)
    requires i < |names| && names[i] !in columns
    requires forall j :: 0 <= j < i ==> names[j] in columns
    ensures FirstMissing(names, columns) == Some(names[i])
  {
    if i > 0 {
      assert names[0] in columns;
      FirstMissingAt(names[1..], columns, i - 1);
    }
  }

  /** A filter on an optional selector. */
  predicate Admit(cell: Value, sel: Option<Selector>)
  {
    sel.None? || MatchValues(cell, sel.value)
  }

  /** Row `i` has a subject and satisfies every supplied filter. */
  predicate Admits(f: Frame, i: nat, flt: Filter)
    requires i < f.Length()
  {
    && f.Cell(i, "subject") != Missing
    && Admit(f.Cell(i, "subject"), flt.subjects)
    && Admit(f.Cell(i, "list"), flt.lists)
    && (flt.trialType.None? || f.Cell(i, "trial_type") == Text(flt.trialType.value))
    && Admit(f.Cell(i, "position"), flt.positions)
    && Admit(f.Cell(i, "input"), flt.inputs)
    && Admit(f.Cell(i, "output"), flt.outputs)
  }

  /** The row mask of the filter. */
  function Mask(f: Frame, flt: Filter): (m: seq<bool>)
    ensures |m| == f.Length()
  {
    seq(f.Length(), i requires 0 <= i < f.Length() => Admits(f, i, flt))
  }

  /** The indices of the rows the mask keeps, in increasing order. */
  function Kept(mask: seq<bool>): (r: seq<nat>)
    ensures forall k :: 0 <= k < |r| ==> r[k] < |mask| && mask[r[k]]
    ensures forall i :: 0 <= i < |mask| && mask[i] ==> i in r
    ensures forall k, l :: 0 <= k < l < |r| ==> r[k] < r[l]
    decreases |mask|
  {
    if mask == [] then []
    else
      var init := Kept(mask[..|mask| - 1]);
      if mask[|mask| - 1] then init + [|mask| - 1] else init
  }

  /** The rows at the given indices, in that order. */
  function Take(f: Frame, idx: seq<nat>): (g: Frame)
    requires forall k :: 0 <= k < |idx| ==> idx[k] < f.Length()
    ensures g.Length() == |idx| && g.Columns() == f.Columns()
    ensures forall k, name :: 0 <= k < |idx| ==> g.Cell(k, name) == f.Cell(idx[k], name)
  {
    match f
    case Raw(es) =>
      assert |es| == f.Length();
      Raw(seq(|idx|, k requires 0 <= k < |idx| => es[idx[k]]))
    case Scored(rs, prov) =>
      assert |rs| == f.Length();
      Scored(seq(|idx|, k requires 0 <= k < |idx| => rs[idx[k]]), prov)
  }

  /** Table `g` consists of the rows `idx` of table `f` (its index labels,
      increasing), which are exactly the rows of `f` that the filter admits,
      with the same columns and cells. */
  ghost predicate SelectsRows(f: Frame, g: Frame, idx: seq<nat>, flt: Filter)
  {
    && g.Columns() == f.Columns()
    && g.Length() == |idx|
    && (forall k, l :: 0 <= k < l < |idx| ==> idx[k] < idx[l])
    && (forall k :: 0 <= k < |idx| ==> idx[k] < f.Length() && Admits(f, idx[k], flt))
    && (forall i :: 0 <= i < f.Length() && Admits(f, i, flt) ==> i in idx)
    && (forall k, name :: 0 <= k < |idx| && idx[k] < f.Length() ==> g.Cell(k, name) == f.Cell(idx[k], name))
  }

  /** Selects the rows that have a subject and satisfy every supplied
      filter, keeping their order; a filter on a column the table lacks
      fails with that column (the first one the filter reads). */
  function FilterData(f: Frame, flt: Filter): (r: Result<Frame>)
    ensures r.Err? <==> exists c :: c in Requested(flt) && c !in f.Columns()
    ensures r.Err? ==> r.error == UnknownColumn(FirstMissing(Requested(flt), f.Columns()).value)
    ensures r.Ok? ==> SelectsRows(f, r.value, Kept(Mask(f, flt)), flt)
  {
    var missing := FirstMissing(Requested(flt), f.Columns());
    if missing.Some? then Err(UnknownColumn(missing.value))
    else Ok(Take(f, Kept(Mask(f, flt))))
  }

  /** A selector with each single value replaced by its one-element list. */
  function AsList(sel: Option<Selector>): Option<Selector>
  {
    match sel
    case Some(One(v)) => Some(Many([v]))
    case _ => sel
  }

  /** The filter with every single-value selector written as a list. */
  function AsLists(flt: Filter): Filter
  {
    flt.(subjects := AsList(flt.subjects), lists := AsList(flt.lists),
         positions := AsList(flt.positions), inputs := AsList(flt.inputs),
         outputs := AsList(flt.outputs))
  }

  /** A single value selects exactly the rows the one-element list of it
      selects: filtering with either gives the same result, error or table. */
  lemma FilterOneIsList(f: Frame, flt: Filter)
    ensures FilterData(f, AsLists(flt)) == FilterData(f, flt)
  {
    assert Requested(AsLists(flt)) == Requested(flt);
    forall i | 0 <= i < f.Length()
      ensures Admits(f, i, AsLists(flt)) == Admits(f, i, flt)
    {
      AdmitAsList(f.Cell(i, "subject"), flt.subjects);
      AdmitAsList(f.Cell(i, "list"), flt.lists);
      AdmitAsList(f.Cell(i, "position"), flt.positions);
      AdmitAsList(f.Cell(i, "input"), flt.inputs);
      AdmitAsList(f.Cell(i, "output"), flt.outputs);
    }
    assert Mask(f, AsLists(flt)) == Mask(f, flt);
  }

  lemma AdmitAsList(cell: Value, sel: Option<Selector>)
    ensures Admit(cell, AsList(sel)) == Admit(cell, sel)
  {
  }

  /** Keeping every row is the identity. */
  lemma {:induction false} KeptAll(mask: seq<bool>)
    requires forall i :: 0 <= i < |mask| ==> mask[i]
    ensures Kept(mask) == seq(|mask|, i => i)
    decreases |mask|
  {
    if mask != [] {
      var n := |mask| - 1;
      KeptAll(mask[..n]);
      assert Kept(mask) == Kept(mask[..n]) + [n];
      assert seq(n + 1, i => i) == seq(n, i => i) + [n];
    }
  }

  lemma TakeAll(f: Frame)
    ensures Take(f, seq(f.Length(), i => i)) == f
  {
  }

  /** A table whose every row the filter admits passes through unchanged. */
  lemma FilterKeepsAdmitted(f: Frame, flt: Filter)
    requires forall c :: c in Requested(flt) ==> c in f.Columns()
    requires forall i :: 0 <= i < f.Length() ==> Admits(f, i, flt)
    ensures FilterData(f, flt) == Ok(f)
  {
    KeptAll(Mask(f, flt));
    TakeAll(f);
  }

  /** Filtering twice with the same filter is filtering once. */
  lemma FilterIdempotent(f: Frame, flt: Filter)
    requires FilterData(f, flt).Ok?
    ensures FilterData(FilterData(f, flt).value, flt) == FilterData(f, flt)
  {
    var g := FilterData(f, flt).value;
    var idx := Kept(Mask(f, flt));
    forall k | 0 <= k < g.Length() ensures Admits(g, k, flt) {
      assert Admits(f, idx[k], flt);
    }
    FilterKeepsAdmitted(g, flt);
  }

  /** Without filters every row is kept. */
  lemma FilterNothing(f: Frame)
    ensures FilterData(f, NoFilter) == Ok(f)
  {
    FilterKeepsAdmitted(f, NoFilter);
  }

  // ---------------------------------------------------------------------
  // check_data
  // ---------------------------------------------------------------------

  /** The columns a raw event table must have, in the order they are checked. */
  const RequiredColumns: seq<string> := ["subject", "list", "trial_type", "position", "item"]

  /** Validates a table given its column names and its trial types: the
      first required column that is missing is reported; otherwise every
      trial type must be "study" or "recall". */
  function CheckData(columns: seq<string>, trialTypes: seq<Value>): (o: Outcome)
    ensures o == Pass <==>
      (forall c :: c in RequiredColumns ==> c in columns) &&
      (forall t :: t in trialTypes ==> t == Text("study") || t == Text("recall"))
    ensures o.Fail? && o.error.MissingColumn? ==>
      o.error.name !in columns &&
      exists i :: 0 <= i < |RequiredColumns| && RequiredColumns[i] == o.error.name &&
                  forall j :: 0 <= j < i ==> RequiredColumns[j] in columns
    ensures o.Fail? ==> o.error.MissingColumn? || o.error == InvalidTrialType
  {
    var missing := FirstMissing(RequiredColumns, columns);
    if missing.Some? then Fail(MissingColumn(missing.value))
    else if forall t :: t in trialTypes ==> t == Text("study") || t == Text("recall") then Pass
    else Fail(InvalidTrialType)
  }

  /** The trial-type column of a raw table. */
  function TrialTypes(es: seq<Event>): (r: seq<Value>)
    ensures |r| == |es|
  {
    seq(|es|, i requires 0 <= i < |es| => Text(es[i].trialType))
  }

  /** A raw event table passes exactly when all its trial types are valid. */
  lemma CheckRaw(es: seq<Event>)
    ensures CheckData(Raw(es).Columns(), TrialTypes(es)) == Pass <==>
      forall e :: e in es ==> e.trialType == "study" || e.trialType == "recall"
  {
    if forall t :: t in TrialTypes(es) ==> t == Text("study") || t == Text("recall") {
      forall e | e in es ensures e.trialType == "study" || e.trialType == "recall" {
        var i :| 0 <= i < |es| && es[i] == e;
        assert TrialTypes(es)[i] in TrialTypes(es);
      }
    }
  }

  /** A scored table is not a raw event table: it has no trial types. */
  lemma CheckScored(rs: seq<Row>, prov: bool, trialTypes: seq<Value>)
    ensures CheckData(Scored(rs, prov).Columns(), trialTypes) == Fail(MissingColumn("trial_type"))
  {
    var columns := Scored(rs, prov).Columns();
    assert columns[0] == RequiredColumns[0] && columns[1] == RequiredColumns[1];
    assert RequiredColumns[2] !in columns;
    FirstMissingAt(RequiredColumns, columns, 2);
  }
}

=== FILE: seqs.dfy ===
/** Sequence operations the table code is built from: selecting rows by a
    predicate, the distinct values of a column in order of first appearance,
    and a stable sort by a lexicographic integer key. */
module Seqs {

  /** The elements of `s` that satisfy `p`, in their original order
      (a boolean-mask row selection). */
  function Where<T(!new)>(s: seq<T>, p: T -> bool): (r: seq<T>)
    ensures |r| <= |s|
    ensures forall x :: x in r <==> x in s && p(x)
    ensures multiset(r) <= multiset(s)
  {
    if s == [] then []
    else
      assert s == [s[0]] + s[1..];
      (if p(s[0]) then [s[0]] else []) + Where(s[1..], p)
  }

  /** Selection distributes over concatenation: it keeps the original order. */
  lemma {:induction false} WhereAppend<T(!new)>(s: seq<T>, t: seq<T>, p: T -> bool)
    ensures Where(s + t, p) == Where(s, p) + Where(t, p)
  {
    if s == [] {
      assert s + t == t;
    } else {
      assert (s + t)[0] == s[0];
      assert (s + t)[1..] == s[1..] + t;
      WhereAppend(s[1..], t, p);
    }
  }

  /** Selecting twice with the same predicate is selecting once. */
  lemma {:induction false} WhereIdempotent<T(!new)>(s: seq<T>, p: T -> bool)
    ensures Where(Where(s, p), p) == Where(s, p)
  {
    if s != [] {
      WhereIdempotent(s[1..], p);
      var head := if p(s[0]) then [s[0]] else [];
      WhereAppend(head, Where(s[1..], p), p);
    }
  }

  /** `r` is `s` with some elements left out, the rest in their order. */
  predicate Subsequence<T(==)>(r: seq<T>, s: seq<T>)
    decreases |s|
  {
    if r == [] then true
    else if s == [] then false
    else (r[0] == s[0] && Subsequence(r[1..], s[1..])) || Subsequence(r, s[1..])
  }

  /** Selection keeps the original order of what it keeps. */
  lemma {:induction false} WhereSubsequence<T(!new)>(s: seq<T>, p: T -> bool)
    ensures Subsequence(Where(s, p), s)
  {
    if s != [] {
      WhereSubsequence(s[1..], p);
      var r := Where(s, p);
      if p(s[0]) {
        assert r[0] == s[0] && r[1..] == Where(s[1..], p);
      } else {
        assert r == Where(s[1..], p);
      }
    }
  }

  /** Selection keeps every copy of a selected element and no copy of
      another. */
  lemma {:induction false} WhereCount<T(!new)>(s: seq<T>, p: T -> bool, x: T)
    ensures multiset(Where(s, p))[x] == if p(x) then multiset(s)[x] else 0
  {
    if s != [] {
      WhereCount(s[1..], p, x);
      assert s == [s[0]] + s[1..];
      var head := if p(s[0]) then [s[0]] else [];
      assert multiset(Where(s, p)) == multiset(head) + multiset(Where(s[1..], p));
    }
  }

  /** A predicate that holds everywhere selects everything. */
  lemma {:induction false} WhereAll<T(!new)>(s: seq<T>, p: T -> bool)
    requires forall x :: x in s ==> p(x)
    ensures Where(s, p) == s
  {
    if s != [] {
      WhereAll(s[1..], p);
    }
  }

  /** A predicate that holds nowhere selects nothing. */
  lemma {:induction false} WhereNone<T(!new)>(s: seq<T>, p: T -> bool)
    requires forall x :: x in s ==> !p(x)
    ensures Where(s, p) == []
  {
    if s != [] {
      WhereNone(s[1..], p);
    }
  }

  /** Selection depends only on the predicate's values on the elements. */
  lemma {:induction false} WhereSame<T(!new)>(s: seq<T>, p: T -> bool, q: T -> bool)
    requires forall x :: x in s ==> p(x) == q(x)
    ensures Where(s, p) == Where(s, q)
  {
    if s != [] {
      assert forall x :: x in s[1..] ==> x in s;
      WhereSame(s[1..], p, q);
    }
  }

  /** Selecting by `p` and then by `q` is selecting by both at once. */
  lemma {:induction false} WhereWhere<T(!new)>(s: seq<T>, p: T -> bool, q: T -> bool, both: T -> bool)
    requires forall x :: both(x) == (p(x) && q(x))
    ensures Where(Where(s, p), q) == Where(s, both)
  {
    if s != [] {
      WhereWhere(s[1..], p, q, both);
      var head := if p(s[0]) then [s[0]] else [];
      WhereAppend(head, Where(s[1..], p), q);
    }
  }

  /** A weaker predicate selects at least as many elements. */
  lemma {:induction false} WhereWeaker<T(!new)>(s: seq<T>, p: T -> bool, q: T -> bool)
    requires forall x :: p(x) ==> q(x)
    ensures |Where(s, p)| <= |Where(s, q)|
  {
    if s != [] {
      WhereWeaker(s[1..], p, q);
    }
  }

  /** When no two positions both satisfy `p`, at most one element is selected. */
  lemma {:induction false} WhereAtMostOne<T(!new)>(s: seq<T>, p: T -> bool)
    requires forall i, j :: 0 <= i < j < |s| && p(s[i]) ==> !p(s[j])
    ensures |Where(s, p)| <= 1
  {
    if s != [] {
      if p(s[0]) {
        forall x | x in s[1..] ensures !p(x) {
          var j :| 0 <= j < |s[1..]| && s[1..][j] == x;
          assert s[j + 1] == x;
        }
        WhereNone(s[1..], p);
      } else {
        forall i, j | 0 <= i < j < |s[1..]| && p(s[1..][i]) ensures !p(s[1..][j]) {
          assert s[1..][i] == s[i + 1] && s[1..][j] == s[j + 1];
        }
        WhereAtMostOne(s[1..], p);
      }
    }
  }

  /** Selection from two arrangements of the same elements selects the same
      elements. */
  lemma WhereMultiset<T(!new)>(s: seq<T>, t: seq<T>, p: T -> bool)
    requires multiset(s) == multiset(t)
    ensures multiset(Where(s, p)) == multiset(Where(t, p))
    ensures |Where(s, p)| == |Where(t, p)|
  {
    forall x ensures multiset(Where(s, p))[x] == multiset(Where(t, p))[x] {
      WhereCount(s, p, x);
      WhereCount(t, p, x);
    }
    assert multiset(Where(s, p)) == multiset(Where(t, p));
    assert |multiset(Where(s, p))| == |Where(s, p)|;
    assert |multiset(Where(t, p))| == |Where(t, p)|;
  }

  /** `f` applied to every element, in order. */
  function Map<T, U>(s: seq<T>, f: T -> U): (r: seq<U>)
    ensures |r| == |s|
    ensures forall i :: 0 <= i < |s| ==> r[i] == f(s[i])
  {
    seq(|s|, i requires 0 <= i < |s| => f(s[i]))
  }

  lemma MapSnoc<T, U>(s: seq<T>, x: T, f: T -> U)
    ensures Map(s + [x], f) == Map(s, f) + [f(x)]
  {
  }

  /** The values of `Map` are the images of the elements. */
  lemma MapMembers<T, U>(s: seq<T>, f: T -> U, u: U)
    ensures u in Map(s, f) <==> exists t :: t in s && u == f(t)
  {
    if exists t :: t in s && u == f(t) {
      var t :| t in s && u == f(t);
      var i :| 0 <= i < |s| && s[i] == t;
      assert Map(s, f)[i] == u;
    }
  }

  lemma MapCons<T, U>(s: seq<T>, f: T -> U)
    requires s != []
    ensures Map(s, f) == [f(s[0])] + Map(s[1..], f)
  {
  }

  /** Mapping by a function that fixes every element changes nothing. */
  lemma MapFixed<T>(s: seq<T>, f: T -> T)
    requires forall x :: x in s ==> f(x) == x
    ensures Map(s, f) == s
  {
    forall i | 0 <= i < |s| ensures Map(s, f)[i] == s[i] {
      assert s[i] in s;
    }
  }

  lemma MapAppend<T, U>(s: seq<T>, t: seq<T>, f: T -> U)
    ensures Map(s + t, f) == Map(s, f) + Map(t, f)
  {
  }

  /** `Map` depends only on the function's values on the elements. */
  lemma MapSame<T, U>(s: seq<T>, f: T -> U, g: T -> U)
    requires forall x :: x in s ==> f(x) == g(x)
    ensures Map(s, f) == Map(s, g)
  {
    forall i | 0 <= i < |s| ensures Map(s, f)[i] == Map(s, g)[i] {
      assert s[i] in s;
    }
  }

  /** Mapping and then selecting is selecting by the composed predicate and
      then mapping. */
  lemma {:induction false} WhereMap<T(!new), U(!new)>(s: seq<T>, f: T -> U, p: U -> bool, q: T -> bool)
    requires forall x :: q(x) == p(f(x))
    ensures Where(Map(s, f), p) == Map(Where(s, q), f)
  {
    if s != [] {
      WhereMap(s[1..], f, p, q);
      MapCons(s, f);
      var head := if q(s[0]) then [s[0]] else [];
      MapAppend(head, Where(s[1..], q), f);
    }
  }

  /** Mapping two arrangements of the same elements gives two arrangements
      of the same images. */
  lemma {:induction false} MapMultiset<T, U>(s: seq<T>, t: seq<T>, f: T -> U)
    requires multiset(s) == multiset(t)
    ensures multiset(Map(s, f)) == multiset(Map(t, f))
    decreases |s|
  {
    if s != [] {
      assert s[0] in multiset(t);
      var i :| 0 <= i < |t| && t[i] == s[0];
      var rest := t[..i] + t[i + 1..];
      assert t == t[..i] + [t[i]] + t[i + 1..];
      assert s == [s[0]] + s[1..];
      calc {
        multiset(s[1..]);
        multiset(s) - multiset{s[0]};
        multiset(t) - multiset{t[i]};
        { assert multiset(t) == multiset(t[..i]) + multiset{t[i]} + multiset(t[i + 1..]); }
        multiset(t[..i]) + multiset(t[i + 1..]);
        multiset(rest);
      }
      MapMultiset(s[1..], rest, f);
      MapAppend(t[..i] + [t[i]], t[i + 1..], f);
      MapAppend(t[..i], [t[i]], f);
      MapAppend(t[..i], t[i + 1..], f);
      MapAppend([s[0]], s[1..], f);
    }
  }

  /** The concatenation of `f` applied to every element, in order. */
  function FlatMap<T, U>(s: seq<T>, f: T -> seq<U>): seq<U>
  {
    if s == [] then [] else f(s[0]) + FlatMap(s[1..], f)
  }

  lemma {:induction false} FlatMapMembers<T, U>(s: seq<T>, f: T -> seq<U>, u: U)
    ensures u in FlatMap(s, f) <==> exists t :: t in s && u in f(t)
  {
    if s != [] {
      FlatMapMembers(s[1..], f, u);
      if exists t :: t in s[1..] && u in f(t) {
        var t :| t in s[1..] && u in f(t);
        assert t in s;
      }
      if exists t :: t in s && u in f(t) {
        var t :| t in s && u in f(t);
        if t != s[0] {
          var i :| 0 <= i < |s| && s[i] == t;
          assert s[1..][i - 1] == t;
        }
      }
    }
  }

  lemma {:induction false} FlatMapAppend<T, U>(s: seq<T>, t: seq<T>, f: T -> seq<U>)
    ensures FlatMap(s + t, f) == FlatMap(s, f) + FlatMap(t, f)
  {
    if s == [] {
      assert s + t == t;
    } else {
      assert (s + t)[0] == s[0] && (s + t)[1..] == s[1..] + t;
      FlatMapAppend(s[1..], t, f);
    }
  }

  /** Expanding every element into pieces that `h` maps back to exactly that
      element, and then applying `h`, gives the original sequence. */
  lemma {:induction false} FlatMapCollapse<T, U>(s: seq<T>, f: T -> seq<U>, h: U -> T)
    requires forall x :: x in s ==> Map(f(x), h) == [x]
    ensures Map(FlatMap(s, f), h) == s
  {
    if s != [] {
      assert s[0] in s;
      assert forall x :: x in s[1..] ==> x in s;
      FlatMapCollapse(s[1..], f, h);
      MapAppend(f(s[0]), FlatMap(s[1..], f), h);
    }
  }

  /** Selection passes through an expansion that keeps each selected element
      as it is and expands the others into unselected pieces. */
  lemma {:induction false} WhereFlatMapKeeps<T(!new)>(s: seq<T>, f: T -> seq<T>, p: T -> bool)
    requires forall x :: x in s && p(x) ==> f(x) == [x]
    requires forall x, y :: x in s && !p(x) && y in f(x) ==> !p(y)
    ensures Where(FlatMap(s, f), p) == Where(s, p)
  {
    if s != [] {
      assert s[0] in s;
      assert forall x :: x in s[1..] ==> x in s;
      WhereFlatMapKeeps(s[1..], f, p);
      WhereAppend(f(s[0]), FlatMap(s[1..], f), p);
      if !p(s[0]) {
        WhereNone(f(s[0]), p);
      }
    }
  }

  /** Expanding every element into at least one piece does not shorten. */
  lemma {:induction false} FlatMapLonger<T, U>(s: seq<T>, f: T -> seq<U>)
    requires forall x :: x in s ==> |f(x)| >= 1
    ensures |FlatMap(s, f)| >= |s|
  {
    if s != [] {
      assert s[0] in s;
      assert forall x :: x in s[1..] ==> x in s;
      FlatMapLonger(s[1..], f);
    }
  }

  /** When every piece remembers, through `h`, the element it was expanded
      from, the pieces of `y` number `|f(y)|` per occurrence of `y`. */
  lemma {:induction false} FlatMapCount<T, U(!new)>(s: seq<T>, f: T -> seq<U>, h: U -> T, y: T, p: U -> bool)
    requires forall x, z :: x in s && z in f(x) ==> h(z) == x
    requires forall z :: p(z) <==> h(z) == y
    ensures |Where(FlatMap(s, f), p)| == multiset(s)[y] * |f(y)|
  {
    if s != [] {
      var x, rest := s[0], s[1..];
      assert |Where(FlatMap(rest, f), p)| == multiset(rest)[y] * |f(y)| by {
        assert forall w :: w in rest ==> w in s;
        FlatMapCount(rest, f, h, y, p);
      }
      FlatMapWhereStep(s, f, p);
      assert |Where(f(x), p)| == if x == y then |f(y)| else 0 by {
        assert x in s;
        PiecesCount(f(x), p, h, x, y);
      }
      MultisetHead(s, y);
      CountStep(|Where(FlatMap(s, f), p)|, |Where(f(x), p)|, |Where(FlatMap(rest, f), p)|,
                multiset(s)[y], multiset(rest)[y], |f(y)|, x == y);
    }
  }

  /** The pieces of a nonempty sequence: those of its head, then the rest. */
  lemma FlatMapWhereStep<T, U(!new)>(s: seq<T>, f: T -> seq<U>, p: U -> bool)
    requires s != []
    ensures |Where(FlatMap(s, f), p)| == |Where(f(s[0]), p)| + |Where(FlatMap(s[1..], f), p)|
  {
    WhereAppend(f(s[0]), FlatMap(s[1..], f), p);
  }

  /** The pieces of `x`, all remembering `x` through `h`, are selected
      exactly when `x` is `y`. */
  lemma PiecesCount<T, U(!new)>(piece: seq<U>, p: U -> bool, h: U -> T, x: T, y: T)
    requires forall z :: z in piece ==> h(z) == x
    requires forall z :: p(z) <==> h(z) == y
    ensures |Where(piece, p)| == if x == y then |piece| else 0
  {
    if x == y {
      WhereAll(piece, p);
    } else {
      WhereNone(piece, p);
    }
  }

  /** The occurrences of `y` in a nonempty sequence: one in its head or not,
      then those in the rest. */
  lemma MultisetHead<T>(s: seq<T>, y: T)
    requires s != []
    ensures multiset(s)[y] == (if s[0] == y then 1 else 0) + multiset(s[1..])[y]
  {
    assert s == [s[0]] + s[1..];
  }

  /** When the pieces of an element are selected exactly when the element
      satisfies `q`, and each such element has `k` pieces, the selected
      pieces number `k` per element satisfying `q`. */
  lemma {:induction false} FlatMapWhereCount<T(!new), U(!new)>(s: seq<T>, f: T -> seq<U>, p: U -> bool, q: T -> bool, k: nat)
    requires forall x, z :: x in s && z in f(x) ==> (p(z) <==> q(x))
    requires forall x :: x in s && q(x) ==> |f(x)| == k
    ensures |Where(FlatMap(s, f), p)| == CountWhere(s, q) * k
  {
    if s != [] {
      var x, rest := s[0], s[1..];
      assert |Where(FlatMap(rest, f), p)| == CountWhere(rest, q) * k by {
        assert forall w :: w in rest ==> w in s;
        FlatMapWhereCount(rest, f, p, q, k);
      }
      FlatMapWhereStep(s, f, p);
      assert |Where(f(x), p)| == if q(x) then k else 0 by {
        assert x in s;
        if q(x) {
          WhereAll(f(x), p);
        } else {
          WhereNone(f(x), p);
        }
      }
      CountStep(|Where(FlatMap(s, f), p)|, |Where(f(x), p)|, |Where(FlatMap(rest, f), p)|,
                CountWhere(s, q), CountWhere(rest, q), k, q(x));
    }
  }

  /** Counting depends only on the predicate's values on the elements. */
  lemma {:induction false} CountWhereSame<T(!new)>(s: seq<T>, p: T -> bool, q: T -> bool)
    requires forall x :: x in s ==> p(x) == q(x)
    ensures CountWhere(s, p) == CountWhere(s, q)
  {
    if s != [] {
      assert forall x :: x in s[1..] ==> x in s;
      CountWhereSame(s[1..], p, q);
    }
  }

  /** The count of one more element: `k` more when it is the counted one. */
  lemma CountStep(total: nat, here: nat, later: nat, count: nat, m: nat, k: nat, same: bool)
    requires total == here + later && later == m * k
    requires same ==> here == k && count == m + 1
    requires !same ==> here == 0 && count == m
    ensures total == count * k
  {
    if same {
      MultiplyStep(m, k);
    }
  }

  lemma MultiplyStep(n: nat, k: nat)
    ensures (n + 1) * k == n * k + k
  {
  }

  /** Number of elements of `s` that satisfy `p`. */
  function CountWhere<T(!new)>(s: seq<T>, p: T -> bool): (n: nat)
    ensures n <= |s|
    ensures n == 0 <==> forall x :: x in s ==> !p(x)
  {
    if s == [] then 0 else (if p(s[0]) then 1 else 0) + CountWhere(s[1..], p)
  }

  /** The selection holds exactly the counted elements. */
  lemma {:induction false} WhereLength<T(!new)>(s: seq<T>, p: T -> bool)
    ensures |Where(s, p)| == CountWhere(s, p)
  {
    if s != [] {
      WhereLength(s[1..], p);
    }
  }

  /** No element occurs twice. */
  predicate Distinct<T(==)>(s: seq<T>)
  {
    forall i, j :: 0 <= i < j < |s| ==> s[i] != s[j]
  }

  /** The distinct elements of `s` in order of first appearance
      (what a column's `unique()` gives). */
  function Unique<T(==,!new)>(s: seq<T>): (r: seq<T>)
    ensures forall x :: x in r <==> x in s
    ensures Distinct(r)
    ensures |r| <= |s|
    decreases |s|
  {
    if s == [] then []
    else
      var init := s[..|s| - 1];
      assert s == init + [s[|s| - 1]];
      var u := Unique(init);
      if s[|s| - 1] in u then u else u + [s[|s| - 1]]
  }

  /** The first index of `x` in `s`. */
  function IndexOf<T(==)>(s: seq<T>, x: T): (i: nat)
    requires x in s
    ensures i < |s| && s[i] == x && x !in s[..i]
  {
    if s[0] == x then 0
    else
      assert s == [s[0]] + s[1..];
      1 + IndexOf(s[1..], x)
  }

  /** In a sequence without duplicates the index of an element is its only one. */
  lemma DistinctIndex<T>(s: seq<T>, i: nat)
    requires Distinct(s) && i < |s|
    ensures IndexOf(s, s[i]) == i
  {
  }

  /** Unique is built by appending the first appearances one by one. */
  lemma UniqueSnoc<T(!new)>(s: seq<T>, x: T)
    ensures Unique(s + [x]) == if x in s then Unique(s) else Unique(s) + [x]
  {
    assert (s + [x])[..|s + [x]| - 1] == s;
  }

  /** Lexicographic order on integer keys; a shorter prefix comes first. */
  predicate LexLeq(a: seq<int>, b: seq<int>)
  {
    a == [] || (b != [] && (a[0] < b[0] || (a[0] == b[0] && LexLeq(a[1..], b[1..]))))
  }

  lemma {:induction false} LexTotal(a: seq<int>, b: seq<int>)
    ensures LexLeq(a, b) || LexLeq(b, a)
  {
    if a != [] && b != [] && a[0] == b[0] {
      LexTotal(a[1..], b[1..]);
    }
  }

  lemma {:induction false} LexTransitive(a: seq<int>, b: seq<int>, c: seq<int>)
    requires LexLeq(a, b) && LexLeq(b, c)
    ensures LexLeq(a, c)
  {
    if a != [] && a[0] == b[0] && b[0] == c[0] {
      LexTransitive(a[1..], b[1..], c[1..]);
    }
  }

  /** `s` is in non-decreasing order of `key`. */
  predicate SortedBy<T>(s: seq<T>, key: T -> seq<int>)
  {
    forall i, j :: 0 <= i < j < |s| ==> LexLeq(key(s[i]), key(s[j]))
  }

  /** Inserts `x` in front of the first element whose key is not below it. */
  function InsertBy<T>(x: T, s: seq<T>, key: T -> seq<int>): (r: seq<T>)
    ensures |r| == |s| + 1
    ensures multiset(r) == multiset(s) + multiset{x}
  {
    if s == [] then [x]
    else if LexLeq(key(x), key(s[0])) then [x] + s
    else
      assert s == [s[0]] + s[1..];
      [s[0]] + InsertBy(x, s[1..], key)
  }

  /** Every element after an insertion is the inserted one or an old one. */
  lemma InsertByMember<T>(x: T, s: seq<T>, key: T -> seq<int>, j: nat)
    requires j < |InsertBy(x, s, key)|
    ensures InsertBy(x, s, key)[j] == x || InsertBy(x, s, key)[j] in s
  {
    var r := InsertBy(x, s, key);
    assert r[j] in multiset(r);
  }

  lemma {:induction false} InsertBySorted<T>(x: T, s: seq<T>, key: T -> seq<int>)
    requires SortedBy(s, key)
    ensures SortedBy(InsertBy(x, s, key), key)
  {
    var r := InsertBy(x, s, key);
    if s == [] {
    } else if LexLeq(key(x), key(s[0])) {
      forall i, j | 0 <= i < j < |r| ensures LexLeq(key(r[i]), key(r[j])) {
        if i == 0 {
          if j > 1 {
            LexTransitive(key(x), key(s[0]), key(s[j - 1]));
          }
        }
      }
    } else {
      LexTotal(key(x), key(s[0]));
      InsertBySorted(x, s[1..], key);
      var t := InsertBy(x, s[1..], key);
      assert r == [s[0]] + t;
      forall j | 0 <= j < |t| ensures LexLeq(key(s[0]), key(t[j])) {
        InsertByMember(x, s[1..], key, j);
        if t[j] != x {
          var k :| 0 <= k < |s[1..]| && s[1..][k] == t[j];
          assert s[k + 1] == t[j];
        }
      }
      forall i, j | 0 <= i < j < |r| ensures LexLeq(key(r[i]), key(r[j])) {
        assert r[j] == t[j - 1];
        if i > 0 {
          assert r[i] == t[i - 1];
        }
      }
    }
  }

  /** A stable insertion sort by `key`. */
  function SortBy<T>(s: seq<T>, key: T -> seq<int>): (r: seq<T>)
    ensures |r| == |s|
    ensures multiset(r) == multiset(s)
    ensures SortedBy(r, key)
  {
    if s == [] then []
    else
      assert s == [s[0]] + s[1..];
      var t := SortBy(s[1..], key);
      InsertBySorted(s[0], t, key);
      InsertBy(s[0], t, key)
  }

  lemma {:induction false} LexReflexive(a: seq<int>)
    ensures LexLeq(a, a)
  {
    if a != [] {
      LexReflexive(a[1..]);
    }
  }

  lemma {:induction false} LexAntisymmetric(a: seq<int>, b: seq<int>)
    requires LexLeq(a, b) && LexLeq(b, a)
    ensures a == b
  {
    if a != [] && b != [] {
      LexAntisymmetric(a[1..], b[1..]);
      assert a == [a[0]] + a[1..] && b == [b[0]] + b[1..];
    }
  }

  /** Selection from a sorted sequence is sorted. */
  lemma WhereSorted<T(!new)>(s: seq<T>, p: T -> bool, key: T -> seq<int>)
    requires SortedBy(s, key)
    ensures SortedBy(Where(s, p), key)
  {
    var r := Where(s, p);
    WhereSubsequence(s, p);
    forall i, j | 0 <= i < j < |r| ensures LexLeq(key(r[i]), key(r[j])) {
      SubsequenceOrder(r, s, i, j);
    }
  }

  /** Two elements of a subsequence occur in the same order in the whole. */
  lemma {:induction false} SubsequenceOrder<T(!new)>(r: seq<T>, s: seq<T>, i: nat, j: nat)
    requires Subsequence(r, s) && i < j < |r|
    ensures exists k, l :: 0 <= k < l < |s| && s[k] == r[i] && s[l] == r[j]
    decreases |s|
  {
    if r[0] == s[0] && Subsequence(r[1..], s[1..]) {
      if i == 0 {
        assert r[j] == r[1..][j - 1];
        SubsequenceMember(r[1..], s[1..], j - 1);
        var l :| 0 <= l < |s[1..]| && s[1..][l] == r[j];
        assert s[0] == r[0] && s[l + 1] == r[j];
      } else {
        SubsequenceOrder(r[1..], s[1..], i - 1, j - 1);
        var k, l :| 0 <= k < l < |s[1..]| && s[1..][k] == r[1..][i - 1] && s[1..][l] == r[1..][j - 1];
        assert s[k + 1] == r[i] && s[l + 1] == r[j];
      }
    } else {
      SubsequenceOrder(r, s[1..], i, j);
      var k, l :| 0 <= k < l < |s[1..]| && s[1..][k] == r[i] && s[1..][l] == r[j];
      assert s[k + 1] == r[i] && s[l + 1] == r[j];
    }
  }

  lemma {:induction false} SubsequenceMember<T(!new)>(r: seq<T>, s: seq<T>, i: nat)
    requires Subsequence(r, s) && i < |r|
    ensures exists k :: 0 <= k < |s| && s[k] == r[i]
    decreases |s|
  {
    if r[0] == s[0] && Subsequence(r[1..], s[1..]) {
      if i > 0 {
        SubsequenceMember(r[1..], s[1..], i - 1);
        var k :| 0 <= k < |s[1..]| && s[1..][k] == r[1..][i - 1];
        assert s[k + 1] == r[i];
      }
    } else {
      SubsequenceMember(r, s[1..], i);
      var k :| 0 <= k < |s[1..]| && s[1..][k] == r[i];
      assert s[k + 1] == r[i];
    }
  }

  lemma SortedTail<T>(s: seq<T>, key: T -> seq<int>)
    requires SortedBy(s, key) && s != []
    ensures SortedBy(s[1..], key)
  {
    forall i, j | 0 <= i < j < |s[1..]| ensures LexLeq(key(s[1..][i]), key(s[1..][j])) {
      assert s[1..][i] == s[i + 1] && s[1..][j] == s[j + 1];
    }
  }

  /** Two sorted arrangements of the same elements start with elements of
      the same key. */
  lemma SortedHeads<T>(a: seq<T>, b: seq<T>, key: T -> seq<int>)
    requires SortedBy(a, key) && SortedBy(b, key)
    requires multiset(a) == multiset(b) && a != []
    ensures b != [] && key(a[0]) == key(b[0]) && b[0] in a
  {
    assert a[0] in multiset(b);
    var j :| 0 <= j < |b| && b[j] == a[0];
    assert b[0] in multiset(a);
    var i :| 0 <= i < |a| && a[i] == b[0];
    if i > 0 {
      assert LexLeq(key(a[0]), key(a[i]));
    } else {
      LexReflexive(key(a[0]));
    }
    if j > 0 {
      assert LexLeq(key(b[0]), key(b[j]));
    } else {
      LexReflexive(key(b[0]));
    }
    LexAntisymmetric(key(a[0]), key(b[0]));
  }

  /** A sorted arrangement is unique when no two different elements share
      a key. */
  lemma {:induction false} SortedUnique<T>(a: seq<T>, b: seq<T>, key: T -> seq<int>)
    requires SortedBy(a, key) && SortedBy(b, key)
    requires multiset(a) == multiset(b)
    requires forall x, y :: x in a && y in a && key(x) == key(y) ==> x == y
    ensures a == b
    decreases |a|
  {
    if a == [] {
      assert |b| == |multiset(b)| == 0;
    } else {
      SortedUniqueHeads(a, b, key);
      SortedUnique(a[1..], b[1..], key);
      assert a == [a[0]] + a[1..] && b == [b[0]] + b[1..];
    }
  }

  /** Two such arrangements start alike and their tails are again two such
      arrangements. */
  lemma SortedUniqueHeads<T>(a: seq<T>, b: seq<T>, key: T -> seq<int>)
    requires a != [] && SortedBy(a, key) && SortedBy(b, key)
    requires multiset(a) == multiset(b)
    requires forall x, y :: x in a && y in a && key(x) == key(y) ==> x == y
    ensures b != [] && a[0] == b[0]
    ensures SortedBy(a[1..], key) && SortedBy(b[1..], key)
    ensures multiset(a[1..]) == multiset(b[1..])
    ensures forall x, y :: x in a[1..] && y in a[1..] && key(x) == key(y) ==> x == y
  {
    SortedHeads(a, b, key);
    assert a[0] in a;
    MultisetTails(a, b);
    SortedTail(a, key);
    SortedTail(b, key);
    assert forall x :: x in a[1..] ==> x in a;
  }

  /** Equal multisets with the same first element have equal tails. */
  lemma MultisetTails<T>(a: seq<T>, b: seq<T>)
    requires a != [] && b != [] && a[0] == b[0] && multiset(a) == multiset(b)
    ensures multiset(a[1..]) == multiset(b[1..])
  {
    forall y ensures multiset(a[1..])[y] == multiset(b[1..])[y] {
      MultisetHead(a, y);
      MultisetHead(b, y);
    }
  }

  /** Mapping by a function that keeps the sort key commutes with inserting. */
  lemma {:induction false} InsertByMap<T, U>(x: T, s: seq<T>, f: T -> U, key: T -> seq<int>, key': U -> seq<int>)
    requires forall y :: key'(f(y)) == key(y)
    ensures InsertBy(f(x), Map(s, f), key') == Map(InsertBy(x, s, key), f)
  {
    if s != [] {
      MapCons(s, f);
      assert key'(f(x)) == key(x) && key'(f(s[0])) == key(s[0]);
      if LexLeq(key(x), key(s[0])) {
        assert ([x] + s)[1..] == s;
        MapCons([x] + s, f);
      } else {
        var t := InsertBy(x, s[1..], key);
        InsertByMap(x, s[1..], f, key, key');
        assert ([s[0]] + t)[1..] == t;
        MapCons([s[0]] + t, f);
      }
    }
  }

  /** Mapping by a function that keeps the sort key commutes with sorting. */
  lemma {:induction false} SortByMap<T, U>(s: seq<T>, f: T -> U, key: T -> seq<int>, key': U -> seq<int>)
    requires forall y :: key'(f(y)) == key(y)
    ensures SortBy(Map(s, f), key') == Map(SortBy(s, key), f)
  {
    if s != [] {
      assert Map(s, f)[0] == f(s[0]) && Map(s, f)[1..] == Map(s[1..], f);
      SortByMap(s[1..], f, key, key');
      InsertByMap(s[0], SortBy(s[1..], key), f, key, key');
    }
  }

  /** Appending to or after an empty sequence changes nothing. */
  lemma AppendEmpty<T>(a: seq<T>, b: seq<T>)
    ensures a == [] ==> a + b == b
    ensures b == [] ==> a + b == a
  {
  }

  /** A prefix one longer ends in the next element. */
  lemma TakeOneMore<T>(s: seq<T>, j: nat)
    requires j < |s|
    ensures s[..j + 1] == s[..j] + [s[j]]
  {
  }

  /** Sorting keeps every element. */
  lemma SortKeeps<T>(s: seq<T>, key: T -> seq<int>, x: T)
    requires x in s
    ensures x in SortBy(s, key)
  {
    assert x in multiset(s);
  }

  /** A sequence holding three distinct values has at least three elements. */
  lemma ThreeMembers<T>(s: seq<T>, a: T, b: T, c: T)
    requires a in s && b in s && c in s
    requires a != b && a != c && b != c
    ensures |s| >= 3
  {
    var i :| 0 <= i < |s| && s[i] == a;
    var j :| 0 <= j < |s| && s[j] == b;
    var k :| 0 <= k < |s| && s[k] == c;
    assert i != j && i != k && j != k;
  }

  /** A map that keeps every key keeps the order. */
  lemma MapSorted<T>(s: seq<T>, f: T -> T, key: T -> seq<int>)
    requires SortedBy(s, key)
    requires forall x :: key(f(x)) == key(x)
    ensures SortedBy(Map(s, f), key)
  {
    forall i, j | 0 <= i < j < |s| ensures LexLeq(key(Map(s, f)[i]), key(Map(s, f)[j])) {
      assert key(Map(s, f)[i]) == key(s[i]) && key(Map(s, f)[j]) == key(s[j]);
    }
  }

  /** Expanding a sorted sequence into pieces with their origin's key keeps
      it sorted. */
  lemma {:induction false} FlatMapSorted<T, U>(s: seq<T>, f: T -> seq<U>, key: T -> seq<int>, key': U -> seq<int>)
    requires SortedBy(s, key)
    requires forall x, y :: x in s && y in f(x) ==> key'(y) == key(x)
    ensures SortedBy(FlatMap(s, f), key')
  {
    if s != [] {
      assert s[0] in s;
      assert forall x :: x in s[1..] ==> x in s;
      assert SortedBy(s[1..], key) by {
        forall i, j | 0 <= i < j < |s[1..]| ensures LexLeq(key(s[1..][i]), key(s[1..][j])) {
          assert s[1..][i] == s[i + 1] && s[1..][j] == s[j + 1];
        }
      }
      FlatMapSorted(s[1..], f, key, key');
      var head, tail := f(s[0]), FlatMap(s[1..], f);
      var r := head + tail;
      forall i, j | 0 <= i < j < |r| ensures LexLeq(key'(r[i]), key'(r[j])) {
        if j < |head| {
          assert r[i] in head && r[j] in head;
          LexReflexive(key(s[0]));
        } else if i < |head| {
          assert r[i] in head && r[j] in tail;
          FlatMapMembers(s[1..], f, r[j]);
          var x :| x in s[1..] && r[j] in f(x);
          var k :| 0 <= k < |s[1..]| && s[1..][k] == x;
          assert s[k + 1] == x;
          assert LexLeq(key(s[0]), key(x));
        } else {
          assert r[i] == tail[i - |head|] && r[j] == tail[j - |head|];
        }
      }
    }
  }
}

=== FILE: split.dfy ===
/** Regrouping a table into per-list sequences of column values
    (split_lists), the inverse direction of building a table from lists. */
module Splitting {
  import opened Common
  import opened Seqs
  import opened Frames

  /** The rows of one phase: the unique study events, the recall events in
      order of list and output position, or every row. A raw table has no
      `study` or `recall` column. */
  function PhaseData(frame: Frame, phase: string): (r: Result<Frame>)
    ensures r.Ok? ==> r.value.Columns() == frame.Columns() && r.value.Length() <= frame.Length()
    ensures r.Err? <==> (phase != "raw" && (frame.Raw? || (phase != "study" && phase != "recall")))
    ensures phase == "raw" ==> r == Ok(frame)
    ensures phase == "study" && frame.Scored? ==>
              forall x :: x in r.value.rows <==> x in frame.rows && x.study
    ensures phase == "recall" && frame.Scored? ==>
              forall x :: x in r.value.rows <==> x in frame.rows && x.recall
  {
    if phase == "study" then
      match frame
      case Raw(_) => Err(UnknownColumn("study"))
      case Scored(rs, prov) => Ok(Scored(Where(rs, IsStudy), prov))
    else if phase == "recall" then
      match frame
      case Raw(_) => Err(UnknownColumn("recall"))
      case Scored(rs, prov) =>
        var recalls := Where(rs, IsRecall);
        var sorted := SortBy(recalls, RecallOrderKey);
        assert forall x :: x in sorted <==> x in recalls by {
          forall x ensures x in sorted <==> x in recalls {
            assert x in sorted <==> x in multiset(sorted);
            assert x in recalls <==> x in multiset(recalls);
          }
        }
        Ok(Scored(sorted, prov))
    else if phase == "raw" then Ok(frame)
    else Err(InvalidPhase(phase))
  }

  /** The recall phase of a scored table holds exactly its recall rows,
      each as often as in the table, ordered by list and, within a list, by
      output position. */
  lemma RecallPhase(rs: seq<Row>, prov: bool)
    ensures PhaseData(Scored(rs, prov), "recall").Ok?
    ensures var r := PhaseData(Scored(rs, prov), "recall").value.rows;
            && multiset(r) == multiset(Where(rs, IsRecall))
            && (forall i, j :: 0 <= i < j < |r| ==> RecallBefore(r[i], r[j]))
  {
    var r := PhaseData(Scored(rs, prov), "recall").value.rows;
    forall i, j | 0 <= i < j < |r| ensures RecallBefore(r[i], r[j]) {
      RecallOrderKeyMeaning(r[i], r[j]);
    }
  }

  /** The study phase of a scored table holds exactly its study rows, each
      as often as in the table, in table order. */
  lemma StudyPhase(rs: seq<Row>, prov: bool)
    ensures PhaseData(Scored(rs, prov), "study").Ok?
    ensures var r := PhaseData(Scored(rs, prov), "study").value.rows;
            && (forall x :: multiset(r)[x] == if x.study then multiset(rs)[x] else 0)
            && Subsequence(r, rs)
  {
    var r := PhaseData(Scored(rs, prov), "study").value.rows;
    forall x: Row ensures multiset(r)[x] == if x.study then multiset(rs)[x] else 0 {
      WhereCount(rs, IsStudy, x);
    }
    WhereSubsequence(rs, IsStudy);
  }

  /** Row `a` may come before row `b` in the recall phase: an earlier list,
      or the same list and an output position that is not later (rows
      without one come last). */
  predicate RecallBefore(a: Row, b: Row)
  {
    a.list <= b.list && (a.list == b.list && b.output.Some? ==> a.output.Some? && a.output.value <= b.output.value)
  }

  lemma RecallOrderKeyMeaning(a: Row, b: Row)
    requires LexLeq(RecallOrderKey(a), RecallOrderKey(b))
    ensures RecallBefore(a, b)
  {
    var ka, kb := RecallOrderKey(a), RecallOrderKey(b);
    if a.list == b.list && b.output.Some? {
      assert LexLeq(ka[1..], kb[1..]);
      assert a.output.Some?;
      assert ka[1..][1..] == [a.output.value] && kb[1..][1..] == [b.output.value];
      assert LexLeq([a.output.value], [b.output.value]);
    }
  }

  /** Sort key of the recall phase: list, then output position, absent
      output positions last. */
  function RecallOrderKey(x: Row): seq<int>
  {
    [x.list] + match x.output case Some(p) => [0, p] case None => [1, 0]
  }

  /** The distinct list labels of the table, in order of first appearance. */
  function ListLabels(frame: Frame): (r: seq<nat>)
    ensures Distinct(r)
    ensures forall n :: n in r <==> exists i :: 0 <= i < frame.Length() && frame.ListOf(i) == n
  {
    ListColumnMembers(frame);
    Unique(ListColumn(frame))
  }

  /** The list column, in row order. */
  function ListColumn(frame: Frame): seq<nat>
  {
    seq(frame.Length(), i requires 0 <= i < frame.Length() => frame.ListOf(i))
  }

  lemma ListColumnMembers(frame: Frame)
    ensures forall n :: n in ListColumn(frame) <==> exists i :: 0 <= i < frame.Length() && frame.ListOf(i) == n
  {
    forall n | exists i :: 0 <= i < frame.Length() && frame.ListOf(i) == n
      ensures n in ListColumn(frame)
    {
      var i :| 0 <= i < frame.Length() && frame.ListOf(i) == n;
      assert ListColumn(frame)[i] == n;
    }
  }

  /** Which rows of the phase the item query keeps (all rows without one). */
  function QueryMask(phase: Frame, query: Option<map<string, Value> -> bool>): (m: seq<bool>)
    ensures |m| == phase.Length()
  {
    seq(phase.Length(), i requires 0 <= i < phase.Length() =>
      query.None? || query.value(phase.Record(i)))
  }

  /** The values in column `key` of the rows from row `p` on that belong to
      list `n` and that the mask keeps, in row order. */
  function ColumnFrom(phase: Frame, key: string, mask: seq<bool>, n: nat, p: nat): (r: seq<Value>)
    requires |mask| == phase.Length() && p <= phase.Length()
    ensures |r| <= phase.Length() - p
    ensures forall i :: p <= i < phase.Length() && mask[i] && phase.ListOf(i) == n ==> phase.Cell(i, key) in r
    ensures forall v :: v in r ==>
              exists i :: p <= i < phase.Length() && mask[i] && phase.ListOf(i) == n && phase.Cell(i, key) == v
    decreases phase.Length() - p
  {
    if p == phase.Length() then []
    else
      (if phase.ListOf(p) == n && mask[p] then [phase.Cell(p, key)] else [])
      + ColumnFrom(phase, key, mask, n, p + 1)
  }

  /** The values of column `key` for each list label, in label order. */
  function Entry(phase: Frame, key: string, mask: seq<bool>, lists: seq<nat>): (r: seq<seq<Value>>)
    requires |mask| == phase.Length()
    ensures |r| == |lists|
    ensures forall j, i :: 0 <= j < |lists| && 0 <= i < phase.Length() && mask[i] && phase.ListOf(i) == lists[j] ==>
              phase.Cell(i, key) in r[j]
    ensures forall j, v :: 0 <= j < |lists| && v in r[j] ==>
              exists i :: 0 <= i < phase.Length() && mask[i] && phase.ListOf(i) == lists[j] && phase.Cell(i, key) == v
  {
    seq(|lists|, j requires 0 <= j < |lists| => ColumnFrom(phase, key, mask, lists[j], 0))
  }

  /** The index of the last occurrence of `x` in `s`. */
  function LastIndexOf(s: seq<string>, x: string): (i: nat)
    requires x in s
    ensures i < |s| && s[i] == x && forall j :: i < j < |s| ==> s[j] != x
  {
    if s[|s| - 1] == x then |s| - 1
    else
      assert x in s[..|s| - 1] by {
        var k :| 0 <= k < |s| && s[k] == x;
        assert s[..|s| - 1][k] == x;
      }
      LastIndexOf(s[..|s| - 1], x)
  }

  /** The entry of column `key`: its values per list, or none when the
      table has no such column. */
  function EntryFor(frame: Frame, ph: Frame, key: string, mask: seq<bool>, lists: seq<nat>): Option<seq<seq<Value>>>
    requires |mask| == ph.Length()
  {
    if key in frame.Columns() then Some(Entry(ph, key, mask, lists)) else None
  }

  /** `split` holds the entries of the first `i` pairs of keys and names;
      a name repeated among them has the entry of its last pair. */
  ghost predicate Describes(split: map<string, Option<seq<seq<Value>>>>, ks: seq<string>, ns: seq<string>, i: nat,
                      frame: Frame, ph: Frame, mask: seq<bool>, lists: seq<nat>)
    requires i <= |ks| && i <= |ns| && |mask| == ph.Length()
  {
    && (forall name :: name in split <==> name in ns[..i])
    && (forall name :: name in split ==>
          split[name] == EntryFor(frame, ph, ks[LastIndexOf(ns[..i], name)], mask, lists))
  }

  lemma DescribesStep(split: map<string, Option<seq<seq<Value>>>>, ks: seq<string>, ns: seq<string>, i: nat,
                      frame: Frame, ph: Frame, mask: seq<bool>, lists: seq<nat>)
    requires i < |ks| && i < |ns| && |mask| == ph.Length()
    requires Describes(split, ks, ns, i, frame, ph, mask, lists)
    ensures Describes(split[ns[i] := EntryFor(frame, ph, ks[i], mask, lists)], ks, ns, i + 1, frame, ph, mask, lists)
  {
    var prefix, next := ns[..i], ns[..i + 1];
    assert next == prefix + [ns[i]];
    var split' := split[ns[i] := EntryFor(frame, ph, ks[i], mask, lists)];
    assert LastIndexOf(next, ns[i]) == i;
    forall name ensures name in split' <==> name in next {
      assert name in next <==> name in prefix || name == ns[i];
    }
    forall other | other in split && other != ns[i]
      ensures LastIndexOf(next, other) == LastIndexOf(prefix, other)
    {
      var b := LastIndexOf(prefix, other);
      assert next[b] == other;
    }
  }

  /** The column keys: the given ones, or every column. */
  function KeysOf(frame: Frame, keys: Option<seq<string>>): seq<string>
  {
    if keys.Some? then keys.value else frame.Columns()
  }

  /** The output names: the given ones, or the keys. */
  function NamesOf(ks: seq<string>, names: Option<seq<string>>): seq<string>
  {
    if names.Some? then names.value else ks
  }

  /** How many pairs of a key and a name there are: pairing stops at the
      shorter sequence. */
  function Pairs(ks: seq<string>, ns: seq<string>): (m: nat)
    ensures m <= |ks| && m <= |ns| && (m == |ks| || m == |ns|)
  {
    if |ks| < |ns| then |ks| else |ns|
  }

  /** Collects the values of column `key` list by list. */
  method EntryValues(ph: Frame, key: string, mask: seq<bool>, lists: seq<nat>) returns (values: seq<seq<Value>>)
    requires |mask| == ph.Length()
    ensures values == Entry(ph, key, mask, lists)
  {
    values := [];
    for j := 0 to |lists|
      invariant values == Entry(ph, key, mask, lists)[..j]
    {
      EntryStep(ph, key, mask, lists, j);
      values := values + [ColumnFrom(ph, key, mask, lists[j], 0)];
    }
  }

  /** One more list label adds that label's column to the entry. */
  lemma EntryStep(ph: Frame, key: string, mask: seq<bool>, lists: seq<nat>, j: nat)
    requires |mask| == ph.Length() && j < |lists|
    ensures Entry(ph, key, mask, lists)[..j + 1] ==
            Entry(ph, key, mask, lists)[..j] + [ColumnFrom(ph, key, mask, lists[j], 0)]
  {
    var e := Entry(ph, key, mask, lists);
    TakeOneMore(e, j);
  }

  /** The entries of every pair of a key and a name, pair by pair. */
  method SplitPairs(frame: Frame, ph: Frame, mask: seq<bool>, lists: seq<nat>, ks: seq<string>, ns: seq<string>)
    returns (split: map<string, Option<seq<seq<Value>>>>)
    requires |mask| == ph.Length()
    ensures Describes(split, ks, ns, Pairs(ks, ns), frame, ph, mask, lists)
  {
    split := map[];
    for i := 0 to Pairs(ks, ns)
      invariant Describes(split, ks, ns, i, frame, ph, mask, lists)
    {
      var key, name := ks[i], ns[i];
      DescribesStep(split, ks, ns, i, frame, ph, mask, lists);
      if key !in frame.Columns() {
        split := split[name := None];
      } else {
        var values := EntryValues(ph, key, mask, lists);
        split := split[name := Some(values)];
      }
    }
  }

  /** Splits the rows of one phase by list: for each pair of a column key
      and an output name, the column's values per list label of the table
      (labels in order of first appearance; a list without selected rows
      gets no values), or no entry at all for a key that is not a column.
      Keys default to all columns and names to the keys; the pairs stop at
      the shorter of the two, and a repeated name keeps its last pair. An
      empty key list gives an empty result before the phase is checked. */
  method SplitLists(frame: Frame, phase: string, keys: Option<seq<string>>, names: Option<seq<string>>,
                    query: Option<map<string, Value> -> bool>)
    returns (r: Result<map<string, Option<seq<seq<Value>>>>>)
    ensures KeysOf(frame, keys) == [] ==> r == Ok(map[])
    ensures KeysOf(frame, keys) != [] ==> (r.Err? <==> PhaseData(frame, phase).Err?)
    ensures KeysOf(frame, keys) != [] && r.Err? ==> r.error == PhaseData(frame, phase).error
    ensures r.Ok? && KeysOf(frame, keys) != [] ==>
              var ks := KeysOf(frame, keys);
              var ns := NamesOf(ks, names);
              var ph := PhaseData(frame, phase).value;
              Describes(r.value, ks, ns, Pairs(ks, ns), frame, ph, QueryMask(ph, query), ListLabels(frame))
  {
    var ks := KeysOf(frame, keys);
    if ks == [] {
      return Ok(map[]);
    }
    var ns := NamesOf(ks, names);
    var lists := ListLabels(frame);
    var phaseData := PhaseData(frame, phase);
    if phaseData.Err? {
      return Err(phaseData.error);
    }
    var ph := phaseData.value;
    var mask := QueryMask(ph, query);
    var split := SplitPairs(frame, ph, mask, lists, ks, ns);
    return Ok(split);
  }
}

=== FILE: tables.dfy ===
/** Building an event table from per-list sequences (table_from_lists) and
    the table-shaping helpers: run labels (block_index) and per-subject list
    renumbering (reset_list). */
module Tables {
  import opened Common
  import opened Seqs
  import opened Frames

  // ---------------------------------------------------------------------
  // table_from_lists
  // ---------------------------------------------------------------------

  /** The list number entries: the given ones, or none at all. */
  function Labels(lists: Option<seq<Option<nat>>>, n: nat): (r: seq<Option<nat>>)
    requires lists.Some? ==> |lists.value| == n
    ensures |r| == n
  {
    if lists.Some? then lists.value else seq(n, _ => None)
  }

  /** The number of list `i`: the given one, or else 1 at the first list and
      at a change of subject, and one more than the previous list's number
      otherwise. */
  function ListNumber(subjects: seq<int>, labels: seq<Option<nat>>, i: nat): nat
    requires |labels| == |subjects| && i < |subjects|
  {
    if labels[i].Some? then labels[i].value
    else if i == 0 || subjects[i] != subjects[i - 1] then 1
    else ListNumber(subjects, labels, i - 1) + 1
  }

  /** The events of one phase of one list: positions 1, 2, ... in order. */
  function PhaseEvents(subject: int, list: nat, trialType: string, items: seq<Item>): (r: seq<Event>)
    ensures |r| == |items|
  {
    seq(|items|, j requires 0 <= j < |items| => Event(subject, list, trialType, j + 1, items[j]))
  }

  /** The events of list `i`: its study events, then its recall events. */
  function ListEvents(subjects: seq<int>, study: seq<seq<Item>>, recall: seq<seq<Item>>,
                      labels: seq<Option<nat>>, i: nat): seq<Event>
    requires |study| == |subjects| && |recall| == |subjects| && |labels| == |subjects|
    requires i < |subjects|
  {
    var n := ListNumber(subjects, labels, i);
    PhaseEvents(subjects[i], n, "study", study[i]) + PhaseEvents(subjects[i], n, "recall", recall[i])
  }

  /** The events of the first `i` lists. */
  function TablePrefix(subjects: seq<int>, study: seq<seq<Item>>, recall: seq<seq<Item>>,
                       labels: seq<Option<nat>>, i: nat): seq<Event>
    requires |study| == |subjects| && |recall| == |subjects| && |labels| == |subjects|
    requires i <= |subjects|
  {
    if i == 0 then []
    else TablePrefix(subjects, study, recall, labels, i - 1) + ListEvents(subjects, study, recall, labels, i - 1)
  }

  /** The events of all lists: one per study item and per recall item. */
  function Table(subjects: seq<int>, study: seq<seq<Item>>, recall: seq<seq<Item>>,
                 labels: seq<Option<nat>>): (r: seq<Event>)
    requires |study| == |subjects| && |recall| == |subjects| && |labels| == |subjects|
    ensures |r| == ItemCount(study, recall, |subjects|)
  {
    TableLength(subjects, study, recall, labels, |subjects|);
    TablePrefix(subjects, study, recall, labels, |subjects|)
  }

  /** Appends one event per item of one phase of one list, with positions
      1, 2, ... in item order. */
  method AppendPhase(rows: seq<Event>, subject: int, list: nat, trialType: string, items: seq<Item>)
    returns (out: seq<Event>)
    ensures out == rows + PhaseEvents(subject, list, trialType, items)
  {
    ghost var events := PhaseEvents(subject, list, trialType, items);
    out := rows;
    var j := 0;
    while j < |items|
      invariant 0 <= j <= |items|
      invariant out == rows + events[..j]
    {
      out := out + [Event(subject, list, trialType, j + 1, items[j])];
      j := j + 1;
      assert events[..j] == events[..j - 1] + [events[j - 1]];
    }
    assert events[..j] == events;
  }

  /** Builds the event table of a set of lists: for each list its study items
      with positions 1..n, then its recall items with positions 1..m.
      Fails when the subjects, study lists and recall lists differ in length,
      or the list numbers differ in length from the subjects. */
  method TableFromLists(subjects: seq<int>, study: seq<seq<Item>>, recall: seq<seq<Item>>,
                        lists: Option<seq<Option<nat>>>) returns (r: Result<seq<Event>>)
    ensures !(|subjects| == |study| == |recall|) ==> r == Err(LengthMismatch)
    ensures |subjects| == |study| == |recall| && lists.Some? && |lists.value| != |subjects| ==>
      r == Err(ListsLengthMismatch)
    ensures |subjects| == |study| == |recall| && (lists.Some? ==> |lists.value| == |subjects|) ==>
      r == Ok(Table(subjects, study, recall, Labels(lists, |subjects|)))
  {
    if !(|subjects| == |study| == |recall|) {
      return Err(LengthMismatch);
    }
    var prevSubject: Option<int> := None;
    var currentList: nat := 1;
    if lists.Some? && |lists.value| != |subjects| {
      return Err(ListsLengthMismatch);
    }
    var labels := Labels(lists, |subjects|);
    var rows: seq<Event> := [];
    var i := 0;
    while i < |subjects|
      invariant 0 <= i <= |subjects|
      invariant rows == TablePrefix(subjects, study, recall, labels, i)
      invariant i == 0 ==> prevSubject == None && currentList == 1
      invariant i > 0 ==> prevSubject == Some(subjects[i - 1]) &&
                          currentList == ListNumber(subjects, labels, i - 1) + 1
    {
      if labels[i].Some? {
        currentList := labels[i].value;
      } else if prevSubject != Some(subjects[i]) {
        currentList := 1;
      }
      assert currentList == ListNumber(subjects, labels, i);
      rows := AppendPhase(rows, subjects[i], currentList, "study", study[i]);
      rows := AppendPhase(rows, subjects[i], currentList, "recall", recall[i]);
      currentList := currentList + 1;
      prevSubject := Some(subjects[i]);
      i := i + 1;
    }
    return Ok(rows);
  }

  /** Total number of study and recall items of the first `i` lists. */
  function ItemCount(study: seq<seq<Item>>, recall: seq<seq<Item>>, i: nat): nat
    requires i <= |study| && i <= |recall|
  {
    if i == 0 then 0 else ItemCount(study, recall, i - 1) + |study[i - 1]| + |recall[i - 1]|
  }

  /** One row per study item and per recall item. */
  lemma {:induction false} TableLength(subjects: seq<int>, study: seq<seq<Item>>, recall: seq<seq<Item>>,
                                       labels: seq<Option<nat>>, i: nat)
    requires |study| == |subjects| && |recall| == |subjects| && |labels| == |subjects|
    requires i <= |subjects|
    ensures |TablePrefix(subjects, study, recall, labels, i)| == ItemCount(study, recall, i)
  {
    if i > 0 {
      TableLength(subjects, study, recall, labels, i - 1);
    }
  }

  /** Event `e` is a study or recall event of list `i`: its item is the one
      at its position (from 1) in that list's study or recall sequence. */
  predicate EventOf(subjects: seq<int>, study: seq<seq<Item>>, recall: seq<seq<Item>>,
                    labels: seq<Option<nat>>, i: int, e: Event)
    requires |study| == |subjects| && |recall| == |subjects| && |labels| == |subjects|
  {
    && 0 <= i < |subjects|
    && e.subject == subjects[i]
    && e.list == ListNumber(subjects, labels, i)
    && 1 <= e.position
    && (|| (e.trialType == "study" && e.position <= |study[i]| && e.item == study[i][e.position - 1])
        || (e.trialType == "recall" && e.position <= |recall[i]| && e.item == recall[i][e.position - 1]))
  }

  lemma PhaseEventsMembers(subject: int, list: nat, trialType: string, items: seq<Item>, e: Event)
    ensures e in PhaseEvents(subject, list, trialType, items) <==>
      && e.subject == subject && e.list == list && e.trialType == trialType
      && 1 <= e.position <= |items| && e.item == items[e.position - 1]
  {
    var r := PhaseEvents(subject, list, trialType, items);
    if 1 <= e.position <= |items| {
      assert r[e.position - 1].position == e.position;
    }
  }

  /** The table holds exactly the study items of each list at their serial
      positions (from 1) and the recall items at their output positions, with
      the list's subject and number. */
  lemma {:induction false} TableMembers(subjects: seq<int>, study: seq<seq<Item>>, recall: seq<seq<Item>>,
                                        labels: seq<Option<nat>>, k: nat, e: Event)
    requires |study| == |subjects| && |recall| == |subjects| && |labels| == |subjects|
    requires k <= |subjects|
    ensures e in TablePrefix(subjects, study, recall, labels, k) <==>
      exists i :: 0 <= i < k && EventOf(subjects, study, recall, labels, i, e)
  {
    if k > 0 {
      var i := k - 1;
      var n := ListNumber(subjects, labels, i);
      TableMembers(subjects, study, recall, labels, i, e);
      PhaseEventsMembers(subjects[i], n, "study", study[i], e);
      PhaseEventsMembers(subjects[i], n, "recall", recall[i], e);
      assert e in ListEvents(subjects, study, recall, labels, i) <==> EventOf(subjects, study, recall, labels, i, e);
    }
  }

  /** Without given list numbers, list `i` of a subject's run of consecutive
      lists starting at `j` is numbered `i - j + 1`: numbering restarts at 1
      at each change of subject and goes up by one per list. */
  lemma {:induction false} AutoNumbering(subjects: seq<int>, labels: seq<Option<nat>>, j: nat, i: nat)
    requires |labels| == |subjects| && j <= i < |subjects|
    requires forall k :: 0 <= k < |labels| ==> labels[k].None?
    requires j == 0 || subjects[j - 1] != subjects[j]
    requires forall k :: j <= k <= i ==> subjects[k] == subjects[i]
    ensures ListNumber(subjects, labels, i) == i - j + 1
  {
    if i > j {
      AutoNumbering(subjects, labels, j, i - 1);
    }
  }

  // ---------------------------------------------------------------------
  // block_index
  // ---------------------------------------------------------------------

  /** Python's `!=` on two labels: a missing label (NaN) differs from every
      label, itself included. */
  predicate Differs(a: Value, b: Value)
  {
    a.Missing? || a != b
  }

  /** `b` numbers the runs of `labels`: the number goes up by one exactly
      where a label differs from the one before it, and the label before
      the first one counts as the empty string. */
  predicate Numbered(labels: seq<Value>, b: seq<nat>)
  {
    && |b| == |labels|
    && (|labels| > 0 ==> b[0] == if Differs(Text(""), labels[0]) then 1 else 0)
    && (forall i :: 0 < i < |labels| ==> b[i] == b[i - 1] + (if Differs(labels[i - 1], labels[i]) then 1 else 0))
  }

  /** Numbers the runs of equal consecutive labels 1, 2, 3, ... . The label
      before the first one counts as the empty string, so a first label ''
      starts the numbering at 0. */
  method BlockIndex(labels: seq<Value>) returns (block: array<nat>)
    ensures Numbered(labels, block[..])
  {
    var prevLabel := Text("");
    var currBlock: nat := 0;
    block := new nat[|labels|](_ => 0);
    for i := 0 to |labels|
      invariant i > 0 ==> prevLabel == labels[i - 1] && currBlock == block[i - 1]
      invariant i == 0 ==> prevLabel == Text("") && currBlock == 0
      invariant |labels| > 0 && i > 0 ==> block[0] == if Differs(Text(""), labels[0]) then 1 else 0
      invariant forall k :: 0 < k < i ==>
        block[k] == block[k - 1] + (if Differs(labels[k - 1], labels[k]) then 1 else 0)
    {
      if Differs(prevLabel, labels[i]) {
        currBlock := currBlock + 1;
      }
      block[i] := currBlock;
      prevLabel := labels[i];
    }
  }

  /** Block numbers never decrease. */
  lemma {:induction false} NumberedMonotone(labels: seq<Value>, b: seq<nat>, i: nat, j: nat)
    requires Numbered(labels, b) && i <= j < |labels|
    ensures b[i] <= b[j]
    decreases j - i
  {
    if i < j {
      NumberedMonotone(labels, b, i, j - 1);
    }
  }

  /** The `i`-th label (from 0) lies in block at most `i + 1`. */
  lemma {:induction false} NumberedBound(labels: seq<Value>, b: seq<nat>, i: nat)
    requires Numbered(labels, b) && i < |labels|
    ensures b[i] <= i + 1
  {
    if i > 0 {
      NumberedBound(labels, b, i - 1);
    }
  }

  // ---------------------------------------------------------------------
  // reset_list
  // ---------------------------------------------------------------------

  /** The list labels of the rows of `subject`, in row order. */
  function ListsOf(subjects: seq<int>, labels: seq<nat>, subject: int): (r: seq<nat>)
    requires |subjects| == |labels|
    ensures |r| <= |labels|
  {
    if labels == [] then []
    else (if subjects[0] == subject then [labels[0]] else []) + ListsOf(subjects[1..], labels[1..], subject)
  }

  lemma {:induction false} ListsOfMembers(subjects: seq<int>, labels: seq<nat>, subject: int, x: nat)
    requires |subjects| == |labels|
    ensures x in ListsOf(subjects, labels, subject) <==>
      exists k :: 0 <= k < |labels| && subjects[k] == subject && labels[k] == x
  {
    if labels != [] {
      ListsOfMembers(subjects[1..], labels[1..], subject, x);
      if exists k :: 0 <= k < |labels| && subjects[k] == subject && labels[k] == x {
        var k :| 0 <= k < |labels| && subjects[k] == subject && labels[k] == x;
        if k > 0 {
          assert subjects[1..][k - 1] == subject && labels[1..][k - 1] == x;
        }
      }
      if exists k :: 0 <= k < |labels[1..]| && subjects[1..][k] == subject && labels[1..][k] == x {
        var k :| 0 <= k < |labels[1..]| && subjects[1..][k] == subject && labels[1..][k] == x;
        assert subjects[k + 1] == subject && labels[k + 1] == x;
      }
    }
  }

  /** The rows of other subjects do not matter to a subject's labels. */
  lemma {:induction false} ListsOfAgree(subjects: seq<int>, labels: seq<nat>, labels': seq<nat>, subject: int)
    requires |subjects| == |labels| == |labels'|
    requires forall k :: 0 <= k < |labels| && subjects[k] == subject ==> labels[k] == labels'[k]
    ensures ListsOf(subjects, labels, subject) == ListsOf(subjects, labels', subject)
  {
    if labels != [] {
      ListsOfAgree(subjects[1..], labels[1..], labels'[1..], subject);
    }
  }

  /** The distinct list labels of a subject, in order of first appearance. */
  function SubjectLists(subjects: seq<int>, labels: seq<nat>, subject: int): seq<nat>
    requires |subjects| == |labels|
  {
    Unique(ListsOf(subjects, labels, subject))
  }

  /** One in-place assignment: every row of `subject` currently labelled
      `from` gets label `to`. */
  function Relabel(subjects: seq<int>, labels: seq<nat>, subject: int, from: nat, to: nat): (r: seq<nat>)
    requires |subjects| == |labels|
    ensures |r| == |labels|
  {
    seq(|labels|, k requires 0 <= k < |labels| =>
      if subjects[k] == subject && labels[k] == from then to else labels[k])
  }

  /** The assignments of a subject from its `i`-th list on: the rows
      labelled `ls[i]` at that moment get `i + 1`, one list after another. */
  function RelabelFrom(subjects: seq<int>, labels: seq<nat>, subject: int, ls: seq<nat>, i: nat): (r: seq<nat>)
    requires |subjects| == |labels|
    ensures |r| == |labels|
    decreases |ls| - i
  {
    if i >= |ls| then labels
    else RelabelFrom(subjects, Relabel(subjects, labels, subject, ls[i], i + 1), subject, ls, i + 1)
  }

  /** The renumbering of the subjects `us[j..]`, one after another; each
      subject's list labels are read from the table as it is by then. */
  function ResetFrom(subjects: seq<int>, labels: seq<nat>, us: seq<int>, j: nat): (r: seq<nat>)
    requires |subjects| == |labels|
    ensures |r| == |labels|
    decreases |us| - j
  {
    if j >= |us| then labels
    else
      var ls := SubjectLists(subjects, labels, us[j]);
      ResetFrom(subjects, RelabelFrom(subjects, labels, us[j], ls, 0), us, j + 1)
  }

  /** What reset_list computes: every subject renumbered in turn. */
  function ResetListResult(subjects: seq<int>, labels: seq<nat>): (r: seq<nat>)
    requires |subjects| == |labels|
    ensures |r| == |labels|
    ensures forall k :: 0 <= k < |r| ==> 1 <= r[k] <= |SubjectLists(subjects, labels, subjects[k])|
  {
    var us := Unique(subjects);
    assert Renumbered(subjects, labels, labels, us[..0]);
    ResetFromRange(subjects, labels, labels, us, 0);
    ResetFrom(subjects, labels, us, 0)
  }

  /** Rows of subject `s` are at stage `i` of its renumbering: a row whose
      original label is the `j`-th of `ls` still has it when `j >= i`, and
      has a label in 1..i otherwise; other rows are untouched. */
  predicate Stage(subjects: seq<int>, orig: seq<nat>, cur: seq<nat>, s: int, ls: seq<nat>, i: nat)
    requires |subjects| == |orig| == |cur|
  {
    forall k :: 0 <= k < |orig| ==>
      if subjects[k] == s && orig[k] in ls then
        (if IndexOf(ls, orig[k]) >= i then cur[k] == orig[k] else 1 <= cur[k] <= i)
      else cur[k] == orig[k]
  }

  lemma RelabelStage(subjects: seq<int>, orig: seq<nat>, cur: seq<nat>, s: int, ls: seq<nat>, i: nat)
    requires |subjects| == |orig| == |cur| && Distinct(ls) && i < |ls|
    requires Stage(subjects, orig, cur, s, ls, i)
    requires forall k :: 0 <= k < |orig| && subjects[k] == s ==> orig[k] in ls
    ensures Stage(subjects, orig, Relabel(subjects, cur, s, ls[i], i + 1), s, ls, i + 1)
  {
    var next := Relabel(subjects, cur, s, ls[i], i + 1);
    DistinctIndex(ls, i);
    forall k | 0 <= k < |orig| && subjects[k] == s
      ensures if IndexOf(ls, orig[k]) >= i + 1 then next[k] == orig[k] else 1 <= next[k] <= i + 1
    {
      var j := IndexOf(ls, orig[k]);
      if j > i {
        DistinctIndex(ls, j);
        assert cur[k] == ls[j] != ls[i];
      }
    }
  }

  /** Renumbering one subject from stage `i` on leaves each of its rows
      labelled in 1..|ls| and the other rows untouched. */
  lemma {:induction false} RelabelFromRange(subjects: seq<int>, orig: seq<nat>, cur: seq<nat>, s: int, ls: seq<nat>, i: nat)
    requires |subjects| == |orig| == |cur| && Distinct(ls) && i <= |ls|
    requires Stage(subjects, orig, cur, s, ls, i)
    requires forall k :: 0 <= k < |orig| && subjects[k] == s ==> orig[k] in ls
    ensures forall k :: 0 <= k < |orig| ==>
      if subjects[k] == s then 1 <= RelabelFrom(subjects, cur, s, ls, i)[k] <= |ls|
      else RelabelFrom(subjects, cur, s, ls, i)[k] == orig[k]
    decreases |ls| - i
  {
    if i < |ls| {
      RelabelStage(subjects, orig, cur, s, ls, i);
      RelabelFromRange(subjects, orig, Relabel(subjects, cur, s, ls[i], i + 1), s, ls, i + 1);
    }
  }

  /** Every row of a subject in `done` has a label between 1 and its
      subject's number of distinct lists; every other row keeps its
      original label. */
  predicate Renumbered(subjects: seq<int>, orig: seq<nat>, cur: seq<nat>, done: seq<int>)
    requires |subjects| == |orig| == |cur|
  {
    forall k :: 0 <= k < |orig| ==>
      if subjects[k] in done then 1 <= cur[k] <= |SubjectLists(subjects, orig, subjects[k])|
      else cur[k] == orig[k]
  }

  /** Renumbering the subjects `us[j..]` after `us[..j]` leaves every row of
      a subject of `us` labelled between 1 and its subject's number of
      distinct lists. */
  lemma {:induction false} ResetFromRange(subjects: seq<int>, orig: seq<nat>, cur: seq<nat>, us: seq<int>, j: nat)
    requires |subjects| == |orig| == |cur| && Distinct(us) && j <= |us|
    requires Renumbered(subjects, orig, cur, us[..j])
    ensures Renumbered(subjects, orig, ResetFrom(subjects, cur, us, j), us)
    decreases |us| - j
  {
    if j < |us| {
      ResetStepRange(subjects, orig, cur, us, j);
      ResetFromRange(subjects, orig, RelabelFrom(subjects, cur, us[j], SubjectLists(subjects, cur, us[j]), 0), us, j + 1);
    } else {
      assert us[..j] == us;
    }
  }

  /** Renumbering the next subject `us[j]` extends the renumbered subjects
      by one. */
  lemma ResetStepRange(subjects: seq<int>, orig: seq<nat>, cur: seq<nat>, us: seq<int>, j: nat)
    requires |subjects| == |orig| == |cur| && Distinct(us) && j < |us|
    requires Renumbered(subjects, orig, cur, us[..j])
    ensures Renumbered(subjects, orig, RelabelFrom(subjects, cur, us[j], SubjectLists(subjects, cur, us[j]), 0), us[..j + 1])
  {
    var s := us[j];
    assert forall i :: 0 <= i < j ==> us[..j][i] != s;
    ListsOfAgree(subjects, cur, orig, s);
    var ls := SubjectLists(subjects, cur, s);
    forall k | 0 <= k < |orig| && subjects[k] == s ensures cur[k] in ls {
      ListsOfMembers(subjects, cur, s, cur[k]);
    }
    RelabelFromRange(subjects, cur, cur, s, ls, 0);
    assert us[..j + 1] == us[..j] + [s];
  }

  /** One assignment on the list column: the rows of `subject` labelled
      `from` get label `to`. */
  method RelabelInPlace(out: array<nat>, subjects: seq<int>, subject: int, from: nat, to: nat)
    requires out.Length == |subjects|
    modifies out
    ensures out[..] == Relabel(subjects, old(out[..]), subject, from, to)
  {
    ghost var before := out[..];
    ghost var want := Relabel(subjects, before, subject, from, to);
    for k := 0 to out.Length
      invariant out[..k] == want[..k]
      invariant forall m :: k <= m < out.Length ==> out[m] == before[m]
    {
      if subjects[k] == subject && out[k] == from {
        out[k] := to;
      }
      assert out[..k + 1] == out[..k] + [out[k]];
      assert want[..k + 1] == want[..k] + [want[k]];
    }
    assert out[..] == out[..out.Length];
  }

  /** Renumbers the lists of each subject on a copy of the list column: for
      the `i`-th distinct list label of a subject (from 0), the rows of that
      subject that carry the label at that moment get `i + 1`. */
  method ResetList(subjects: seq<int>, lists: seq<nat>) returns (out: array<nat>)
    requires |subjects| == |lists|
    ensures out.Length == |lists|
    ensures out[..] == ResetListResult(subjects, lists)
  {
    out := new nat[|lists|](k requires 0 <= k < |lists| => lists[k]);
    assert out[..] == lists;
    var us := Unique(subjects);
    for j := 0 to |us|
      invariant out.Length == |lists|
      invariant ResetFrom(subjects, out[..], us, j) == ResetFrom(subjects, lists, us, 0)
    {
      var subject := us[j];
      var ls := SubjectLists(subjects, out[..], subject);
      ghost var start := out[..];
      for i := 0 to |ls|
        invariant out.Length == |lists|
        invariant RelabelFrom(subjects, out[..], subject, ls, i) == RelabelFrom(subjects, start, subject, ls, 0)
      {
        RelabelInPlace(out, subjects, subject, ls[i], i + 1);
      }
    }
  }

  /** The intended new label of row `k`: the rank (from 1) of its list label
      among its subject's list labels in order of first appearance. */
  function CleanLabel(subjects: seq<int>, labels: seq<nat>, k: nat): nat
    requires |subjects| == |labels| && k < |labels|
  {
    ListsOfMembers(subjects, labels, subjects[k], labels[k]);
    IndexOf(SubjectLists(subjects, labels, subjects[k]), labels[k]) + 1
  }

  /** The renumbering reset_list is meant to compute: each subject's lists
      become 1, 2, ... in order of first appearance. */
  function ResetClean(subjects: seq<int>, labels: seq<nat>): (r: seq<nat>)
    requires |subjects| == |labels|
    ensures |r| == |labels|
    ensures forall k :: 0 <= k < |r| ==> 1 <= r[k] <= |SubjectLists(subjects, labels, subjects[k])|
    ensures forall k, l :: 0 <= k < |r| && 0 <= l < |r| && subjects[k] == subjects[l] ==>
              (r[k] == r[l] <==> labels[k] == labels[l])
  {
    CleanLabelsDistinguish(subjects, labels);
    seq(|labels|, k requires 0 <= k < |labels| => CleanLabel(subjects, labels, k))
  }

  /** Rows of one subject get the same intended label exactly when they
      have the same list label. */
  lemma CleanLabelsDistinguish(subjects: seq<int>, labels: seq<nat>)
    requires |subjects| == |labels|
    ensures forall k, l :: 0 <= k < |labels| && 0 <= l < |labels| && subjects[k] == subjects[l] ==>
              (CleanLabel(subjects, labels, k) == CleanLabel(subjects, labels, l) <==> labels[k] == labels[l])
  {
    forall k, l | 0 <= k < |labels| && 0 <= l < |labels| && subjects[k] == subjects[l]
      ensures CleanLabel(subjects, labels, k) == CleanLabel(subjects, labels, l) <==> labels[k] == labels[l]
    {
      ListsOfMembers(subjects, labels, subjects[k], labels[k]);
      ListsOfMembers(subjects, labels, subjects[k], labels[l]);
    }
  }

  /** The rank of `x` in `ls` (from 1), or 0 when absent. */
  function Rank(ls: seq<nat>, x: nat): nat
  {
    if x in ls then IndexOf(ls, x) + 1 else 0
  }

  /** A relabelling of a subject's rows by `g` relabels its list labels by `g`. */
  lemma {:induction false} ListsOfMap(subjects: seq<int>, labels: seq<nat>, r: seq<nat>, subject: int, g: nat -> nat)
    requires |subjects| == |labels| == |r|
    requires forall k :: 0 <= k < |labels| && subjects[k] == subject ==> r[k] == g(labels[k])
    ensures ListsOf(subjects, r, subject) == Map(ListsOf(subjects, labels, subject), g)
  {
    if labels != [] {
      ListsOfMap(subjects[1..], labels[1..], r[1..], subject, g);
    }
  }

  /** `g` maps distinct elements of `xs` to distinct values. */
  predicate InjectiveOn(xs: seq<nat>, g: nat -> nat)
  {
    forall x, y :: x in xs && y in xs && g(x) == g(y) ==> x == y
  }

  /** Under an injective relabelling, the image of a new element is new. */
  lemma InjectiveImage(init: seq<nat>, last: nat, g: nat -> nat)
    requires InjectiveOn(init + [last], g)
    ensures g(last) in Map(init, g) <==> last in init
    ensures InjectiveOn(init, g)
  {
    var xs := init + [last];
    MapMembers(init, g, g(last));
    if g(last) in Map(init, g) {
      var t :| t in init && g(last) == g(t);
      assert t in xs && last in xs;
    }
    forall x, y | x in init && y in init && g(x) == g(y) ensures x == y {
      assert x in xs && y in xs;
    }
  }

  /** An injective relabelling commutes with taking first appearances. */
  lemma {:induction false} UniqueMap(xs: seq<nat>, g: nat -> nat)
    requires InjectiveOn(xs, g)
    ensures Unique(Map(xs, g)) == Map(Unique(xs), g)
    decreases |xs|
  {
    if xs != [] {
      var init, last := xs[..|xs| - 1], xs[|xs| - 1];
      assert xs == init + [last];
      InjectiveImage(init, last, g);
      UniqueMap(init, g);
      MapSnoc(init, last, g);
      UniqueSnoc(init, last);
      UniqueSnoc(Map(init, g), g(last));
      if last !in init {
        MapSnoc(Unique(init), last, g);
      }
    }
  }

  /** Ranking the elements of a sequence without duplicates gives 1, 2, ... . */
  lemma RankAll(ls: seq<nat>)
    requires Distinct(ls)
    ensures Map(ls, (x: nat) => Rank(ls, x)) == seq(|ls|, i => i + 1)
  {
    forall i | 0 <= i < |ls| ensures Rank(ls, ls[i]) == i + 1 {
      DistinctIndex(ls, i);
    }
  }

  /** After the intended renumbering, every subject's list labels, in order
      of first appearance, are exactly 1, 2, ..., m, where m is the number
      of the subject's distinct lists; rows of a subject share a new label
      exactly when they shared the old one. */
  lemma ResetCleanRenumbers(subjects: seq<int>, labels: seq<nat>, subject: int)
    requires |subjects| == |labels|
    ensures SubjectLists(subjects, ResetClean(subjects, labels), subject) ==
            seq(|SubjectLists(subjects, labels, subject)|, i => i + 1)
    ensures forall k, l ::
              (0 <= k < |labels| && 0 <= l < |labels| && subjects[k] == subject && subjects[l] == subject) ==>
              (ResetClean(subjects, labels)[k] == ResetClean(subjects, labels)[l] <==> labels[k] == labels[l])
  {
    var ls := SubjectLists(subjects, labels, subject);
    var g := (x: nat) => Rank(ls, x);
    var r := ResetClean(subjects, labels);
    forall k | 0 <= k < |labels| && subjects[k] == subject
      ensures r[k] == g(labels[k])
    {
      ListsOfMembers(subjects, labels, subject, labels[k]);
    }
    ListsOfMap(subjects, labels, r, subject, g);
    assert InjectiveOn(ListsOf(subjects, labels, subject), g);
    UniqueMap(ListsOf(subjects, labels, subject), g);
    RankAll(ls);
  }

  /** reset_list as written renumbers in place, one old label at a time, so
      a new label can collide with an old label not yet processed: one
      subject whose lists are labelled 2 then 1 first has its rows of list 2
      relabelled 1, and then all its rows labelled 1, both lists, relabelled
      2; the intended result is 1 then 2. */
  lemma ResetListCollision()
    ensures ResetListResult([7, 7], [2, 1]) == [2, 2]
    ensures ResetClean([7, 7], [2, 1]) == [1, 2]
  {
    CollisionAsWritten(7);
    CollisionIntended(7);
  }

  /** Two rows of one subject `s`, labelled 2 then 1, end up both labelled 2. */
  lemma CollisionAsWritten(s: int)
    ensures ResetListResult([s, s], [2, 1]) == [2, 2]
  {
    OneSubject(s);
    CollisionLists(s);
    CollisionRelabel(s);
    assert ResetFrom([s, s], [2, 2], [s], 1) == [2, 2];
  }

  /** The same two rows are meant to be labelled 1 then 2. */
  lemma CollisionIntended(s: int)
    ensures ResetClean([s, s], [2, 1]) == [1, 2]
  {
    CollisionLists(s);
    var ls := SubjectLists([s, s], [2, 1], s);
    assert IndexOf(ls, 2) == 0 && IndexOf(ls, 1) == 1;
    var r := ResetClean([s, s], [2, 1]);
    assert r[0] == CleanLabel([s, s], [2, 1], 0) == 1;
    assert r[1] == CleanLabel([s, s], [2, 1], 1) == 2;
  }

  lemma OneSubject(s: int)
    ensures Unique([s, s]) == [s]
  {
    UniqueSnoc([], s);
    UniqueSnoc([s], s);
    assert [] + [s] == [s] && [s] + [s] == [s, s];
  }

  lemma CollisionLists(s: int)
    ensures SubjectLists([s, s], [2, 1], s) == [2, 1]
  {
    CollisionRows(s);
    UniqueTwo(2, 1);
  }

  lemma CollisionRows(s: int)
    ensures ListsOf([s, s], [2, 1], s) == [2, 1]
  {
    var rest := ListsOf([s], [1], s);
    assert rest == [1] by {
      assert [s][1..] == [] && [1][1..] == [];
    }
    assert [s, s][1..] == [s] && [2, 1][1..] == [1];
  }

  lemma UniqueTwo(a: nat, b: nat)
    requires a != b
    ensures Unique([a, b]) == [a, b]
  {
    UniqueSnoc([], a);
    UniqueSnoc([a], b);
    assert [] + [a] == [a] && [a] + [b] == [a, b];
  }

  /** The first assignment gives list 2 the label 1, the second then gives
      every row labelled 1 the label 2. */
  lemma CollisionRelabel(s: int)
    ensures RelabelFrom([s, s], [2, 1], s, [2, 1], 0) == [2, 2]
  {
    var first := Relabel([s, s], [2, 1], s, 2, 1);
    assert first == [1, 1];
    var second := Relabel([s, s], first, s, 1, 2);
    assert second == [2, 2];
    assert RelabelFrom([s, s], second, s, [2, 1], 2) == [2, 2];
  }

  /** Some new label `i + 1` of an earlier list equals the label `ls[i]` of
      a list still to be processed. */
  predicate Clash(ls: seq<nat>)
  {
    exists i :: 0 <= i < |ls| && 1 <= ls[i] <= i
  }

  /** No subject's renumbering runs into one of its own old labels. */
  predicate NoCollision(subjects: seq<int>, labels: seq<nat>)
    requires |subjects| == |labels|
  {
    forall s :: s in subjects ==> !Clash(SubjectLists(subjects, labels, s))
  }

  /** The table after the subjects in `done` were renumbered as intended. */
  function Cleaned(subjects: seq<int>, labels: seq<nat>, done: seq<int>): (r: seq<nat>)
    requires |subjects| == |labels|
    ensures |r| == |labels|
  {
    seq(|labels|, k requires 0 <= k < |labels| =>
      if subjects[k] in done then CleanLabel(subjects, labels, k) else labels[k])
  }

  /** ... and then the first `i` lists of subject `s`. */
  function Partial(subjects: seq<int>, labels: seq<nat>, done: seq<int>, s: int, ls: seq<nat>, i: nat): (r: seq<nat>)
    requires |subjects| == |labels| && i <= |ls|
    ensures |r| == |labels|
  {
    seq(|labels|, k requires 0 <= k < |labels| =>
      if subjects[k] in done then CleanLabel(subjects, labels, k)
      else if subjects[k] == s && labels[k] in ls[..i] then IndexOf(ls, labels[k]) + 1
      else labels[k])
  }

  lemma RelabelStepClean(subjects: seq<int>, labels: seq<nat>, done: seq<int>, s: int, i: nat)
    requires |subjects| == |labels| && s !in done
    requires !Clash(SubjectLists(subjects, labels, s))
    requires i < |SubjectLists(subjects, labels, s)|
    ensures (var ls := SubjectLists(subjects, labels, s);
             Relabel(subjects, Partial(subjects, labels, done, s, ls, i), s, ls[i], i + 1) ==
             Partial(subjects, labels, done, s, ls, i + 1))
  {
    var ls := SubjectLists(subjects, labels, s);
    var cur := Partial(subjects, labels, done, s, ls, i);
    var next := Partial(subjects, labels, done, s, ls, i + 1);
    assert ls[..i + 1] == ls[..i] + [ls[i]];
    DistinctIndex(ls, i);
    forall k | 0 <= k < |labels|
      ensures Relabel(subjects, cur, s, ls[i], i + 1)[k] == next[k]
    {
      if subjects[k] == s && labels[k] in ls[..i] {
        var j :| 0 <= j < i && ls[j] == labels[k];
        assert IndexOf(ls, labels[k]) <= j;
        assert cur[k] != ls[i];
      }
    }
  }

  lemma {:induction false} RelabelFromClean(subjects: seq<int>, labels: seq<nat>, done: seq<int>, s: int, i: nat)
    requires |subjects| == |labels| && s !in done
    requires !Clash(SubjectLists(subjects, labels, s))
    requires i <= |SubjectLists(subjects, labels, s)|
    ensures (var ls := SubjectLists(subjects, labels, s);
             RelabelFrom(subjects, Partial(subjects, labels, done, s, ls, i), s, ls, i) ==
             Cleaned(subjects, labels, done + [s]))
    decreases |SubjectLists(subjects, labels, s)| - i
  {
    var ls := SubjectLists(subjects, labels, s);
    if i < |ls| {
      RelabelStepClean(subjects, labels, done, s, i);
      RelabelFromClean(subjects, labels, done, s, i + 1);
    } else {
      assert ls[..i] == ls;
      forall k | 0 <= k < |labels| && subjects[k] == s
        ensures labels[k] in ls
      {
        ListsOfMembers(subjects, labels, s, labels[k]);
      }
    }
  }

  lemma PartialStart(subjects: seq<int>, labels: seq<nat>, done: seq<int>, s: int, ls: seq<nat>)
    requires |subjects| == |labels|
    ensures Partial(subjects, labels, done, s, ls, 0) == Cleaned(subjects, labels, done)
  {
    assert ls[..0] == [];
  }

  lemma CleanedSame(subjects: seq<int>, labels: seq<nat>, done: seq<int>, done': seq<int>)
    requires |subjects| == |labels|
    requires forall x :: x in done <==> x in done'
    ensures Cleaned(subjects, labels, done) == Cleaned(subjects, labels, done')
  {
  }

  lemma {:induction false} ResetFromClean(subjects: seq<int>, labels: seq<nat>, us: seq<int>, j: nat)
    requires |subjects| == |labels| && Distinct(us) && j <= |us|
    requires forall s :: s in us ==> !Clash(SubjectLists(subjects, labels, s))
    ensures ResetFrom(subjects, Cleaned(subjects, labels, us[..j]), us, j) == Cleaned(subjects, labels, us)
    decreases |us| - j
  {
    var cur := Cleaned(subjects, labels, us[..j]);
    if j < |us| {
      var s := us[j];
      assert s !in us[..j];
      ListsOfAgree(subjects, cur, labels, s);
      var ls := SubjectLists(subjects, labels, s);
      PartialStart(subjects, labels, us[..j], s, ls);
      RelabelFromClean(subjects, labels, us[..j], s, 0);
      assert us[..j] + [s] == us[..j + 1];
      CleanedSame(subjects, labels, us[..j] + [s], us[..j + 1]);
      ResetFromClean(subjects, labels, us, j + 1);
    } else {
      assert us[..j] == us;
    }
  }

  /** When no subject's renumbering runs into one of its own old labels (as
      with lists labelled 3 and 4), reset_list as written gives the intended
      renumbering. */
  lemma ResetListMatchesClean(subjects: seq<int>, labels: seq<nat>)
    requires |subjects| == |labels| && NoCollision(subjects, labels)
    ensures ResetListResult(subjects, labels) == ResetClean(subjects, labels)
  {
    var us := Unique(subjects);
    assert Cleaned(subjects, labels, us[..0]) == labels;
    ResetFromClean(subjects, labels, us, 0);
    assert Cleaned(subjects, labels, us) == ResetClean(subjects, labels);
  }
}
